=== FILE: README.md ===
# T-shirt design studio: a verified model of its core logic

This project models the logic of a t-shirt design web shop in Dafny and proves properties of it. Users describe a design in a prompt. A back end queues an image-generation task and balances work across GPU workers. The shop also keeps orders and products. The model covers these parts:

- **Back end.** The generation task queue and its lifecycle (pending, processing, completed, failed, plus the timeout sweep). The worker load balancer and its scoring. The bounded metrics history and its windowed averages. The worker-side status monitor. The health-check roll-up. The order and product schemas, the order controller, and the product routes.
- **Front end.** The cookie helper, the API client's retry and error-message logic, the authentication reducer, the prompt box's validation, and the design service's string helpers.

One Dafny module models each source file. Code that updates state step by step is modelled as a `class` with `modifies` clauses:

- the task queue, load balancer, system monitor and worker monitor;
- the auth slice and the prompt box.

Code that only computes becomes functions and lemmas. The task queue is also given as pure transition functions on a `QueueState` value. Each method is proved equal to its transition function, and the properties are lemmas about those functions. `Wrappers` holds `Option` and `Result`. `Strings` holds the JavaScript string operations the front end relies on (`split`, `indexOf`, `startsWith`, `replace` with a string pattern, `trim`), with their laws.

Some things become parameters of the model instead:

- **Clocks:** `datetime.utcnow()` and `Date.now()`.
- **Fresh identifiers:** `uuid4` and `ObjectId()`.
- **Outside services:** the inference API reply, `save_image`, file reads, the MongoDB collection and the browser's URI codec.
- **Network outcomes:** a request is a function from the attempt number to that attempt's outcome.

## Model

| member | source | states |
|---|---|---|
| Models.StatusesExactlyFour | back/models.py:6-10 | `TaskStatus` has exactly four members and their string values are pairwise distinct |
| Models.DefaultRequest | back/models.py:12-18 | a request given only a prompt takes style "realistic", colours [], size "M", priority 1, no callback, and satisfies the 1..5 priority bound |
| Models.NewTask | back/models.py:20-29 | a task built from the required fields has 0 attempts and no worker, start, completion or result |
| TaskQueues.EmptyInv | back/utils/task_queue.py:20-25 | the empty queue built by the constructor satisfies the queue invariant (pending ids distinct and registered, processing and finished ids registered) |
| TaskQueues.TryApiGeneration | back/utils/task_queue.py:70-102 | bytes are returned exactly when the prompt is non-empty and the reply carried non-empty data, and they are that data |
| TaskQueues.Register | back/utils/task_queue.py:104-147 | `add_task` keeps the queue invariant |
| TaskQueues.AddTaskOutcome | back/utils/task_queue.py:104-147 | the new task never enters the pending list. If generation and the save both succeed it is COMPLETED with the api result in `completed_tasks`. If the save raised, it is FAILED with that message. If there was no image, it is FAILED with "API generation failed". Either failure puts its id in `failed_tasks` |
| TaskQueues.Dequeue | back/utils/task_queue.py:149-160 | `get_next_task` keeps the queue invariant |
| TaskQueues.NextTaskEmpty | back/utils/task_queue.py:151-152 | on an empty pending list nothing is returned and nothing changes |
| TaskQueues.NextTaskTakesFront | back/utils/task_queue.py:154-160 | the front pending id is removed and returned. It joins `processing_tasks` with status PROCESSING and `started_at` = now, and the rest of the pending list keeps its order |
| TaskQueues.Inspect | back/utils/task_queue.py:162-184 | `get_task_status` keeps the queue invariant |
| TaskQueues.StatusOfUnknown | back/utils/task_queue.py:163-165 | an unknown id yields no report and leaves the queue unchanged |
| TaskQueues.StatusLazyTimeout | back/utils/task_queue.py:167-175 | a PROCESSING task past the 300 s timeout is reported FAILED with "Task timed out". It leaves `processing_tasks` and joins `failed_tasks`, and `completed_at` stays unset. Any other task is reported as stored |
| TaskQueues.Transition | back/utils/task_queue.py:186-212 | `update_task_status` keeps the queue invariant |
| TaskQueues.UpdateUnknownIsNoOp | back/utils/task_queue.py:187-190 | updating an unknown id changes nothing |
| TaskQueues.UpdateOverwritesStatus | back/utils/task_queue.py:192 | the new status is written whatever the old one was, even a terminal one |
| TaskQueues.UpdateCompleted | back/utils/task_queue.py:193-209 | COMPLETED with a non-empty result sets `completed_at` and stores the result in the task and in `completed_tasks`. If `image_data` is present without `image_url`, the url `/images/{id}.png` is added |
| TaskQueues.UpdateFailedUnknown | back/utils/task_queue.py:210-212 | FAILED without a result stores `{"error": "Unknown error"}` and adds the id to `failed_tasks` |
| TaskQueues.Expire | back/utils/task_queue.py:224-226 | a timed-out task becomes FAILED with "Task timed out" and `completed_at` = now, and keeps its id, request and start time |
| TaskQueues.Sweep | back/utils/task_queue.py:216-228 | `cleanup_timed_out_tasks` keeps the queue invariant |
| TaskQueues.SweepFailsExactlyTimedOut | back/utils/task_queue.py:220-228 | a task is expired and moved from `processing_tasks` to `failed_tasks` exactly when it is processing and started more than 300 s ago. Every other task is untouched |
| TaskQueues.SweepFlipsCompleted | back/utils/task_queue.py:220-228 | a task marked COMPLETED while still in `processing_tasks` is flipped to FAILED by the sweep once past the timeout |
| TaskQueues.SizeAtMostTasks | back/utils/task_queue.py:230-232 | pending plus processing never exceeds the number of registered tasks |
| TaskQueues.WaitAfterAddTask | back/utils/task_queue.py:242-267 | right after `add_task`, a waiting caller gets the api result exactly when generation and save succeeded, and nothing otherwise |
| TaskQueues.CompletedAfterFailedIsAwaited | back/utils/task_queue.py:255-260 | a task failed and then completed is in both `failed_tasks` and `completed_tasks`, and the waiter gets its result because `completed_tasks` is checked first |
| TaskQueues.Step | back/utils/task_queue.py:104-228 | every queue operation keeps the queue invariant |
| TaskQueues.Run | back/utils/task_queue.py:104-228 | any sequence of queue operations keeps the queue invariant |
| TaskQueues.StepAddsNoPending | back/utils/task_queue.py:104-228 | no operation puts an id on the pending list |
| TaskQueues.PoppedNeverReturned | back/utils/task_queue.py:154-160 | a task handed out by `get_next_task` is never handed out again, whatever operations follow |
| TaskQueues.NotPendingAfterRun | back/utils/task_queue.py:104-228 | an id absent from the pending list stays absent through any run of operations |
| TaskQueues.PendingAlwaysEmpty | back/utils/task_queue.py:104-147 | from the empty queue the pending list stays empty forever, so `get_next_task` never yields a task |
| TaskQueues.TaskQueue.constructor | back/utils/task_queue.py:20-26 | the new queue is valid and empty |
| TaskQueues.TaskQueue.AddTask | back/utils/task_queue.py:104-147 | returns the drawn id, and the new state is `Register` of the old one |
| TaskQueues.TaskQueue.GetNextTask | back/utils/task_queue.py:149-160 | the new state is `Dequeue` of the old. Nothing is returned iff the pending list was empty, and otherwise the front task is returned |
| TaskQueues.TaskQueue.GetTaskStatus | back/utils/task_queue.py:162-184 | the new state and the report are those of `Inspect` |
| TaskQueues.TaskQueue.UpdateTaskStatus | back/utils/task_queue.py:186-214 | the new state is `Transition` of the old |
| TaskQueues.TaskQueue.CleanupTimedOutTasks | back/utils/task_queue.py:216-228 | the loop over `processing_tasks` produces exactly `Sweep` of the old state |
| TaskQueues.TaskQueue.Size | back/utils/task_queue.py:230-240 | `size()` equals `pending_count() + processing_count()` and is at most the number of tasks |
| TaskQueues.TaskQueue.WaitForResult | back/utils/task_queue.py:242-267 | returns the `completed_tasks` entry if present (checked before `failed_tasks`), and otherwise nothing. It polls once when the id is finished and 2·timeout times when it never finishes |
| LoadBalancing.SuccessRate | back/load_balancer.py:46 | 0 when there are no completed or failed tasks, and within [0, 1] for non-negative counts |
| LoadBalancing.ScoreBounds | back/load_balancer.py:42-50 | with inputs in range the score is in [0, 1]. Lower utilisation, a higher success rate and more free memory never lower it |
| LoadBalancing.ScoreExample | back/load_balancer.py:42-50 | an idle reliable worker scores 0.92 and a busy error-prone one 0.28 |
| LoadBalancing.Candidates | back/load_balancer.py:22-34 | the collected candidates are workers in insertion order, each eligible (available, idle, heartbeat within 30 s) and paired with its score |
| LoadBalancing.CandidatesComplete | back/load_balancer.py:26-34 | every eligible worker appears among the candidates |
| LoadBalancing.FirstMaxUnique | back/load_balancer.py:40 | the first position of the maximum score is unique |
| LoadBalancing.MaxByScore | back/load_balancer.py:40 | returns the first candidate with the greatest score, as Python's `max` does |
| LoadBalancing.LoadBalancer.constructor | back/load_balancer.py:9-11 | no workers |
| LoadBalancing.LoadBalancer.UpdateWorkerStatus | back/load_balancer.py:13-16 | the worker's status is stored with its heartbeat stamped now. A new worker is appended to the iteration order and an existing one keeps its place |
| LoadBalancing.LoadBalancer.RemoveWorker | back/load_balancer.py:18-20 | the worker is dropped from the map and the order. Removing an unknown worker changes nothing |
| LoadBalancing.LoadBalancer.GetAvailableWorker | back/load_balancer.py:22-40 | nothing iff no worker is eligible. Otherwise the chosen worker is eligible, scores at least as high as every eligible worker, and is the first maximum among the candidates |
| LoadBalancing.LoadBalancer.GetWorkerStatuses | back/load_balancer.py:52-61 | one report per worker in insertion order with its stored status, and `active` iff its heartbeat is within 30 s |
| LoadBalancing.Reports | back/load_balancer.py:54-61 | the comprehension yields one report per worker id, with its status and liveness |
| LoadBalancing.Without | back/load_balancer.py:19 | removing an id keeps exactly the other ids |
| LoadBalancing.WithoutKeeps | back/load_balancer.py:18-20 | removal keeps ids distinct, and removing an absent id changes nothing |
| LoadBalancing.EligibleIsReportedActive | back/load_balancer.py:58 | a worker eligible for assignment is reported active |
| SystemMonitoring.BoundedAppend | back/monitoring.py:11-18 | appending to a bounded deque keeps the newest min(n+1, cap) entries, with the new entry last |
| SystemMonitoring.BoundedAppendAtCapacity | back/monitoring.py:11 | at capacity the oldest entry is dropped |
| SystemMonitoring.Since | back/monitoring.py:65-68 | the window holds only samples stamped at or after its start, and is empty iff every sample is older |
| SystemMonitoring.SinceNested | back/monitoring.py:54-68 | a non-empty narrower window implies a non-empty wider one |
| SystemMonitoring.SinceLast | back/monitoring.py:94-97 | the last entry of a window is the last recent sample of the history |
| SystemMonitoring.MaxInt | back/monitoring.py:73 | the maximum is one of the values and bounds them all |
| SystemMonitoring.QueueLengths | back/monitoring.py:72-73 | the queue lengths of the window, in order |
| SystemMonitoring.ActiveWorkers | back/monitoring.py:74 | the active-worker counts of the window, in order |
| SystemMonitoring.Stats | back/monitoring.py:70-75 | each average times the window size is the sum, and the maximum queue length is one of the lengths |
| SystemMonitoring.MaxAtLeastAverage | back/monitoring.py:72-73 | the average queue length never exceeds the maximum |
| SystemMonitoring.WindowEntry | back/monitoring.py:63-75 | a window gets an entry iff some sample lies inside it |
| SystemMonitoring.SystemMetricsEntries | back/monitoring.py:49-77 | an empty history gives `{}`. Otherwise the key of a window ("1m", "5m", "1h") is present iff it holds a sample, and maps to that window's statistics |
| SystemMonitoring.WindowsNested | back/monitoring.py:54-58 | a 1m entry implies a 5m entry, which implies a 1h entry |
| SystemMonitoring.GpuUtilizations | back/monitoring.py:92 | the utilisations of the recent samples, in order |
| SystemMonitoring.MemoryAvailable | back/monitoring.py:93 | the free-memory values of the recent samples, in order |
| SystemMonitoring.WorkerMetrics | back/monitoring.py:79-98 | `{}` for an empty list or when no sample is from the last 5 minutes |
| SystemMonitoring.WorkerMetricsFromLastRecent | back/monitoring.py:94-97 | counters, current task and heartbeat come from the last recent sample |
| SystemMonitoring.SystemMonitor.constructor | back/monitoring.py:10-12 | empty history and no workers |
| SystemMonitoring.SystemMonitor.UpdateSystemMetrics | back/monitoring.py:14-18 | the stamped sample is appended to the history capped at 1000, and the worker metrics are unchanged |
| SystemMonitoring.SystemMonitor.UpdateWorkerMetrics | back/monitoring.py:23-30 | the worker's history (created on first use) gets the stamped sample, capped at 100. Other workers and the system history are unchanged |
| SystemMonitoring.SystemMonitor.CalculateSystemMetrics | back/monitoring.py:49-77 | the loop over the three windows computes exactly `SystemMetrics` of the history |
| SystemMonitoring.SystemMonitor.GetMetrics | back/monitoring.py:32-47 | the report carries the system metrics, one worker summary per known worker, and the timestamp |
| WorkerMonitoring.GetGpuMetrics | worker/monitoring.py:52-78 | zeros without a GPU or when the probe raises. Otherwise utilisation is allocated/total·100 and memory is in GiB |
| WorkerMonitoring.GpuUtilizationPercent | worker/monitoring.py:68 | utilisation lies in [0, 100] when allocation does not exceed the total |
| WorkerMonitoring.StateOf | worker/monitoring.py:121 | "busy" iff a non-empty current task is set, and otherwise "ready" |
| WorkerMonitoring.WorkerMonitor.constructor | worker/monitoring.py:9-14 | no task, zero counters, the start time and GPU flag given |
| WorkerMonitoring.WorkerMonitor.StartTask | worker/monitoring.py:80-83 | the task becomes current and the counters are unchanged |
| WorkerMonitoring.WorkerMonitor.CompleteTask | worker/monitoring.py:85-89 | one more completed task and no current task |
| WorkerMonitoring.WorkerMonitor.FailTask | worker/monitoring.py:91-95 | one more error and no current task |
| WorkerMonitoring.WorkerMonitor.GetStatus | worker/monitoring.py:97-129 | a failing probe gives the "error" status with its message. Otherwise the report has the counters, the current task, the GPU metrics, busy or ready, and the uptime in seconds since the start time |
| Health.LevelsDistinct | back/controller/info.py:6-42 | the three levels have distinct texts and severities |
| Health.Worst | back/controller/info.py:38-42 | the worst level among the components: at least as severe as each, one of them, and healthy when there are none |
| Health.RollUpIsWorst | back/controller/info.py:38-42 | the any-unhealthy-then-any-degraded roll-up starting from "healthy" equals the worst component level |
| Health.AllHealthyStays | back/controller/info.py:38-42 | with every component healthy the roll-up leaves the overall status as it was |
| Health.HealthCheck | back/controller/info.py:3-57 | an unexpected error gives 500 "unhealthy" with its message. Otherwise 200 with version "1.0.0", workers healthy iff some are connected, the queue size, storage unhealthy iff not writable, and the overall status the worst component |
| OrderSchemas.OrderStatusesExactlySix | back/schemas/order.py:22-28 | six order states with distinct values |
| OrderSchemas.ParseStatus | back/schemas/order.py:22-28 | a parsed status has the given value |
| OrderSchemas.ParseStatusValue | back/schemas/order.py:22-28 | every status parses back from its value |
| OrderSchemas.ParseSize | back/schemas/order.py:6-12 | a parsed size has the given value |
| OrderSchemas.ParseSizeValue | back/schemas/order.py:6-12 | every size parses back from its value |
| OrderSchemas.ParseColor | back/schemas/order.py:14-20 | a parsed colour has the given value |
| OrderSchemas.ParseColorValue | back/schemas/order.py:14-20 | every colour parses back from its value |
| OrderSchemas.ParsePayment | back/schemas/order.py:30-33 | a parsed payment method has the given value |
| OrderSchemas.ParsePaymentValue | back/schemas/order.py:30-33 | every payment method parses back from its value |
| OrderSchemas.ValidateQuantity | back/schemas/order.py:53-57 | accepts iff positive, returning it unchanged, and otherwise fails with "Quantity must be positive" |
| OrderSchemas.ParseItem | back/schemas/order.py:45-57 | an item is accepted iff quantity > 0, price > 0, and size and colour are members, and it then keeps its fields. A rejection lists at least one error |
| OrderSchemas.NonPositiveQuantityMessage | back/schemas/order.py:48-57 | a non-positive quantity is reported by the `gt=0` constraint, and the validator's own message is never reached |
| OrderSchemas.OptionalAmount | back/schemas/order.py:68-69 | an unset discount or shipping cost is 0, an explicit null stays null, and a given value is kept |
| OrderSchemas.StatusField | back/schemas/order.py:62 | unset means PENDING and null is rejected. A given value is accepted iff it is a member, and keeps its value |
| OrderSchemas.ParseItems | back/schemas/order.py:66 | the list is accepted iff every item is, and is then parsed item by item |
| OrderSchemas.ParseOrder | back/schemas/order.py:59-69 | an order is accepted iff every field constraint holds. Its fields are then the input's: user, total, the parsed items, the payment method with the given value, the shipping address unchanged, the status (PENDING when unset) and both amounts |
| OrderSchemas.ParseOrderUpdate | back/schemas/order.py:74-76 | an empty update has no fields. A field is set iff it was given a non-null value, and then holds that value (the status with the given text, the tracking number as given). Only an unknown status is rejected |
| OrderControl.Rewrap | back/controller/order.py:94-95 | whatever was raised inside the handler leaves it as a 500 |
| OrderControl.DescribeExample | back/controller/order.py:89-95 | a 404 "Order not found" becomes the text "404: Order not found" |
| OrderControl.View | back/controller/order.py:46 | the returned order carries its id as text and its stored fields |
| OrderControl.SubtotalAppend | back/controller/order.py:30 | the subtotal of concatenated item lists is the sum of their subtotals |
| OrderControl.SubtotalPositive | back/controller/order.py:30 | valid items give a positive subtotal |
| OrderControl.ExpectedTotal | back/controller/order.py:30-31 | defined iff shipping and discount are not null, and then equals subtotal + shipping − discount |
| OrderControl.CreateOrder | back/controller/order.py:17-49 | a null amount raises a bare TypeError whose text names the operator that met `None` (`+` for shipping, `-` for discount) and the left operand's type. A total off by more than 0.01 gives 400 and a failed insert gives 500. Success appends the stored order with payment status "pending", and only then |
| OrderControl.NoneShippingMessage | back/controller/order.py:30-31 | a null shipping cost over a non-empty item list is reported as `unsupported operand type(s) for +: 'float' and 'NoneType'` |
| OrderControl.NoneDiscountMessage | back/controller/order.py:30-31 | a null discount with no items and a zero shipping cost is reported as `unsupported operand type(s) for -: 'int' and 'NoneType'` |
| OrderControl.ExactTotalAccepted | back/controller/order.py:33-38 | an order whose total is exactly the computed one passes the check |
| OrderControl.OrdersQuery | back/controller/order.py:64 | admins query everything, and others filter on `user_id` only |
| OrderControl.OrdersQueryMatches | back/controller/order.py:64-67 | an admin's query matches every order, and a user's matches exactly that user's orders |
| OrderControl.Find | back/controller/order.py:67 | an order is found iff it is stored and matches the query, and a query every order matches finds them all, in stored order |
| OrderControl.FindAppend | back/controller/order.py:67 | finding in two concatenated collections is finding in each and concatenating, so the stored order is kept |
| OrderControl.Page | back/controller/order.py:67 | the result is the slice of the found orders starting at `skip`, of length min(remaining, |limit|) for a non-zero limit (a negative limit counts as its absolute value). Limit 0 gives everything after `skip`, and a skip past the end gives nothing |
| OrderControl.AdminSeesAll | back/controller/order.py:59-67 | with skip 0 and limit 0 an admin's query returns the whole collection in stored order |
| OrderControl.GetOrders | back/controller/order.py:51-76 | a negative skip gives 500 "skip must be >= 0", checked before the database is touched. Then a database error gives 500 with its message. Otherwise the page of matching orders, each with its id as text |
| OrderControl.LowerHex | back/controller/order.py:83 | the id in lower-case hex, character by character |
| OrderControl.OrderByIdQuery | back/controller/order.py:83-85 | the query filters on the id, and on the user too for non-admins |
| OrderControl.GetOrderById | back/controller/order.py:78-95 | every error leaves as a 500: an invalid id (with the `InvalidId` text), a database error (with its message), and even the "404: Order not found" raised inside the try. Otherwise the first matching order |
| OrderControl.InvalidIdMessage | back/controller/order.py:83 | the `InvalidId` text starts with Python's `repr` of the id, and a plain id appears between single quotes followed by the fixed explanation |
| OrderControl.ReprPlain | back/controller/order.py:83 | `repr` of text with nothing to escape and no single quote is that text between single quotes |
| OrderControl.ReprOfQuote | back/controller/order.py:83 | an id holding a single quote is shown between double quotes |
| OrderControl.OrderByIdOwnOnly | back/controller/order.py:84-87 | a non-admin only ever gets back an order of their own, under the id asked for |
| OrderControl.ApplyUpdate | back/controller/order.py:112-122 | the given status and tracking number overwrite, `updated_at` is now, and nothing else changes |
| OrderControl.FirstWithId | back/controller/order.py:87 | the first document with the id, if any |
| OrderControl.ApplyUpdateMatches | back/controller/order.py:112-119 | `$set` of the update never changes `_id` or `user_id`, so a document the query matched still matches |
| OrderControl.UpdatedStillVisible | back/controller/order.py:101-128 | an order the caller may read has a document with its id, and the caller can read it back after that document is updated |
| OrderControl.UpdateOrder | back/controller/order.py:97-131 | every failure leaves as a 500, and a failed lookup passes on its own error. For an order the caller may read, the update succeeds iff it modifies the stored document. It then stores the updated order and returns its re-read. Otherwise the detail is "400: Order update failed" |
| ProductSchemas.FirstNegative | back/schemas/product.py:36-41 | the first stock entry with a negative count, and none iff all are non-negative |
| ProductSchemas.StockCheck | back/schemas/product.py:36-41 | the stock is accepted unchanged iff no count is negative |
| ProductSchemas.ValidateStock | back/schemas/product.py:36-41 | the loop agrees with `StockCheck`, and a rejection names an entry whose count is negative |
| ProductSchemas.ParseSizes | back/schemas/product.py:30 | the list is accepted iff every size is a member, and keeps its values |
| ProductSchemas.ParseColors | back/schemas/product.py:31 | the list is accepted iff every colour is a member, and keeps its values |
| ProductSchemas.StockField | back/schemas/product.py:33 | unset stock is `{}`, null is rejected, and a given map is checked |
| ProductSchemas.ActiveField | back/schemas/product.py:34 | unset means active, a given flag is kept, and null is rejected |
| ProductSchemas.ParseProduct | back/schemas/product.py:23-41 | a product is accepted iff every field constraint holds (name 3..100, description ≤ 500, price > 0, members, stock). It then keeps its fields: name, price, creator, design, the description text when given, the sizes and colours entry by entry, the stock (`{}` when unset) and the active flag (true when unset) |
| ProductSchemas.NegativeStockRejected | back/schemas/product.py:36-41 | any negative count rejects the product |
| ProductSchemas.SuppliedFields | back/schemas/product.py:46-53 | `exclude_unset` keeps exactly the supplied fields, explicit nulls included: each of the seven field names is a key iff that field was supplied, and no other key appears |
| ProductRoutes.BuildFilter | back/routes/product.py:56-73 | the filter satisfies `FilterFor` its parameters: creator and design filter iff non-empty, the active flag iff given, a price range iff either bound is given with `$gte`/`$lte` present iff that bound is, and no other keys. With no parameters it is empty |
| ProductRoutes.FilterForUnique | back/routes/product.py:56-73 | the parameters determine the filter: two filters that both satisfy `FilterFor` the same parameters are equal |
| ProductRoutes.CheckPagination | back/routes/product.py:42-43 | page ≥ 1 and 1 ≤ limit ≤ 100 pass, and anything else is a 422 |
| ProductRoutes.ListProducts | back/routes/product.py:40-80 | a 422 for bad paging. Otherwise the filter handed to the service is the one `FilterFor` the query parameters determines, together with the page and limit |
| ProductRoutes.CreateProductData | back/routes/product.py:30-33 | the creator becomes the current user and every other field is kept |
| ProductRoutes.UpdateProduct | back/routes/product.py:90-118 | the lookup's error first, then 403 for a non-creator. For the creator the outcome is the service's: the supplied fields and the updated product on success, the service's error otherwise |
| ProductRoutes.DeleteProduct | back/routes/product.py:120-143 | the lookup's error first, then 403 for a non-creator, and success iff the creator asks and the service succeeds |
| ProductRoutes.CreatorAloneMayModify | back/routes/product.py:107-111 | a product created by one user cannot be updated or deleted by another |
| ProductRoutes.RoutesFailAsWritten | back/routes/product.py:30-140 | as written every create answers 500, and an update or delete answers the product lookup's error or else 500 |
| ProductRoutes.ForbiddenNeverReachedAsWritten | back/routes/product.py:103-140 | another user's update or delete of a stored product gets 403 from the intended route but 500 as written |
| Strings.IndexOf | front/src/services/designService.ts:82 | the first position where the pattern occurs, and none iff it occurs nowhere |
| Strings.IndexOfFirst | front/src/services/designService.ts:82 | the position of the first occurrence is what `indexOf` returns |
| Strings.Split | front/src/utils/cookie.tsx:9 | at least one piece, and no piece contains the separator |
| Strings.JoinSplit | front/src/utils/cookie.tsx:9-11 | joining the pieces with the separator gives the text back |
| Strings.RemoveFirst | front/src/services/designService.ts:151 | text without the pattern is unchanged. Otherwise the first occurrence is cut out: the result is the text before it followed by the text after it |
| Strings.Trim | front/src/components/TShirtCustomizer/PromptInput.tsx:21 | the result is a slice of the text with only whitespace cut on each side, and it neither starts nor ends with whitespace |
| Strings.CutTwice | front/src/components/TShirtCustomizer/PromptInput.tsx:21 | cutting leading whitespace and then trailing whitespace leaves a slice of the original with only whitespace on either side |
| Strings.TrimEmptyIff | front/src/components/TShirtCustomizer/PromptInput.tsx:21 | trimming leaves nothing iff the text is all whitespace |
| Strings.TrimIdempotent | front/src/components/TShirtCustomizer/PromptInput.tsx:36 | trimming twice is trimming once |
| Cookies.FindRow | front/src/utils/cookie.tsx:8-10 | the first row starting with the prefix, and none iff no row does |
| Cookies.Get | front/src/utils/cookie.tsx:7-12 | null iff no "; "-separated row starts with `name=`. Otherwise the first such row has at least two '='-pieces and the result is the decoding of its second piece, or the malformed-URI error |
| Cookies.GetFirstRow | front/src/utils/cookie.tsx:8-11 | for a matching first row, the value is the decoded text between the first and second '=' |
| Cookies.GetTruncatesAtEquals | front/src/utils/cookie.tsx:11 | `k=a=b` reads back as the decoding of `a` |
| Cookies.ExpiryMs | front/src/utils/cookie.tsx:35-38 | a number of days means now + days·86 400 000 ms, and a date is used as given |
| Cookies.CookieStringStartsWithPair | front/src/utils/cookie.tsx:30-32 | every cookie string starts with `encode(name)=encode(value)` |
| Cookies.NoOptionsIsBarePair | front/src/utils/cookie.tsx:28-32 | with no options the cookie string is the bare pair |
| Cookies.AttributesInOrder | front/src/utils/cookie.tsx:34-52 | expires, path, domain and secure are each emitted iff their option is truthy, in that order |
| Cookies.SetThenGet | front/src/utils/cookie.tsx:7-32 | under the URI codec laws, `get` reads back what `set` wrote for a name encoding leaves unchanged |
| Cookies.Set | front/src/utils/cookie.tsx:20-55 | the appended string equals the pair followed by the truthy attributes in order |
| Cookies.Remove | front/src/utils/cookie.tsx:62-70 | `set` with an empty value and expires −1: an expiry one day in the past is always emitted, and never the secure flag |
| Cookies.Update | front/src/utils/cookie.tsx:78-89 | the same string `set` writes |
| ApiService.Detail | front/src/service/apiService.ts:65 | a non-empty text body is used, and a missing or empty body falls back to the error message |
| ApiService.StatusMessage | front/src/service/apiService.ts:64-83 | 401, 403, 404, 429 and 500 give their fixed messages. The "Invalid request: " form iff 400, and the "An error occurred: " form iff the status has no fixed message |
| ApiService.HandleError | front/src/service/apiService.ts:55-83 | the timeout message for ECONNABORTED, checked first. Then the cannot-connect message without a response. Then the status message |
| ApiService.FixedMessagesDistinct | front/src/service/apiService.ts:67-82 | different handled statuses give different messages |
| ApiService.Intercept | front/src/service/apiService.ts:21-24 | successes pass through, and every failure leaves as a plain `Error` |
| ApiService.RetryRequest | front/src/service/apiService.ts:31-45 | at most retries + 1 attempts. The outcome is the last attempt's, and every earlier attempt failed with a retryable error |
| ApiService.Request | front/src/service/apiService.ts:85-90 | between 1 and 3 attempts |
| ApiService.RequestSettlesOnFirstFinal | front/src/service/apiService.ts:31-45 | the request settles on the first attempt that succeeds or fails non-retryably, or on the third attempt |
| ApiService.PlainErrorsNeverRetried | front/src/service/apiService.ts:47-53 | an error that is not an axios error is never retried |
| ApiService.IssuedRequestsAttemptedOnce | front/src/service/apiService.ts:21-53 | with the interceptor in place every request is attempted exactly once |
| ApiService.CheckHealth | front/src/service/apiService.ts:124-132 | true iff the health request succeeds, and it never throws |
| Auth.RejectionPayload | front/src/store/AuthSlice.tsx:31-36 | the generic message unless the error is an axios error with a response. The body's non-empty `message` when there is one, and the thunk's own fallback ("Login failed" or "Signup failed") when the response body has none |
| Auth.ServiceRejectionsAreUnexpected | front/src/store/AuthSlice.tsx:21-55 | through the API service a rejected login or signup always carries "An unexpected error occurred" |
| Auth.InitialToken | front/src/store/AuthSlice.tsx:14-16 | a malformed cookie escape makes `Cookie.get` throw, so the store fails to load. Otherwise the token is the cookie's value when non-empty, and none when the cookie is missing or empty |
| Auth.AuthSlice.constructor | front/src/store/AuthSlice.tsx:14-19 | logged in iff a non-empty token cookie exists, and the token is that cookie or null |
| Auth.AuthSlice.Logout | front/src/store/AuthSlice.tsx:64-68 | token null, logged out, and the removal cookie written |
| Auth.AuthSlice.ClearError | front/src/store/AuthSlice.tsx:69-71 | the error is cleared and nothing else changes |
| Auth.AuthSlice.LoginPending | front/src/store/AuthSlice.tsx:76-79 | loading with no error |
| Auth.AuthSlice.LoginFulfilled | front/src/store/AuthSlice.tsx:80-84 | logged in with the returned token, and no longer loading |
| Auth.AuthSlice.LoginRejected | front/src/store/AuthSlice.tsx:85-88 | the payload becomes the error, and no longer loading |
| Auth.AuthSlice.SignupPending | front/src/store/AuthSlice.tsx:90-93 | loading with no error |
| Auth.AuthSlice.SignupFulfilled | front/src/store/AuthSlice.tsx:94-98 | signing up leaves the user logged out with no token |
| Auth.AuthSlice.SignupRejected | front/src/store/AuthSlice.tsx:99-102 | the payload becomes the error, and no longer loading |
| PromptInputs.PromptProblem | front/src/components/TShirtCustomizer/PromptInput.tsx:20-28 | the empty-description error iff blank after trimming. The length error iff non-blank and longer than 200 untrimmed. No error otherwise |
| PromptInputs.AcceptedPromptBounds | front/src/components/TShirtCustomizer/PromptInput.tsx:20-31 | an accepted prompt trims to 1..200 characters |
| PromptInputs.BlankBeforeLength | front/src/components/TShirtCustomizer/PromptInput.tsx:21-28 | blank text of any length gets the empty-description error |
| PromptInputs.PromptInput.constructor | front/src/components/TShirtCustomizer/PromptInput.tsx:11-13 | empty prompt, no error, counter 0 |
| PromptInputs.PromptInput.ValidatePrompt | front/src/components/TShirtCustomizer/PromptInput.tsx:20-31 | accepts iff there is no problem, and the local error becomes the problem found or null |
| PromptInputs.PromptInput.HandleSubmit | front/src/components/TShirtCustomizer/PromptInput.tsx:33-38 | the trimmed prompt is generated iff it validates |
| PromptInputs.PromptInput.HandlePromptChange | front/src/components/TShirtCustomizer/PromptInput.tsx:40-48 | the prompt is replaced, the counter follows, and the length error is set iff the text exceeds 200 |
| PromptInputs.PromptInput.SubmitDisabled | front/src/components/TShirtCustomizer/PromptInput.tsx:78 | disabled exactly when the prompt is blank after trimming, a generation is running, or a local error is shown. An enabled button always submits a prompt that validates |
| DesignServices.InitialDesignTransform | front/src/services/designService.ts:11-21 | with background, no texture, rotation 0, scale 1, all coordinates 0 |
| DesignServices.FullPrompt | front/src/services/designService.ts:53 | the prompt followed by the fixed photography suffix |
| DesignServices.FullPromptInjective | front/src/services/designService.ts:53 | different prompts are sent as different texts |
| DesignServices.BuildGenerateRequest | front/src/services/designService.ts:53-60 | the templated prompt with style "realistic", no colours, size "M", priority 1 |
| DesignServices.GenerateDesign | front/src/services/designService.ts:51-74 | the request's own error when the post fails. The non-empty image data when present, and otherwise "No image data received from the server" |
| DesignServices.StripBase64Prefix | front/src/services/designService.ts:82-84 | text without "base64," passes through. Otherwise the result is the text after the first "base64," up to the next one, and never contains the marker |
| DesignServices.StripPngDataUrl | front/src/services/designService.ts:82-84 | a PNG data URL is stripped to its payload |
| DesignServices.ColorLosesLeadingHash | front/src/services/designService.ts:151 | "#rrggbb" is sent as "rrggbb" |
| DesignServices.Tolerance | front/src/services/designService.ts:152 | 1 at intensity 0, 0 at intensity 100, and within [0, 1] in between |
| DesignServices.ToleranceDecreasing | front/src/services/designService.ts:152 | a higher intensity gives a strictly lower tolerance |
| DesignServices.AdjustColorIntensity | front/src/services/designService.ts:129-152 | a failing `atob` gives the generic failure. Otherwise the byte loop copies every character code, and the colour loses its '#' and the tolerance is 1 − intensity/100 |
| DesignServices.CheckHealth | front/src/services/designService.ts:23-38 | true iff /health or, failing that, /status succeeds |
| DesignServices.LoadDesignHistory | front/src/services/designService.ts:40-49 | the stored history, or an empty list when the request fails |

## Behaviour of the code worth knowing

- **Status overwrites.** `update_task_status` has no guard against overwriting a COMPLETED or FAILED task: it writes the new status whatever the old one was (back/utils/task_queue.py:192). The cleanup sweep likewise fails any task still in `processing_tasks`, including a completed one (`UpdateOverwritesStatus`, `SweepFlipsCompleted`).
- **Pending list.** `add_task` never appends to the pending list; it registers a task and runs the remote generation inline. `PendingAlwaysEmpty` shows that `get_next_task` can therefore never yield a task.
- **Order errors.** The order controller wraps each handler in `except Exception`. Its own 404 "Order not found" and 400 "Order update failed" therefore leave as 500 errors, with Starlette's text `"404: Order not found"` as the detail. In `create_order`, a null discount or shipping cost makes the subtraction raise a `TypeError` before the `try`, so it leaves as an unhandled error rather than an HTTP error.
- **Caller lookup.** Every route that needs the caller calls `get_user_details(token, id=True)`: back/routes/product.py:30, :106 and :135, back/routes/order.py:65, :90 and :119, and back/routes/analytics.py:30 and :46. The function takes only `token` (back/controller/auth.py:35), so the call raises `TypeError`, which FastAPI answers with 500. Its projection `{"_id": 0}` (back/controller/auth.py:40) would also make the following `current_user['_id']` a `KeyError`. The product routes are modelled both ways: `RoutesFailAsWritten` gives the behaviour as written, and the route functions take the caller's id as if the lookup worked.
- **Login and signup rejections.** The API service's interceptor turns every axios error into a plain `Error`. The thunks' `instanceof AxiosError` branch therefore never fires, and a rejected login or signup always carries "An unexpected error occurred" (`ServiceRejectionsAreUnexpected`). For the same reason the retry loop never retries (`IssuedRequestsAttemptedOnce`).

## Left out

- **Omitted I/O:** logging, `asyncio.sleep`, file writes and reads, PIL, psutil and torch probing. Outcomes that matter (the inference reply, the save, the file read, the GPU reading, a probe exception) are parameters.
- **Concurrency:** concurrency and async interleaving are not modelled. Each operation runs atomically, and `wait_for_result` sees a queue that does not change while it polls.
- **Websocket handler:** the websocket handler that would feed the queue is not part of this model (back/main.py:17).
- **Worker status record:** `WorkerStatus` (models/task) is not part of this model. Its fields are inferred from how the load balancer and monitors use them.
- **Health check:** back/controller/info.py imports nothing. `connected_workers`, `task_queue`, `OUTPUTS_DIR`, `datetime`, `logger` and `JSONResponse` are all unbound there, and `datetime.utcnow()` (back/controller/info.py:7) runs before the `try`, so as written every call raises `NameError`. back/routes/info.py:2 also imports a `BasicInfoController` that the controller file does not define. `HealthCheck` models the handler with all of these names bound: the worker count, the queue and a writability flag are parameters, and the clock is left out.
- **Floating point:** averages, scores, prices, GPU figures and tolerance are exact reals. Float rounding and the text form of `toString()` are not modelled.
- **Database:** MongoDB is modelled as a sequence of documents. `find_one` returns the first match, `find` filters in order, and `skip`/`limit` follow pymongo's rules. Aggregations and product CRUD in the service layer are not part of this model.
- **ObjectId:** `ObjectId` generation is a parameter; validity is 24 hex digits, stored lower case.
- **Timestamps:** the ISO timestamp strings of the metrics history are modelled as integer microseconds. Parsing with `fromisoformat` is not modelled. The worker's uptime is reported in seconds, as `total_seconds()` does, but as an exact real.
- **ProductRoutes.CreateProductData:** as written `create_product` never reaches this step: `get_user_details(token, id=True)` at back/routes/product.py:30 raises `TypeError`, a 500 (`RoutesFailAsWritten`). The member binds the caller's id as if the call worked. The same call is in back/routes/order.py:65, :90 and :119 and back/routes/analytics.py:30 and :46, so the order and analytics routes fail the same way before reaching their controllers.
- **ProductRoutes.UpdateProduct:** as written an existing product's update answers 500 from the caller lookup at back/routes/product.py:106, so neither the 403 nor the service call is reached (`RoutesFailAsWritten`). The member binds the caller's id as if the call worked.
- **ProductRoutes.DeleteProduct:** as written an existing product's delete answers 500 from the caller lookup at back/routes/product.py:135 (`RoutesFailAsWritten`). The member binds the caller's id as if the call worked.
- **ProductRoutes.CreatorAloneMayModify:** holds of the routes as intended. As written, the caller lookup answers 500 before the creator check (`ForbiddenNeverReachedAsWritten`).
- **Result dictionaries and error texts:** the task queue's result dictionaries are `map<string, string>`, where the source has `Dict[str, Any]`. The "code: detail" text that `Describe` and `Rewrap` give an `HTTPException` is defined for every status but pinned only by the 404 example (`DescribeExample`).
- **OrderControl.UpdateOrder:** a database failure inside `update_one` or the re-read is not modelled. Only the failures of the lookup and of "no document modified" are.
- **OrderControl.CreateOrder:** an explicit shipping cost of 0 with no items and a null discount is reported as an 'int' subtraction where Python says 'float', because the parsed order does not record whether the default was taken.
- **OrderControl.GetOrderById:** characters outside ASCII that Python's `repr` escapes (non-printable code points) are shown unescaped. Only ASCII control characters, backslashes and the quote are escaped.
- **Cookies:** the URI codec, `Date.now()` and `toUTCString()` are abstract. `SetThenGet` assumes only that decoding undoes encoding and that encoded text holds no '=' or ';'. A fractional number of days for `expires` is not modelled (days are integers).
- **Auth.AuthSlice.constructor:** takes the value of a `Cookie.get("access_token")` that returned, since a constructor cannot fail. The `URIError` a malformed cookie raises while the store is created is stated by `InitialToken` instead.
- **Cookies.Get:** takes the `document.cookie` text as a parameter. What the browser stores after an assignment is not modelled; `Set` returns the string assigned.
- **String lengths:** JavaScript string lengths count UTF-16 code units, while Dafny characters are Unicode scalar values. The 200-character limit therefore differs for text outside the Basic Multilingual Plane.
- **ApiService:** the one-second retry delay and the axios instance configuration are not modelled. Neither are the upload and transparency endpoints, whose outcomes are the service's.
- **Non-Error throws:** the `Failed to generate design` branch of `generateDesign` (a thrown non-`Error`) cannot arise in the model, because every failure the service produces is an `Error`.
- **Blob read-back:** `adjustColorIntensity`'s reading of the returned blob back into a data URL is not modelled. `AdjustColorIntensity` returns the form it posts.

## Findings

| source | as written | input that shows it | evidently intended | confidence | as-written member | corrected member |
|---|---|---|---|---|---|---|
| back/routes/product.py:30 | `get_user_details(token, id=True)` calls a one-parameter function, so `create_product` raises `TypeError` (500) | any create request | the caller's id becomes `creator_id` | high, not executed | ProductRoutes.RoutesFailAsWritten | ProductRoutes.CreateProductData |
| back/routes/product.py:106 | the same call answers 500 after the product lookup, so the creator check and the update are never reached | an update, by anyone, of a product that exists | 403 for anyone but the creator, and the creator's update applied | high, not executed | ProductRoutes.ForbiddenNeverReachedAsWritten | ProductRoutes.UpdateProduct |
| back/routes/product.py:135 | the same call answers 500 after the product lookup, so the creator check and the delete are never reached | a delete, by anyone, of a product that exists | 403 for anyone but the creator, and the creator's delete performed | high, not executed | ProductRoutes.ForbiddenNeverReachedAsWritten | ProductRoutes.DeleteProduct |

=== FILE: api_service.dfy ===
/**
 * The front end's HTTP client wrapper: which failures are retried, how many
 * attempts a request gets, and the message an axios failure is turned into
 * by the response interceptor.  The network is abstract: a request is a
 * function from the attempt number to that attempt's outcome.
 */
module ApiService {
  import opened Wrappers
  import opened Strings

  /** Retries after the first attempt. */
  const MaxRetries: nat := 2

  /**
   * A response body: absent, a text, or a JSON object, of which only its
   * optional `message` member is read anywhere (an object prints as
   * "[object Object]").
   */
  datatype Body = NoBody | TextBody(text: string) | ObjectBody(message: Option<string>)

  datatype Response = Response(status: int, data: Body)

  /**
   * A thrown value: an axios error (optional code, optional response and a
   * message) or any other `Error`.
   */
  datatype ApiError =
    | AxiosError(code: Option<string>, response: Option<Response>, message: string)
    | PlainError(message: string)

  datatype Outcome<T> = Success(value: T) | Failure(error: ApiError)

  const TimedOutMessage: string :=
    "Request timed out. The server is taking longer than expected to respond. Please try again."
  const CannotConnectMessage: string :=
    "Cannot connect to the server. Please check your internet connection and try again."
  const InvalidRequestPrefix: string := "Invalid request: "
  const UnauthorizedMessage: string := "Unauthorized. Please log in again."
  const ForbiddenMessage: string := "Access denied. " + "You do not have permission to perform this action."
  const NotFoundMessage: string := "Resource not found."
  const TooManyMessage: string := "Too many requests. Please try again later."
  const ServerErrorMessage: string := "Server error. Please try again later."
  const OtherPrefix: string := "An error occurred: "

  /** The statuses `handleError` has a fixed message for. */
  const FixedStatuses: set<int> := {400, 401, 403, 404, 429, 500}

  /**
   * `error.response?.data || error.message` inside a template: a missing or
   * empty body falls back to the error's message; an object body prints as
   * "[object Object]".
   */
  function Detail(data: Body, message: string): (r: string)
    ensures data.TextBody? && data.text != "" ==> r == data.text
    ensures data.NoBody? || data == TextBody("") ==> r == message
  {
    match data
    case NoBody => message
    case TextBody(t) => if t == "" then message else t
    case ObjectBody(_) => "[object Object]"
  }

  /**
   * `shouldRetry`: only axios errors are retried, and only when there is no
   * response (a network failure) or the status is a 5xx.
   */
  predicate ShouldRetry(e: ApiError) {
    e.AxiosError? && (e.response.None? || 500 <= e.response.value.status < 600)
  }

  /** The message for a response status once the timeout and no-response cases are ruled out. */
  function StatusMessage(status: int, detail: string): (r: string)
    ensures status == 400 <==> StartsWith(r, InvalidRequestPrefix)
    ensures status !in FixedStatuses <==> StartsWith(r, OtherPrefix)
    ensures status == 400 ==> r == InvalidRequestPrefix + detail
    ensures status !in FixedStatuses ==> r == OtherPrefix + detail
    ensures status == 401 ==> r == UnauthorizedMessage
    ensures status == 403 ==> r == ForbiddenMessage
    ensures status == 404 ==> r == NotFoundMessage
    ensures status == 429 ==> r == TooManyMessage
    ensures status == 500 ==> r == ServerErrorMessage
  {
    PrefixedStartsWith(InvalidRequestPrefix, detail);
    PrefixedStartsWith(OtherPrefix, detail);
    FixedMessagesUnprefixed();
    assert (OtherPrefix + detail)[0] == 'A' && (InvalidRequestPrefix + detail)[0] == 'I';
    DiffersAt(OtherPrefix + detail, InvalidRequestPrefix, 0);
    DiffersAt(InvalidRequestPrefix + detail, OtherPrefix, 0);
    match status
    case 400 => InvalidRequestPrefix + detail
    case 401 => UnauthorizedMessage
    case 403 => ForbiddenMessage
    case 404 => NotFoundMessage
    case 429 => TooManyMessage
    case 500 => ServerErrorMessage
    case _ => OtherPrefix + detail
  }

  lemma DiffersAt(s: string, p: string, i: nat)
    requires i < |s| && i < |p| && s[i] != p[i]
    ensures !StartsWith(s, p)
  {
    if |p| <= |s| {
      assert s[..|p|][i] == s[i];
    }
  }

  /** The fixed messages start with neither the 400 prefix nor the default one. */
  lemma FixedMessagesUnprefixed()
    ensures forall m :: m in [UnauthorizedMessage, ForbiddenMessage, NotFoundMessage, TooManyMessage, ServerErrorMessage] ==>
      !StartsWith(m, InvalidRequestPrefix) && !StartsWith(m, OtherPrefix)
  {
    DiffersAt(UnauthorizedMessage, InvalidRequestPrefix, 0);
    DiffersAt(UnauthorizedMessage, OtherPrefix, 0);
    DiffersAt(ForbiddenMessage, InvalidRequestPrefix, 0);
    DiffersAt(ForbiddenMessage, OtherPrefix, 1);
    DiffersAt(NotFoundMessage, InvalidRequestPrefix, 0);
    DiffersAt(NotFoundMessage, OtherPrefix, 0);
    DiffersAt(TooManyMessage, InvalidRequestPrefix, 0);
    DiffersAt(TooManyMessage, OtherPrefix, 0);
    DiffersAt(ServerErrorMessage, InvalidRequestPrefix, 0);
    DiffersAt(ServerErrorMessage, OtherPrefix, 0);
  }

  lemma PrefixedStartsWith(p: string, s: string)
    ensures StartsWith(p + s, p)
  {
    assert (p + s)[..|p|] == p;
  }

  /**
   * `handleError`, which never returns: the message of the `Error` it
   * throws.  A timeout code is checked first, then a missing response, then
   * the status.
   */
  function HandleError(e: ApiError): (r: string)
    requires e.AxiosError?
    ensures e.code == Some("ECONNABORTED") ==> r == TimedOutMessage
    ensures e.code != Some("ECONNABORTED") && e.response.None? ==> r == CannotConnectMessage
    ensures e.code != Some("ECONNABORTED") && e.response.Some? ==>
      r == StatusMessage(e.response.value.status, Detail(e.response.value.data, e.message))
  {
    if e.code == Some("ECONNABORTED") then TimedOutMessage
    else if e.response.None? then CannotConnectMessage
    else StatusMessage(e.response.value.status, Detail(e.response.value.data, e.message))
  }

  /** Each fixed status has its own message, different from the others and from the 400 and default forms. */
  lemma FixedMessagesDistinct(s1: int, s2: int, d1: string, d2: string)
    requires s1 in FixedStatuses && s2 in FixedStatuses && s1 != s2
    ensures StatusMessage(s1, d1) != StatusMessage(s2, d2)
  {
    PrefixedStartsWith(InvalidRequestPrefix, d1);
    PrefixedStartsWith(InvalidRequestPrefix, d2);
  }

  /** The response interceptor: an axios failure is rethrown as a plain `Error` carrying `handleError`'s message. */
  function Intercept<T>(o: Outcome<T>): (r: Outcome<T>)
    ensures o.Success? ==> r == o
    ensures o.Failure? ==> r.Failure? && r.error.PlainError?
    ensures o.Failure? && o.error.PlainError? ==> r == o
  {
    match o
    case Success(_) => o
    case Failure(e) => if e.AxiosError? then Failure(PlainError(HandleError(e))) else o
  }

  /**
   * `retryRequest(requestFn, retries)` starting at attempt number `attempt`:
   * the outcome it settles on and the number of attempts made so far.
   */
  function RetryRequest<T>(call: nat -> Outcome<T>, retries: int, attempt: nat): (r: (Outcome<T>, nat))
    ensures attempt < r.1 <= attempt + 1 + (if retries > 0 then retries else 0)
    ensures r.0 == call(r.1 - 1)
    ensures forall k :: attempt <= k < r.1 - 1 ==> call(k).Failure? && ShouldRetry(call(k).error)
    ensures r.0.Failure? && r.1 < attempt + 1 + retries ==> !ShouldRetry(r.0.error)
    decreases if retries > 0 then retries else 0
  {
    match call(attempt)
    case Success(v) => (Success(v), attempt + 1)
    case Failure(e) =>
      if retries > 0 && ShouldRetry(e) then RetryRequest(call, retries - 1, attempt + 1)
      else (Failure(e), attempt + 1)
  }

  /** A request as `get`, `post`, `put` and `delete` issue it: `retryRequest` with the default budget. */
  function Request<T>(call: nat -> Outcome<T>): (r: (Outcome<T>, nat))
    ensures 1 <= r.1 <= MaxRetries + 1
  {
    RetryRequest(call, MaxRetries, 0)
  }

  /**
   * A request settles on the first attempt that succeeds or fails for a
   * reason that is not retried, and gives up with the last failure once the
   * budget is spent.
   */
  lemma RequestSettlesOnFirstFinal<T>(call: nat -> Outcome<T>, k: nat)
    requires k <= MaxRetries
    requires forall j :: 0 <= j < k ==> call(j).Failure? && ShouldRetry(call(j).error)
    requires call(k).Success? || !ShouldRetry(call(k).error) || k == MaxRetries
    ensures Request(call) == (call(k), k + 1)
  {
    var r := Request(call);
    assert r.0 == call(r.1 - 1);
  }

  /** Every error the interceptor lets through is a plain `Error`, which `shouldRetry` rejects. */
  lemma PlainErrorsNeverRetried(message: string)
    ensures !ShouldRetry(PlainError(message))
  {
  }

  /** The request the service actually issues: every attempt goes through the interceptor. */
  function Issue<T>(call: nat -> Outcome<T>): (r: (Outcome<T>, nat))
  {
    Request(k => Intercept(call(k)))
  }

  /**
   * Because the interceptor turns every axios failure into a plain `Error`,
   * the retry loop never fires: each request is attempted exactly once, and
   * its outcome is the intercepted first attempt.
   */
  lemma IssuedRequestsAttemptedOnce<T>(call: nat -> Outcome<T>)
    ensures Issue(call) == (Intercept(call(0)), 1)
  {
    var f := (k: nat) => Intercept(call(k));
    assert f(0) == Intercept(call(0));
    if f(0).Failure? {
      PlainErrorsNeverRetried(f(0).error.message);
    }
    RequestSettlesOnFirstFinal(f, 0);
  }

  /**
   * `checkHealth`: true when the GET of /info/health succeeds, false when it
   * throws; it never throws itself.
   */
  function CheckHealth(call: nat -> Outcome<()>): (healthy: bool)
    ensures healthy <==> call(0).Success?
  {
    IssuedRequestsAttemptedOnce(call);
    Issue(call).0.Success?
  }
}

=== FILE: auth_slice.dfy ===
/**
 * The authentication slice of the front end's store: the token, the
 * logged-in flag, the loading flag and the last error, and the reducer case
 * for each action.  The login and signup thunks contribute the payload a
 * rejected request carries.
 */
module Auth {
  import opened Wrappers
  import ApiService
  import Cookies

  const TokenCookie: string := "access_token"
  const LoginFailed: string := "Login failed"
  const SignupFailed: string := "Signup failed"
  const Unexpected: string := "An unexpected error occurred"

  /**
   * The token `initialState` starts from: `Cookie.get("access_token")` on the
   * page's cookie text. A malformed escape makes `get` throw `URIError`, so
   * the store module fails to load; otherwise a non-empty value is the
   * token and anything else means no token.
   */
  function InitialToken(cookie: string, p: Cookies.Platform): (r: Result<Option<string>, string>)
    ensures Cookies.Get(cookie, TokenCookie, p).Err? ==> r == Err(Cookies.Get(cookie, TokenCookie, p).error)
    ensures Cookies.Get(cookie, TokenCookie, p) == Ok(None) ==> r == Ok(None)
    ensures Cookies.Get(cookie, TokenCookie, p) == Ok(Some("")) ==> r == Ok(None)
    ensures r.Ok? && r.value.Some? ==> r.value.value != "" && Cookies.Get(cookie, TokenCookie, p) == Ok(r.value)
  {
    match Cookies.Get(cookie, TokenCookie, p)
    case Err(e) => Err(e)
    case Ok(v) => Ok(if v.Some? && v.value != "" then v else None)
  }

  /**
   * The value a thunk rejects with: for an axios error that has a response,
   * the body's `message` when it is a non-empty string and otherwise the
   * thunk's own fallback; for anything else the generic message.
   */
  function RejectionPayload(e: ApiService.ApiError, fallback: string): (payload: string)
    ensures !(e.AxiosError? && e.response.Some?) ==> payload == Unexpected
    ensures e.AxiosError? && e.response.Some? && e.response.value.data.ObjectBody?
      && e.response.value.data.message.Some? && e.response.value.data.message.value != ""
      ==> payload == e.response.value.data.message.value
    ensures e.AxiosError? && e.response.Some?
      && !(e.response.value.data.ObjectBody? && e.response.value.data.message.Some?
           && e.response.value.data.message.value != "")
      ==> payload == fallback
  {
    if e.AxiosError? && e.response.Some? then
      match e.response.value.data
      case ObjectBody(Some(m)) => if m != "" then m else fallback
      case _ => fallback
    else Unexpected
  }

  /**
   * The thunks call the API service, whose interceptor has already replaced
   * every axios error by a plain `Error`: a rejected login or signup
   * therefore always carries the generic message, never the server's.
   */
  lemma ServiceRejectionsAreUnexpected<T>(call: nat -> ApiService.Outcome<T>, fallback: string)
    requires ApiService.Issue(call).0.Failure?
    ensures RejectionPayload(ApiService.Issue(call).0.error, fallback) == Unexpected
  {
    ApiService.IssuedRequestsAttemptedOnce(call);
  }

  class AuthSlice {
    var token: Option<string>
    var isAuthenticated: bool
    var loading: bool
    var error: Option<string>
    /** The cookie strings the reducers have written, oldest first. */
    var cookieWrites: seq<string>

    /** Logged in exactly when a token is held. */
    predicate Valid()
      reads this
    {
      isAuthenticated <==> token.Some?
    }

    /**
     * `initialState`, from what `Cookie.get("access_token")` returned when
     * it did not throw (`InitialToken` states the throw): a missing or empty
     * cookie means logged out with no token.
     */
    constructor (stored: Option<string>)
      ensures Valid()
      ensures isAuthenticated <==> stored.Some? && stored.value != ""
      ensures token == (if stored.Some? && stored.value != "" then stored else None)
      ensures !loading && error == None && cookieWrites == []
    {
      token := if stored.Some? && stored.value != "" then stored else None;
      isAuthenticated := stored.Some? && stored.value != "";
      loading := false;
      error := None;
      cookieWrites := [];
    }

    /** `logout`: removes the token cookie and forgets the token. */
    method Logout(now: int, p: Cookies.Platform)
      modifies this
      ensures Valid()
      ensures token == None && !isAuthenticated
      ensures loading == old(loading) && error == old(error)
      ensures cookieWrites == old(cookieWrites) + [Cookies.CookieString(TokenCookie, "",
        Cookies.Options(Cookies.Days(-1), None, None, None), now, p)]
    {
      var written := Cookies.Remove(TokenCookie, None, None, now, p);
      cookieWrites := cookieWrites + [written];
      token := None;
      isAuthenticated := false;
    }

    /** `clearError`: drops the error and nothing else. */
    method ClearError()
      requires Valid()
      modifies this
      ensures Valid()
      ensures error == None
      ensures token == old(token) && isAuthenticated == old(isAuthenticated)
      ensures loading == old(loading) && cookieWrites == old(cookieWrites)
    {
      error := None;
    }

    /** `loginUser.pending`. */
    method LoginPending()
      requires Valid()
      modifies this
      ensures Valid()
      ensures loading && error == None
      ensures token == old(token) && isAuthenticated == old(isAuthenticated) && cookieWrites == old(cookieWrites)
    {
      loading := true;
      error := None;
    }

    /** `loginUser.fulfilled`: logged in with the returned access token; the error is left as it was. */
    method LoginFulfilled(accessToken: string)
      modifies this
      ensures Valid()
      ensures !loading && isAuthenticated && token == Some(accessToken)
      ensures error == old(error) && cookieWrites == old(cookieWrites)
    {
      loading := false;
      isAuthenticated := true;
      token := Some(accessToken);
    }

    /** `loginUser.rejected`: the payload becomes the error; the session is left as it was. */
    method LoginRejected(payload: string)
      requires Valid()
      modifies this
      ensures Valid()
      ensures !loading && error == Some(payload)
      ensures token == old(token) && isAuthenticated == old(isAuthenticated) && cookieWrites == old(cookieWrites)
    {
      loading := false;
      error := Some(payload);
    }

    /** `signupUser.pending`. */
    method SignupPending()
      requires Valid()
      modifies this
      ensures Valid()
      ensures loading && error == None
      ensures token == old(token) && isAuthenticated == old(isAuthenticated) && cookieWrites == old(cookieWrites)
    {
      loading := true;
      error := None;
    }

    /** `signupUser.fulfilled`: signing up does not log in, and ends any session held before. */
    method SignupFulfilled()
      modifies this
      ensures Valid()
      ensures !loading && !isAuthenticated && token == None
      ensures error == old(error) && cookieWrites == old(cookieWrites)
    {
      loading := false;
      isAuthenticated := false;
      token := None;
    }

    /** `signupUser.rejected`. */
    method SignupRejected(payload: string)
      requires Valid()
      modifies this
      ensures Valid()
      ensures !loading && error == Some(payload)
      ensures token == old(token) && isAuthenticated == old(isAuthenticated) && cookieWrites == old(cookieWrites)
    {
      loading := false;
      error := Some(payload);
    }
  }
}

=== FILE: cookie.dfy ===
/**
 * The browser cookie helper: reading one cookie out of the `document.cookie`
 * text and formatting the string that `set`, `remove` and `update` assign to
 * it.  The page's cookie text is a parameter; `encodeURIComponent`,
 * `decodeURIComponent`, `Date.now()` and `Date.toUTCString()` are supplied
 * through `Platform`.
 */
module Cookies {
  import opened Wrappers
  import opened Strings

  /** Milliseconds in one day: 24 * 60 * 60 * 1000. */
  const DayMs: int := 86_400_000

  /**
   * The browser functions the helper calls.  `decode` is `None` where
   * `decodeURIComponent` throws a `URIError` (a malformed escape).
   */
  datatype Platform = Platform(
    encode: string -> string,
    decode: string -> Option<string>,
    utc: int -> string)

  /**
   * What the model assumes of the URI codec where it is needed: decoding
   * undoes encoding, and encoded text never holds '=' or ';' (both are
   * escaped by `encodeURIComponent`).
   */
  ghost predicate CodecLaws(p: Platform) {
    forall x :: p.decode(p.encode(x)) == Some(x) && '=' !in p.encode(x) && ';' !in p.encode(x)
  }

  const MalformedUri: string := "URIError: URI malformed"

  /** The index of the first row that starts with `prefix`. */
  function FindRow(rows: seq<string>, prefix: string): (r: Option<nat>)
    ensures r.Some? ==>
      r.value < |rows| && StartsWith(rows[r.value], prefix)
      && forall k :: 0 <= k < r.value ==> !StartsWith(rows[k], prefix)
    ensures r.None? <==> forall k :: 0 <= k < |rows| ==> !StartsWith(rows[k], prefix)
  {
    if rows == [] then None
    else if StartsWith(rows[0], prefix) then Some(0)
    else match FindRow(rows[1..], prefix) {
      case None => None
      case Some(i) => Some(i + 1)
    }
  }

  /** `decodeURIComponent(text)` as `get` returns it: the value, or the `URIError` it throws. */
  function Decoded(text: string, p: Platform): Result<Option<string>, string> {
    match p.decode(text) {
      case None => Err(MalformedUri)
      case Some(v) => Ok(Some(v))
    }
  }

  /**
   * `Cookie.get(name)`: the first "; "-separated row that starts with
   * `name=`, cut at '=' and the second piece decoded.  `Ok(None)` is the
   * source's `null`; `Err` is the `URIError` a malformed value raises.
   */
  function Get(cookie: string, name: string, p: Platform): (r: Result<Option<string>, string>)
    ensures (forall k :: 0 <= k < |Split(cookie, "; ")| ==> !StartsWith(Split(cookie, "; ")[k], name + "="))
      <==> r == Ok(None)
    ensures FindRow(Split(cookie, "; "), name + "=").Some? ==>
      var row := Split(cookie, "; ")[FindRow(Split(cookie, "; "), name + "=").value];
      |Split(row, "=")| >= 2 && r == Decoded(Split(row, "=")[1], p)
  {
    var rows := Split(cookie, "; ");
    match FindRow(rows, name + "=") {
      case None => Ok(None)
      case Some(i) =>
        StartsWithContains(rows[i], name, "=");
        SplitHasTwo(rows[i], "=");
        assert StartsWith(Split(cookie, "; ")[i], name + "=");
        match p.decode(Split(rows[i], "=")[1]) {
          case None => Err(MalformedUri)
          case Some(v) => Ok(Some(v))
        }
    }
  }

  /**
   * Splitting `name=a` followed by nothing or by another '=' piece at '='
   * gives `a` as its second piece.
   */
  lemma SecondPiece(name: string, a: string, b: string)
    requires '=' !in name && '=' !in a
    requires b == [] || b[0] == '='
    ensures |Split(name + "=" + a + b, "=")| >= 2
    ensures Split(name + "=" + a + b, "=")[1] == a
  {
    var t := a + b;
    assert name + "=" + a + b == name + "=" + t;
    SplitAfterFirst(name, "=", t);
    TailFirstPiece(a, b);
  }

  lemma TailFirstPiece(a: string, b: string)
    requires '=' !in a
    requires b == [] || b[0] == '='
    ensures Split(a + b, "=")[0] == a
  {
    if b == [] {
      assert a + b == a;
      NoFirstCharNoContains(a, "=");
      SplitNoSeparator(a, "=");
    } else {
      var c := b[1..];
      assert a + b == a + "=" + c;
      SplitAfterFirst(a, "=", c);
    }
  }

  /**
   * When the cookie text starts with the row `name=a…` (followed by nothing
   * or by "; " and more rows), `get` decodes `a`: the text up to the next
   * '=' of that row.
   */
  lemma {:induction false} GetFirstRow(name: string, a: string, b: string, rest: string, p: Platform)
    requires '=' !in name && '=' !in a
    requires b == [] || b[0] == '='
    requires ';' !in name + "=" + a + b
    requires rest == [] || StartsWith(rest, "; ")
    ensures Get(name + "=" + a + b + rest, name, p)
      == match p.decode(a) { case None => Err(MalformedUri) case Some(v) => Ok(Some(v)) }
  {
    var row := name + "=" + a + b;
    var cookie := row + rest;
    NoFirstCharNoContains(row, "; ");
    if rest == [] {
      assert cookie == row;
      SplitNoSeparator(row, "; ");
    } else {
      assert rest == "; " + rest[2..];
      assert cookie == row + "; " + rest[2..];
      SplitAfterFirst(row, "; ", rest[2..]);
    }
    var rows := Split(cookie, "; ");
    assert rows[0] == row;
    assert row[..|name + "="|] == name + "=";
    assert FindRow(rows, name + "=") == Some(0);
    SecondPiece(name, a, b);
  }

  /** A value holding '=' is cut at it: `k=a=b` reads back as `a`. */
  lemma GetTruncatesAtEquals(p: Platform)
    ensures Get("k=a=b", "k", p)
      == match p.decode("a") { case None => Err(MalformedUri) case Some(v) => Ok(Some(v)) }
  {
    assert "k=a=b" == "k" + "=" + "a" + "=b" + "";
    GetFirstRow("k", "a", "=b", "", p);
  }

  /** The `expires` option: absent, a number of days, or a `Date` (its epoch milliseconds). */
  datatype Expires = NoExpires | Days(days: int) | At(epochMs: int)

  datatype Options = Options(
    expires: Expires,
    path: Option<string>,
    domain: Option<string>,
    secure: Option<bool>)

  const NoOptions: Options := Options(NoExpires, None, None, None)

  /** JavaScript truthiness of `options.expires`: 0 is falsy, any `Date` is truthy. */
  predicate ExpiresGiven(e: Expires) {
    match e
    case NoExpires => false
    case Days(n) => n != 0
    case At(_) => true
  }

  /** Truthiness of an optional string option: absent and "" are falsy. */
  predicate TextGiven(o: Option<string>) {
    o.Some? && o.value != ""
  }

  /** The expiry instant: days are counted from now, a `Date` is used as it is. */
  function ExpiryMs(e: Expires, now: int): (ms: int)
    ensures e.Days? ==> ms - now == e.days * DayMs
    ensures e.At? ==> ms == e.epochMs
  {
    match e
    case Days(n) => now + n * DayMs
    case At(ms) => ms
    case NoExpires => now
  }

  /** The `name=value` pair every cookie string starts with. */
  function Pair(name: string, value: string, p: Platform): string {
    p.encode(name) + "=" + p.encode(value)
  }

  function ExpiresPart(o: Options, now: int, p: Platform): string {
    if ExpiresGiven(o.expires) then "; expires=" + p.utc(ExpiryMs(o.expires, now)) else ""
  }

  function PathPart(o: Options): string {
    if TextGiven(o.path) then "; path=" + o.path.value else ""
  }

  function DomainPart(o: Options): string {
    if TextGiven(o.domain) then "; domain=" + o.domain.value else ""
  }

  function SecurePart(o: Options): string {
    if o.secure == Some(true) then "; secure" else ""
  }

  /**
   * The cookie string `set` writes: the pair, then the expires, path,
   * domain and secure attributes in that order, each present only when its
   * option is truthy.
   */
  function CookieString(name: string, value: string, o: Options, now: int, p: Platform): string {
    Pair(name, value, p) + ExpiresPart(o, now, p) + PathPart(o) + DomainPart(o) + SecurePart(o)
  }

  /** Every cookie string starts with the encoded pair. */
  lemma CookieStringStartsWithPair(name: string, value: string, o: Options, now: int, p: Platform)
    ensures StartsWith(CookieString(name, value, o, now, p), Pair(name, value, p))
  {
    var pair := Pair(name, value, p);
    var e, pa, d, se := ExpiresPart(o, now, p), PathPart(o), DomainPart(o), SecurePart(o);
    assert CookieString(name, value, o, now, p) == pair + e + pa + d + se;
    StartsWithConcat(pair, e);
    StartsWithConcat(pair + e, pa);
    StartsWithConcat(pair + e + pa, d);
    StartsWithConcat(pair + e + pa + d, se);
    StartsWithTransitive(pair + e + pa + d + se, pair + e + pa + d, pair + e + pa, pair + e, pair);
  }

  /** With no options the cookie string is the bare pair. */
  lemma NoOptionsIsBarePair(name: string, value: string, now: int, p: Platform)
    ensures CookieString(name, value, NoOptions, now, p) == Pair(name, value, p)
  {
  }

  /**
   * Each attribute is emitted exactly when its option is truthy, and in the
   * fixed order expires, path, domain, secure.
   */
  lemma AttributesInOrder(name: string, value: string, o: Options, now: int, p: Platform)
    ensures ExpiresGiven(o.expires) <==> ExpiresPart(o, now, p) != ""
    ensures ExpiresGiven(o.expires) ==> StartsWith(ExpiresPart(o, now, p), "; expires=")
    ensures TextGiven(o.path) <==> PathPart(o) != ""
    ensures TextGiven(o.domain) <==> DomainPart(o) != ""
    ensures o.secure == Some(true) <==> SecurePart(o) == "; secure"
    ensures !(o.secure == Some(true)) <==> SecurePart(o) == ""
  {
    if ExpiresGiven(o.expires) {
      var e := "; expires=" + p.utc(ExpiryMs(o.expires, now));
      assert e[..|"; expires="|] == "; expires=";
    }
  }

  /**
   * Reading back what `set` wrote: for a name the encoder leaves unchanged,
   * `get` on the written string (or on any cookie text starting with its
   * pair) returns the value, provided the codec laws hold.
   */
  lemma SetThenGet(name: string, value: string, rest: string, p: Platform)
    requires CodecLaws(p)
    requires p.encode(name) == name
    requires rest == [] || StartsWith(rest, "; ")
    ensures Get(Pair(name, value, p) + rest, name, p) == Ok(Some(value))
  {
    var a := p.encode(value);
    assert '=' !in p.encode(name) && ';' !in p.encode(name);
    assert p.decode(a) == Some(value) && '=' !in a && ';' !in a;
    assert Pair(name, value, p) == name + "=" + a + "";
    GetFirstRow(name, a, "", rest, p);
  }

  /**
   * `Cookie.set`: builds the string with successive appends and returns it
   * (the model's stand-in for assigning `document.cookie`).
   */
  method Set(name: string, value: string, o: Options, now: int, p: Platform) returns (cookie: string)
    ensures cookie == CookieString(name, value, o, now, p)
  {
    cookie := p.encode(name) + "=" + p.encode(value);
    assert cookie == Pair(name, value, p);
    if ExpiresGiven(o.expires) {
      var expires := match o.expires {
        case Days(n) => now + n * DayMs
        case At(ms) => ms
        case NoExpires => now
      };
      cookie := cookie + "; expires=" + p.utc(expires);
    }
    assert cookie == Pair(name, value, p) + ExpiresPart(o, now, p);
    if TextGiven(o.path) {
      cookie := cookie + "; path=" + o.path.value;
    }
    assert cookie == Pair(name, value, p) + ExpiresPart(o, now, p) + PathPart(o);
    if TextGiven(o.domain) {
      cookie := cookie + "; domain=" + o.domain.value;
    }
    assert cookie == Pair(name, value, p) + ExpiresPart(o, now, p) + PathPart(o) + DomainPart(o);
    if o.secure == Some(true) {
      cookie := cookie + "; secure";
    }
  }

  /**
   * `Cookie.remove`: `set` with an empty value, the given path and domain,
   * and `expires` -1, so the string always carries an expiry one day in the
   * past and never the secure flag.
   */
  method Remove(name: string, path: Option<string>, domain: Option<string>, now: int, p: Platform)
    returns (cookie: string)
    ensures cookie == CookieString(name, "", Options(Days(-1), path, domain, None), now, p)
    ensures cookie == Pair(name, "", p) + "; expires=" + p.utc(now - DayMs)
      + PathPart(Options(Days(-1), path, domain, None)) + DomainPart(Options(Days(-1), path, domain, None))
  {
    cookie := Set(name, "", Options(Days(-1), path, domain, None), now, p);
  }

  /** `Cookie.update`: exactly the string `set` would write. */
  method Update(name: string, value: string, o: Options, now: int, p: Platform) returns (cookie: string)
    ensures cookie == CookieString(name, value, o, now, p)
  {
    cookie := Set(name, value, o, now, p);
  }
}

=== FILE: design_service.dfy ===
/**
 * The front end's design service: the default transform of a new design,
 * the prompt sent for generation, the data-URL prefix stripping and the
 * colour-intensity request.  Requests go through the API service, so each
 * one is attempted once and fails with the interceptor's message.
 */
module DesignServices {
  import opened Wrappers
  import opened Strings
  import ApiService

  const PromptPrefix: string := ""
  const PromptSuffix: string := ", professional product photography, " + "centered composition, high quality"
  const NoImageData: string := "No image data received from the server"
  const ColorIntensityFailed: string := "Failed to adjust color intensity"
  const Base64Marker: string := "base64,"
  const PngDataUrlHead: string := "data:image/png;"

  datatype Position = Position(x: int, y: int)

  datatype DesignTransform = DesignTransform(
    hasBackground: bool,
    texture: Option<string>,
    rotation: int,
    scale: int,
    position: Position,
    x: int,
    y: int)

  /** `getInitialDesignTransform`: with background, untextured, unrotated, unscaled, at the origin. */
  function InitialDesignTransform(): (t: DesignTransform)
    ensures t.hasBackground && t.texture == None
    ensures t.rotation == 0 && t.scale == 1
    ensures t.position == Position(0, 0) && t.x == 0 && t.y == 0
  {
    DesignTransform(true, None, 0, 1, Position(0, 0), 0, 0)
  }

  /** The prompt `generateDesign` sends: the user's text between the fixed prefix and suffix. */
  function FullPrompt(prompt: string): (r: string)
    ensures |r| == |prompt| + |PromptSuffix|
    ensures r[..|prompt|] == prompt && r[|prompt|..] == PromptSuffix
  {
    PromptPrefix + prompt + PromptSuffix
  }

  /** Different prompts are sent as different texts. */
  lemma FullPromptInjective(a: string, b: string)
    requires FullPrompt(a) == FullPrompt(b)
    ensures a == b
  {
    assert |a| == |b|;
    assert a == FullPrompt(a)[..|a|];
  }

  datatype GenerateRequest = GenerateRequest(
    prompt: string,
    style: string,
    colors: seq<string>,
    size: string,
    priority: int)

  /** The body `generateDesign` posts to /generate. */
  function BuildGenerateRequest(prompt: string): (r: GenerateRequest)
    ensures r.prompt == FullPrompt(prompt)
    ensures r.style == "realistic" && r.colors == [] && r.size == "M" && r.priority == 1
  {
    GenerateRequest(FullPrompt(prompt), "realistic", [], "M", 1)
  }

  datatype DesignResult = DesignResult(imageData: Option<string>)
  datatype DesignResponse = DesignResponse(result: Option<DesignResult>)

  /**
   * `generateDesign`: the image data of the response, an error when the
   * response carries none (absent or empty), and the request's own error
   * rethrown when the post fails.
   */
  function GenerateDesign(prompt: string, send: GenerateRequest -> (nat -> ApiService.Outcome<DesignResponse>))
    : (r: Result<string, string>)
    ensures var first := ApiService.Intercept(send(BuildGenerateRequest(prompt))(0));
      && (first.Failure? ==> r == Err(first.error.message))
      && (first.Success? ==>
            (r.Ok? <==> first.value.result.Some? && first.value.result.value.imageData.Some?
                        && first.value.result.value.imageData.value != ""))
      && (r.Ok? ==> r.value != "")
      && (r.Err? && first.Success? ==> r.error == NoImageData)
  {
    var call := send(BuildGenerateRequest(prompt));
    ApiService.IssuedRequestsAttemptedOnce(call);
    match ApiService.Issue(call).0
    case Failure(e) => Err(e.message)
    case Success(response) =>
      if response.result.Some? && response.result.value.imageData.Some?
        && response.result.value.imageData.value != ""
      then Ok(response.result.value.imageData.value)
      else Err(NoImageData)
  }

  /**
   * The prefix stripping of `removeBackground`, `adjustTransparency` and
   * `adjustColorIntensity`: text containing "base64," becomes the piece
   * after its first occurrence; anything else is passed through.
   */
  function StripBase64Prefix(s: string): (r: string)
    ensures !Contains(s, Base64Marker) ==> r == s
    ensures forall i :: FirstAt(s, Base64Marker, i) ==>
      r == Split(s[i + |Base64Marker|..], Base64Marker)[0]
    ensures !Contains(r, Base64Marker)
  {
    forall i | FirstAt(s, Base64Marker, i)
      ensures Split(s, Base64Marker) == [s[..i]] + Split(s[i + |Base64Marker|..], Base64Marker)
    {
      IndexOfFirst(s, Base64Marker, i);
      SplitAt(s, Base64Marker, i);
    }
    if Contains(s, Base64Marker) then
      SplitHasTwo(s, Base64Marker);
      Split(s, Base64Marker)[1]
    else s
  }

  /** A PNG data URL is stripped to its payload. */
  lemma StripPngDataUrl(payload: string)
    requires !Contains(payload, Base64Marker)
    ensures StripBase64Prefix(PngDataUrlHead + Base64Marker + payload) == payload
  {
    var s := PngDataUrlHead + Base64Marker + payload;
    assert s[|PngDataUrlHead|..|PngDataUrlHead| + |Base64Marker|] == Base64Marker;
    assert OccursAt(s, Base64Marker, |PngDataUrlHead|);
    SplitAfterFirst(PngDataUrlHead, Base64Marker, payload);
    SplitNoSeparator(payload, Base64Marker);
  }

  /** Only the first '#' of the colour is removed: "#ff0000" is sent as "ff0000". */
  lemma ColorLosesLeadingHash(hex: string)
    ensures RemoveFirst("#" + hex, "#") == hex
  {
    assert ("#" + hex)[..1] == "#";
  }

  /** The tolerance sent for an intensity percentage. */
  function Tolerance(intensity: real): (t: real)
    ensures 0.0 <= intensity <= 100.0 ==> 0.0 <= t <= 1.0
    ensures intensity == 0.0 ==> t == 1.0
    ensures intensity == 100.0 ==> t == 0.0
  {
    1.0 - intensity / 100.0
  }

  /** A higher intensity means a strictly lower tolerance. */
  lemma ToleranceDecreasing(i1: real, i2: real)
    requires i1 < i2
    ensures Tolerance(i2) < Tolerance(i1)
  {
  }

  /** The multipart form `adjustColorIntensity` posts. */
  datatype ColorForm = ColorForm(file: seq<int>, color: string, tolerance: real)

  /**
   * `adjustColorIntensity` up to the post: the decoded image's character
   * codes, the colour without its '#' and the tolerance.  `atob` is `None`
   * where it throws, which surfaces as the method's generic failure.
   */
  method AdjustColorIntensity(imageBase64: string, color: string, intensity: real, atob: string -> Option<string>)
    returns (form: Result<ColorForm, string>)
    ensures atob(StripBase64Prefix(imageBase64)).None? <==> form == Err(ColorIntensityFailed)
    ensures form.Ok? ==>
      var bytes := atob(StripBase64Prefix(imageBase64)).value;
      |form.value.file| == |bytes|
      && (forall i :: 0 <= i < |bytes| ==> form.value.file[i] == bytes[i] as int)
      && form.value.color == RemoveFirst(color, "#")
      && form.value.tolerance == Tolerance(intensity)
  {
    var base64Data := StripBase64Prefix(imageBase64);
    var decoded := atob(base64Data);
    if decoded.None? {
      return Err(ColorIntensityFailed);
    }
    var byteCharacters := decoded.value;
    var byteNumbers := new int[|byteCharacters|];
    for i := 0 to |byteCharacters|
      invariant forall k :: 0 <= k < i ==> byteNumbers[k] == byteCharacters[k] as int
    {
      byteNumbers[i] := byteCharacters[i] as int;
    }
    form := Ok(ColorForm(byteNumbers[..], RemoveFirst(color, "#"), 1.0 - intensity / 100.0));
  }

  /** `checkHealth`: healthy when /health answers, or failing that when /status does. */
  function CheckHealth(health: nat -> ApiService.Outcome<()>, status: nat -> ApiService.Outcome<()>): (healthy: bool)
    ensures healthy <==> health(0).Success? || status(0).Success?
  {
    ApiService.IssuedRequestsAttemptedOnce(health);
    ApiService.IssuedRequestsAttemptedOnce(status);
    ApiService.Issue(health).0.Success? || ApiService.Issue(status).0.Success?
  }

  /** `loadDesignHistory`: the stored history, or an empty list when the request fails. */
  function LoadDesignHistory<T>(call: nat -> ApiService.Outcome<seq<T>>): (history: seq<T>)
    ensures call(0).Success? ==> history == call(0).value
    ensures call(0).Failure? ==> history == []
  {
    ApiService.IssuedRequestsAttemptedOnce(call);
    match ApiService.Issue(call).0
    case Success(h) => h
    case Failure(_) => []
  }
}

=== FILE: health.dfy ===
/**
 * `health_check_controller` (back/controller/info.py): three component
 * statuses and their roll-up into one overall status.
 *
 * The number of connected workers, the task queue, whether the outputs
 * directory accepted a test write and whether anything unexpected raised
 * are inputs.
 */
module Health {
  import opened Wrappers
  import TaskQueues

  /** A component or overall status, ordered by severity. */
  datatype Level = Healthy | Degraded | Unhealthy {
    function Text(): string {
      match this
      case Healthy => "healthy"
      case Degraded => "degraded"
      case Unhealthy => "unhealthy"
    }

    function Severity(): nat {
      match this
      case Healthy => 0
      case Degraded => 1
      case Unhealthy => 2
    }
  }

  /** The three words are distinct, and so are the severities. */
  lemma LevelsDistinct(a: Level, b: Level)
    ensures a.Text() == b.Text() <==> a == b
    ensures a.Severity() == b.Severity() <==> a == b
  {
    if a != b {
      assert a.Text()[0] != b.Text()[0];
    }
  }

  predicate AnyAt(levels: seq<Level>, l: Level) {
    exists i :: 0 <= i < |levels| && levels[i] == l
  }

  /**
   * The roll-up of lines 39-42, starting from `current`: unhealthy if any
   * component is, else degraded if any component is, else `current`.
   */
  function RollUp(current: Level, levels: seq<Level>): Level {
    if AnyAt(levels, Unhealthy) then Unhealthy
    else if AnyAt(levels, Degraded) then Degraded
    else current
  }

  /** The most severe of a list of levels, `Healthy` for none. */
  function Worst(levels: seq<Level>): (w: Level)
    ensures forall i :: 0 <= i < |levels| ==> levels[i].Severity() <= w.Severity()
    ensures levels != [] ==> w in levels
    ensures levels == [] ==> w == Healthy
  {
    if levels == [] then Healthy
    else
      var rest := Worst(levels[1..]);
      assert forall i :: 1 <= i < |levels| ==> levels[i] == levels[1..][i - 1];
      if levels[0].Severity() >= rest.Severity() then levels[0] else rest
  }

  /**
   * Starting from healthy, the roll-up is the most severe component status:
   * unhealthy dominates degraded, which dominates healthy.
   */
  lemma RollUpIsWorst(levels: seq<Level>)
    ensures RollUp(Healthy, levels) == Worst(levels)
  {
    var w := Worst(levels);
    if AnyAt(levels, Unhealthy) {
      var i :| 0 <= i < |levels| && levels[i] == Unhealthy;
      assert levels[i].Severity() <= w.Severity();
    } else if AnyAt(levels, Degraded) {
      var i :| 0 <= i < |levels| && levels[i] == Degraded;
      assert levels[i].Severity() <= w.Severity();
      if levels != [] {
        assert w in levels;
      }
    } else if levels != [] {
      assert w in levels;
    }
  }

  /** All components healthy: the overall status stays what it was. */
  lemma AllHealthyStays(current: Level, levels: seq<Level>)
    requires forall i :: 0 <= i < |levels| ==> levels[i] == Healthy
    ensures RollUp(current, levels) == current
  {
  }

  /** One component's entry under `components`. */
  datatype Component = Component(level: Level, count: Option<nat>, size: Option<int>, error: Option<string>)

  /** The JSON response: its HTTP status code and body. */
  datatype HealthResponse =
    | Report(statusCode: int, status: Level, version: string, workers: Component, queue: Component, storage: Component)
    | Crashed(statusCode: int, status: Level, error: string)

  /**
   * `health_check_controller`. `storageWritable` is whether writing and
   * deleting the test file succeeded; `unexpected` is the message of an
   * exception raised elsewhere inside the outer `try`.
   */
  method HealthCheck(connectedWorkers: nat, queue: TaskQueues.TaskQueue, storageWritable: bool, unexpected: Option<string>)
    returns (r: HealthResponse)
    requires queue.Valid()
    ensures unexpected.Some? ==> r == Crashed(500, Unhealthy, unexpected.value)
    ensures unexpected.None? ==> r.Report? && r.statusCode == 200 && r.version == "1.0.0"
    ensures unexpected.None? ==>
      (r.workers.level == Healthy <==> connectedWorkers > 0)
      && (r.workers.level == Degraded <==> connectedWorkers == 0) && r.workers.count == Some(connectedWorkers)
    ensures unexpected.None? ==> r.queue.level == Healthy && r.queue.size == Some(queue.Size())
    ensures unexpected.None? ==>
      (r.storage.level == Unhealthy <==> !storageWritable)
      && (storageWritable ==> r.storage.level == Healthy)
    ensures unexpected.None? ==> r.status == Worst([r.workers.level, r.queue.level, r.storage.level])
  {
    var status := Healthy;
    var workers := Component(if connectedWorkers > 0 then Healthy else Degraded, Some(connectedWorkers), None, None);
    var queueComponent := Component(Healthy, None, Some(queue.Size()), None);
    var storage := Component(Healthy, None, None, None);
    if !storageWritable {
      status := Degraded;
      storage := Component(Unhealthy, None, None, Some("Outputs directory not writable"));
    }
    var levels := [workers.level, queueComponent.level, storage.level];
    if AnyAt(levels, Unhealthy) {
      status := Unhealthy;
    } else if AnyAt(levels, Degraded) {
      status := Degraded;
    }
    if unexpected.Some? {
      return Crashed(500, Unhealthy, unexpected.value);
    }
    RollUpIsWorst(levels);
    assert status == RollUp(Healthy, levels) by {
      if !storageWritable {
        assert levels[2] == Unhealthy;
      }
    }
    r := Report(200, status, "1.0.0", workers, queueComponent, storage);
  }
}

=== FILE: load_balancer.dfy ===
/**
 * The worker registry and selection rule, `LoadBalancer` (back/load_balancer.py).
 *
 * `workers` is a Python dict, and dicts iterate in insertion order: a key
 * keeps its place when its value is overwritten and loses it when popped.
 * The model keeps that order explicitly in `order`. Scores are exact reals.
 */
module LoadBalancing {
  import opened Wrappers
  import opened Models

  /** `heartbeat_timeout`: 30 seconds. */
  const HeartbeatTimeout: int := 30 * Second

  /** The fields of a worker's `WorkerStatus` that the balancer reads. */
  datatype WorkerStatus = WorkerStatus(
    available: bool,
    currentTask: Option<string>,
    lastHeartbeat: Time,
    gpuUtilization: real,
    memoryAvailable: real,
    tasksCompleted: int,
    errors: int)

  /** `not status.current_task`: no task, or an empty id. */
  predicate Idle(s: WorkerStatus) {
    s.currentTask.None? || s.currentTask.value == ""
  }

  /** The heartbeat is at most `heartbeat_timeout` old (inclusive). */
  predicate Live(s: WorkerStatus, now: Time) {
    now - s.lastHeartbeat <= HeartbeatTimeout
  }

  /** The three conditions `get_available_worker` checks. */
  predicate Eligible(s: WorkerStatus, now: Time) {
    s.available && Idle(s) && Live(s, now)
  }

  /** completed / (completed + errors), and 0 when nothing has been reported. */
  function SuccessRate(s: WorkerStatus): (r: real)
    ensures s.tasksCompleted + s.errors <= 0 ==> r == 0.0
    ensures 0 <= s.tasksCompleted && 0 <= s.errors ==> 0.0 <= r <= 1.0
  {
    var total := s.tasksCompleted + s.errors;
    if total > 0 then (s.tasksCompleted as real) / (total as real) else 0.0
  }

  /** `_calculate_worker_score`: 0.4·(1 − gpu) + 0.4·success rate + 0.2·memory. */
  function Score(s: WorkerStatus): real {
    0.4 * (1.0 - s.gpuUtilization) + 0.4 * SuccessRate(s) + 0.2 * s.memoryAvailable
  }

  /** With every factor in [0, 1] the score lies in [0, 1], and better factors never lower it. */
  lemma ScoreBounds(s: WorkerStatus, t: WorkerStatus)
    requires 0.0 <= s.gpuUtilization <= 1.0 && 0.0 <= s.memoryAvailable <= 1.0
    requires 0 <= s.tasksCompleted && 0 <= s.errors
    ensures 0.0 <= Score(s) <= 1.0
    ensures (t.gpuUtilization <= s.gpuUtilization && SuccessRate(t) >= SuccessRate(s)
             && t.memoryAvailable >= s.memoryAvailable) ==> Score(t) >= Score(s)
  {
  }

  /**
   * Two workers: (utilization 0.1, success 1.0, memory 0.8) scores 0.92
   * and beats (0.9, 0.5, 0.2) at 0.28.
   */
  lemma ScoreExample()
    ensures var w1 := WorkerStatus(true, None, 0, 0.1, 0.8, 4, 0);
            var w2 := WorkerStatus(true, None, 0, 0.9, 0.2, 2, 2);
            Score(w1) == 0.92 && Score(w2) == 0.28 && Score(w1) > Score(w2)
  {
  }

  predicate NoDup(s: seq<string>) {
    forall i, j :: 0 <= i < j < |s| ==> s[i] != s[j]
  }

  /** The `(worker_id, score)` pairs `get_available_worker` collects, in registry order. */
  function Candidates(order: seq<string>, workers: map<string, WorkerStatus>, now: Time): (c: seq<(string, real)>)
    requires forall i :: 0 <= i < |order| ==> order[i] in workers
    ensures |c| <= |order|
    ensures forall k :: 0 <= k < |c| ==>
      c[k].0 in workers && c[k].0 in order && Eligible(workers[c[k].0], now) && c[k].1 == Score(workers[c[k].0])
    decreases |order|
  {
    if order == [] then []
    else
      var rest := Candidates(order[1..], workers, now);
      var w := workers[order[0]];
      if Eligible(w, now) then [(order[0], Score(w))] + rest else rest
  }

  /** Every eligible worker of the order is among the candidates. */
  lemma {:induction false} CandidatesComplete(order: seq<string>, workers: map<string, WorkerStatus>, now: Time, id: string)
    requires forall i :: 0 <= i < |order| ==> order[i] in workers
    requires id in order && Eligible(workers[id], now)
    ensures exists k :: 0 <= k < |Candidates(order, workers, now)| && Candidates(order, workers, now)[k].0 == id
    decreases |order|
  {
    var c := Candidates(order, workers, now);
    if order[0] == id {
      assert c[0].0 == id;
    } else {
      assert id in order[1..];
      CandidatesComplete(order[1..], workers, now, id);
      var rest := Candidates(order[1..], workers, now);
      var k :| 0 <= k < |rest| && rest[k].0 == id;
      if Eligible(workers[order[0]], now) {
        assert c[k + 1] == rest[k];
      } else {
        assert c[k] == rest[k];
      }
    }
  }

  lemma {:induction false} CandidatesSnoc(order: seq<string>, id: string, workers: map<string, WorkerStatus>, now: Time)
    requires forall i :: 0 <= i < |order| ==> order[i] in workers
    requires id in workers
    ensures Candidates(order + [id], workers, now) ==
      Candidates(order, workers, now) + (if Eligible(workers[id], now) then [(id, Score(workers[id]))] else [])
    decreases |order|
  {
    if order == [] {
      assert Candidates([id], workers, now) == (if Eligible(workers[id], now) then [(id, Score(workers[id]))] else []) + Candidates([], workers, now);
    } else {
      assert (order + [id])[1..] == order[1..] + [id];
      CandidatesSnoc(order[1..], id, workers, now);
    }
  }

  /** `b` is where Python's `max` stops: a highest score, and strictly above every earlier one. */
  predicate IsFirstMax(c: seq<(string, real)>, b: int) {
    0 <= b < |c|
    && (forall m :: 0 <= m < |c| ==> c[m].1 <= c[b].1)
    && (forall m :: 0 <= m < b ==> c[m].1 < c[b].1)
  }

  /** A non-empty list has exactly one first maximum. */
  lemma FirstMaxUnique(c: seq<(string, real)>, b1: int, b2: int)
    requires IsFirstMax(c, b1) && IsFirstMax(c, b2)
    ensures b1 == b2
  {
    var s1, s2 := c[b1].1, c[b2].1;
    assert b1 < b2 ==> s1 < s2;
    assert b2 < b1 ==> s2 < s1;
  }

  /** The entry `get_worker_statuses` reports for one worker. */
  datatype WorkerReport = WorkerReport(workerId: string, status: WorkerStatus, active: bool)

  /** The registry: `workers`, with its insertion order. */
  class LoadBalancer {
    var workers: map<string, WorkerStatus>
    var order: seq<string>

    predicate Valid()
      reads this
    {
      NoDup(order) && (forall i :: 0 <= i < |order| ==> order[i] in workers)
      && (forall id :: id in workers ==> id in order)
    }

    constructor ()
      ensures Valid() && workers == map[] && order == []
    {
      workers, order := map[], [];
    }

    /** `update_worker_status`: store the status under the id with a fresh heartbeat. */
    method UpdateWorkerStatus(workerId: string, status: WorkerStatus, now: Time)
      requires Valid()
      modifies this
      ensures Valid()
      ensures workers == old(workers)[workerId := status.(lastHeartbeat := now)]
      ensures order == if workerId in old(workers) then old(order) else old(order) + [workerId]
    {
      if workerId !in workers {
        assert workerId !in order;
        order := order + [workerId];
      }
      workers := workers[workerId := status.(lastHeartbeat := now)];
    }

    /** `remove_worker`: drop the entry if there is one; nothing else changes. */
    method RemoveWorker(workerId: string)
      requires Valid()
      modifies this
      ensures Valid()
      ensures workers == old(workers) - {workerId}
      ensures order == Without(old(order), workerId)
      ensures workerId !in old(workers) ==> workers == old(workers) && order == old(order)
    {
      WithoutKeeps(order, workerId);
      var order' := Without(order, workerId);
      var workers' := workers - {workerId};
      forall i | 0 <= i < |order'|
        ensures order'[i] in workers'
      {
        assert order'[i] in order';
      }
      workers := workers';
      order := order';
    }

    /**
     * `get_available_worker`: collect the eligible workers with their scores,
     * in registry order, then return the first of the highest-scoring ones
     * (Python's `max` keeps the first maximum).
     */
    method GetAvailableWorker(now: Time) returns (r: Option<string>)
      requires Valid()
      ensures r.None? <==> forall id :: id in workers ==> !Eligible(workers[id], now)
      ensures r.Some? ==> r.value in workers && Eligible(workers[r.value], now)
      ensures r.Some? ==> forall id :: id in workers && Eligible(workers[id], now) ==>
                            Score(workers[id]) <= Score(workers[r.value])
      ensures r.Some? ==> exists b :: IsFirstMax(Candidates(order, workers, now), b)
                                      && Candidates(order, workers, now)[b].0 == r.value
    {
      var available: seq<(string, real)> := [];
      var i := 0;
      while i < |order|
        invariant 0 <= i <= |order|
        invariant available == Candidates(order[..i], workers, now)
      {
        var status := workers[order[i]];
        CandidatesSnoc(order[..i], order[i], workers, now);
        assert order[..i + 1] == order[..i] + [order[i]];
        if Eligible(status, now) {
          available := available + [(order[i], Score(status))];
        }
        i := i + 1;
      }
      assert order[..i] == order;
      if available == [] {
        forall id | id in workers ensures !Eligible(workers[id], now) {
          if Eligible(workers[id], now) {
            CandidatesComplete(order, workers, now, id);
          }
        }
        return None;
      }
      var best := MaxByScore(available);
      r := Some(available[best].0);
      forall id | id in workers && Eligible(workers[id], now)
        ensures Score(workers[id]) <= Score(workers[r.value])
      {
        CandidatesComplete(order, workers, now, id);
      }
    }

    /** `get_worker_statuses`: one report per registered worker, in registry order. */
    function GetWorkerStatuses(now: Time): (rs: seq<WorkerReport>)
      reads this
      requires Valid()
      ensures |rs| == |order|
      ensures forall i :: 0 <= i < |rs| ==> rs[i].workerId == order[i] && rs[i].status == workers[order[i]]
      ensures forall i :: 0 <= i < |rs| ==> (rs[i].active <==> Live(workers[order[i]], now))
    {
      Reports(order, workers, now)
    }
  }

  /** Python's `max(pairs, key=score)`: the index of the first highest score. */
  method MaxByScore(c: seq<(string, real)>) returns (best: nat)
    requires c != []
    ensures IsFirstMax(c, best)
  {
    best := 0;
    var j := 1;
    while j < |c|
      invariant 0 <= best < j <= |c|
      invariant forall m :: 0 <= m < j ==> c[m].1 <= c[best].1
      invariant forall m :: 0 <= m < best ==> c[m].1 < c[best].1
    {
      if c[j].1 > c[best].1 {
        best := j;
      }
      j := j + 1;
    }
  }

  function Reports(order: seq<string>, workers: map<string, WorkerStatus>, now: Time): (rs: seq<WorkerReport>)
    requires forall i :: 0 <= i < |order| ==> order[i] in workers
    ensures |rs| == |order|
    ensures forall i :: 0 <= i < |rs| ==>
      rs[i] == WorkerReport(order[i], workers[order[i]], Live(workers[order[i]], now))
  {
    seq(|order|, i requires 0 <= i < |order| => WorkerReport(order[i], workers[order[i]], Live(workers[order[i]], now)))
  }

  /** `s` with every occurrence of `x` removed. */
  function Without(s: seq<string>, x: string): (r: seq<string>)
    ensures forall y :: y in r <==> y in s && y != x
  {
    if s == [] then [] else (if s[0] == x then [] else [s[0]]) + Without(s[1..], x)
  }

  lemma {:induction false} WithoutKeeps(s: seq<string>, x: string)
    requires NoDup(s)
    ensures NoDup(Without(s, x))
    ensures x !in s ==> Without(s, x) == s
  {
    if s != [] {
      WithoutKeeps(s[1..], x);
      assert NoDup(s[1..]) by {
        assert forall i :: 0 <= i < |s| - 1 ==> s[1..][i] == s[i + 1];
      }
      var r := Without(s, x);
      var rest := Without(s[1..], x);
      assert s[0] !in s[1..];
      assert s[0] !in rest;
    }
  }

  /** A worker `get_available_worker` can return is reported active by `get_worker_statuses`. */
  lemma EligibleIsReportedActive(s: WorkerStatus, now: Time)
    requires Eligible(s, now)
    ensures Live(s, now)
  {
  }
}

=== FILE: models.dfy ===
/**
 * The back end's task records (back/models.py): the four task states, the
 * design request a caller submits and the task that tracks it.
 *
 * Timestamps are `datetime` values; the model counts them as integer
 * microseconds, which is `datetime`'s resolution.
 */
module Models {
  import opened Wrappers

  /** A `datetime.utcnow()` reading, in microseconds. */
  type Time = int

  const Second: int := 1_000_000

  /** `TaskStatus`: a `str` enum with exactly these four members. */
  datatype TaskStatus = Pending | Processing | Completed | Failed {
    /** The enum member's string value. */
    function Value(): string {
      match this
      case Pending => "pending"
      case Processing => "processing"
      case Completed => "completed"
      case Failed => "failed"
    }
  }

  /** The four members in declaration order. */
  const AllStatuses: seq<TaskStatus> := [Pending, Processing, Completed, Failed]

  /** There are exactly four states and their string values tell them apart. */
  lemma StatusesExactlyFour()
    ensures |AllStatuses| == 4
    ensures forall s: TaskStatus :: s in AllStatuses
    ensures forall i, j :: 0 <= i < j < |AllStatuses| ==> AllStatuses[i].Value() != AllStatuses[j].Value()
  {
    forall s: TaskStatus ensures s in AllStatuses {
      match s
      case Pending => assert AllStatuses[0] == s;
      case Processing => assert AllStatuses[1] == s;
      case Completed => assert AllStatuses[2] == s;
      case Failed => assert AllStatuses[3] == s;
    }
  }

  /**
   * `DesignRequest`. Every field but the prompt is `Optional`, so a caller may
   * also send an explicit `null`; the defaults apply when the field is omitted.
   */
  datatype DesignRequest = DesignRequest(
    prompt: string,
    style: Option<string>,
    colors: Option<seq<string>>,
    size: Option<string>,
    priority: Option<int>,
    callbackUrl: Option<string>)

  /** The request built from a prompt alone: every other field takes its default. */
  function DefaultRequest(prompt: string): (r: DesignRequest)
    ensures r.prompt == prompt
    ensures r.style == Some("realistic") && r.size == Some("M")
    ensures r.colors == Some([]) && r.callbackUrl == None
    ensures r.priority == Some(1) && ValidRequest(r)
  {
    DesignRequest(prompt, Some("realistic"), Some([]), Some("M"), Some(1), None)
  }

  /** The `ge=1, le=5` constraint on `priority`; a `null` priority is not checked. */
  predicate ValidRequest(r: DesignRequest) {
    r.priority.Some? ==> 1 <= r.priority.value <= 5
  }

  /** A task's `result` dictionary, with its string-valued entries. */
  type ResultDict = map<string, string>

  /** `Task`. */
  datatype Task = Task(
    id: string,
    request: DesignRequest,
    status: TaskStatus,
    workerId: Option<string>,
    attempts: int,
    createdAt: Time,
    startedAt: Option<Time>,
    completedAt: Option<Time>,
    result: Option<ResultDict>)

  /** A task built with only the required fields: the rest take their defaults. */
  function NewTask(id: string, request: DesignRequest, status: TaskStatus, createdAt: Time): (t: Task)
    ensures t.id == id && t.request == request && t.status == status && t.createdAt == createdAt
    ensures t.attempts == 0 && t.workerId == None
    ensures t.startedAt == None && t.completedAt == None && t.result == None
  {
    Task(id, request, status, None, 0, createdAt, None, None, None)
  }
}

=== FILE: order_controller.dfy ===
/**
 * `OrderController` (back/controller/order.py): the total check of
 * `create_order`, the role-based queries of `get_orders` and
 * `get_order_by_id`, and the field filtering of `update_order`.
 *
 * The `orders` collection is a sequence of stored documents passed in and,
 * where the controller writes, passed back; `find_one` takes the first
 * matching document. A driver or server failure is an input message.
 */
module OrderControl {
  import opened Wrappers
  import opened Models
  import opened OrderSchemas
  import Strings

  /** A FastAPI `HTTPException`. */
  datatype HttpError = HttpError(statusCode: int, detail: string)

  /** An exception leaving the controller: an `HTTPException`, or one FastAPI turns into a bare 500. */
  datatype Failure = Http(e: HttpError) | Unhandled(message: string)

  /** The decimal digits of a status code. */
  function DecimalText(n: nat): (s: string)
    ensures |s| >= 1
    decreases n
  {
    var d := "0123456789"[n % 10];
    if n < 10 then [d] else DecimalText(n / 10) + [d]
  }

  /** `str(e)`: Starlette renders an `HTTPException` as "code: detail". */
  function Describe(f: Failure): string {
    match f
    case Http(e) => (if e.statusCode >= 0 then DecimalText(e.statusCode) else "") + ": " + e.detail
    case Unhandled(m) => m
  }

  /** The catch-all `except Exception as e: raise HTTPException(500, str(e))`. */
  function Rewrap(f: Failure): (r: Failure)
    ensures r.Http? && r.e.statusCode == 500
  {
    Failure.Http(HttpError(500, Describe(f)))
  }

  lemma DescribeExample()
    ensures Describe(Failure.Http(HttpError(404, "Order not found"))) == "404: Order not found"
  {
    DecimalText404();
    var d := DecimalText(404) + ": ";
    assert d == "404: ";
    assert d + "Order not found" == "404: Order not found";
  }

  lemma DecimalText404()
    ensures DecimalText(404) == "404"
  {
    assert 404 % 10 == 4 && 404 / 10 == 40 && 40 % 10 == 0 && 40 / 10 == 4 && 4 % 10 == 4;
    assert DecimalText(4) == ['4'];
    assert DecimalText(40) == ['4', '0'];
  }

  const MismatchDetail := "Total amount doesn't match calculated amount"
  const NotFoundDetail := "Order not found"
  const UpdateFailedDetail := "Order update failed"

  /** A stored order document; `_id` is kept as its 24-digit lower-case hex text. */
  datatype StoredOrder = StoredOrder(
    oid: string,
    order: Order,
    createdAt: Time,
    updatedAt: Time,
    paymentStatus: string,
    shippingTrackingNumber: Option<string>)

  /** A document as returned to the caller: `_id` popped and put back as `id`. */
  datatype OrderView = OrderView(
    id: string,
    order: Order,
    createdAt: Time,
    updatedAt: Time,
    paymentStatus: string,
    shippingTrackingNumber: Option<string>)

  function View(d: StoredOrder): (v: OrderView)
    ensures v.id == d.oid && v.order == d.order && v.paymentStatus == d.paymentStatus
  {
    OrderView(d.oid, d.order, d.createdAt, d.updatedAt, d.paymentStatus, d.shippingTrackingNumber)
  }

  /** Σ unit_price · quantity over the items. */
  function Subtotal(items: seq<OrderItem>): real {
    if items == [] then 0.0 else items[0].unitPrice * (items[0].quantity as real) + Subtotal(items[1..])
  }

  /** The subtotal of two item lists put together is the sum of their subtotals. */
  lemma {:induction false} SubtotalAppend(a: seq<OrderItem>, b: seq<OrderItem>)
    ensures Subtotal(a + b) == Subtotal(a) + Subtotal(b)
  {
    if a == [] {
      assert a + b == b;
    } else {
      assert (a + b)[1..] == a[1..] + b;
      SubtotalAppend(a[1..], b);
    }
  }

  /** Items with positive prices and quantities give a positive subtotal. */
  lemma {:induction false} SubtotalPositive(items: seq<OrderItem>)
    requires items != []
    requires forall k :: 0 <= k < |items| ==> items[k].unitPrice > 0.0 && items[k].quantity > 0
    ensures Subtotal(items) > 0.0
  {
    if |items| > 1 {
      assert forall k :: 0 <= k < |items| - 1 ==> items[1..][k] == items[k + 1];
      SubtotalPositive(items[1..]);
    }
    assert items[0].unitPrice * (items[0].quantity as real) > 0.0;
  }

  function Abs(x: real): real {
    if x < 0.0 then -x else x
  }

  /** The total `create_order` recomputes; `None` for an explicit `null` amount, where Python raises. */
  function ExpectedTotal(o: Order): (t: Option<real>)
    ensures t.Some? <==> o.shippingCost.Some? && o.discountApplied.Some?
    ensures t.Some? ==> t.value == Subtotal(o.items) + o.shippingCost.value - o.discountApplied.value
  {
    if o.shippingCost.None? || o.discountApplied.None? then None
    else Some(Subtotal(o.items) + o.shippingCost.value - o.discountApplied.value)
  }

  /**
   * The `TypeError` that `subtotal + shipping_cost - discount_applied` raises
   * when an amount is `None`: the `+` fails first when the shipping cost is
   * `None`, otherwise the `-`.  Its left operand is an `int` only when
   * nothing made it a float: `sum` over no items is the int 0, and an unset
   * shipping cost keeps its int default 0.
   */
  function NoneOperandError(o: Order): (m: string)
    requires o.shippingCost.None? || o.discountApplied.None?
  {
    var op := if o.shippingCost.None? then "+" else "-";
    var left := if o.items == [] && (o.shippingCost.None? || o.shippingCost == Some(0.0)) then "int" else "float";
    "unsupported operand type(s) for " + op + ": '" + left + "' and 'NoneType'"
  }

  /** A `None` shipping cost is reported by the addition; over items it is a float one. */
  lemma NoneShippingMessage(o: Order)
    requires o.shippingCost.None? && o.items != []
    ensures NoneOperandError(o) == "unsupported operand type(s) for +: 'float' and 'NoneType'"
  {
  }

  /** A `None` discount with no items and the default shipping cost is an int subtraction. */
  lemma NoneDiscountMessage(o: Order)
    requires o.shippingCost == Some(0.0) && o.discountApplied.None? && o.items == []
    ensures NoneOperandError(o) == "unsupported operand type(s) for -: 'int' and 'NoneType'"
  {
  }

  /** The 0.01 tolerance of the total check. */
  predicate TotalMatches(o: Order, total: real) {
    Abs(total - o.totalAmount) <= 0.01
  }

  /**
   * `create_order`: build the document, check the submitted total against the
   * recomputed one, then insert. `freshId` is the new `ObjectId`;
   * `insertFailure` is the message of a failing `insert_one`.
   */
  method CreateOrder(orders: seq<StoredOrder>, o: Order, freshId: string, now: Time, insertFailure: Option<string>)
    returns (r: Result<(OrderView, seq<StoredOrder>), Failure>)
    ensures ExpectedTotal(o).None? ==> r == Err(Unhandled(NoneOperandError(o)))
    ensures ExpectedTotal(o).Some? && !TotalMatches(o, ExpectedTotal(o).value) ==>
      r == Err(Failure.Http(HttpError(400, MismatchDetail)))
    ensures ExpectedTotal(o).Some? && TotalMatches(o, ExpectedTotal(o).value) && insertFailure.Some? ==>
      r == Err(Failure.Http(HttpError(500, insertFailure.value)))
    ensures r.Ok? <==> ExpectedTotal(o).Some? && TotalMatches(o, ExpectedTotal(o).value) && insertFailure.None?
    ensures r.Ok? ==>
      var doc := StoredOrder(freshId, o, now, now, "pending", None);
      r.value == (View(doc), orders + [doc])
    ensures r.Ok? ==> r.value.0.paymentStatus == "pending" && r.value.0.order == o
  {
    var doc := StoredOrder(freshId, o, now, now, "", None);
    doc := doc.(paymentStatus := "pending");
    if o.shippingCost.None? || o.discountApplied.None? {
      return Err(Unhandled(NoneOperandError(o)));
    }
    var subtotal := Subtotal(o.items);
    var total := subtotal + o.shippingCost.value - o.discountApplied.value;
    if Abs(total - o.totalAmount) > 0.01 {
      return Err(Failure.Http(HttpError(400, MismatchDetail)));
    }
    if insertFailure.Some? {
      return Err(Failure.Http(HttpError(500, insertFailure.value)));
    }
    r := Ok((View(doc), orders + [doc]));
  }

  /** An order whose total is exactly the recomputed one is accepted when the insert succeeds. */
  lemma ExactTotalAccepted(o: Order)
    requires o.shippingCost.Some? && o.discountApplied.Some?
    requires o.totalAmount == Subtotal(o.items) + o.shippingCost.value - o.discountApplied.value
    ensures ExpectedTotal(o).Some? && TotalMatches(o, ExpectedTotal(o).value)
  {
  }

  /** A query value: an `ObjectId`, a string, or `None`. */
  datatype QueryValue = OidValue(hex: string) | Text(s: string) | NullValue

  /** A Mongo filter of equality conditions. */
  type Query = map<string, QueryValue>

  /** The value a document holds under a key, `None` for a key it does not have. */
  function FieldOf(d: StoredOrder, key: string): QueryValue {
    if key == "_id" then OidValue(d.oid)
    else if key == "user_id" then Text(d.order.userId)
    else NullValue
  }

  predicate Matches(q: Query, d: StoredOrder) {
    forall key :: key in q ==> FieldOf(d, key) == q[key]
  }

  /** `{} if is_admin else {"user_id": user_id}`. */
  function OrdersQuery(isAdmin: bool, userId: Option<string>): (q: Query)
    ensures isAdmin ==> q == map[]
    ensures !isAdmin ==> q.Keys == {"user_id"}
  {
    if isAdmin then map[]
    else map["user_id" := if userId.Some? then Text(userId.value) else NullValue]
  }

  /** Admins see every order; anyone else exactly the orders placed under their id, and none without an id. */
  lemma OrdersQueryMatches(isAdmin: bool, userId: Option<string>, d: StoredOrder)
    ensures isAdmin ==> Matches(OrdersQuery(isAdmin, userId), d)
    ensures !isAdmin ==> (Matches(OrdersQuery(isAdmin, userId), d) <==> userId == Some(d.order.userId))
  {
    if !isAdmin {
      var q := OrdersQuery(isAdmin, userId);
      assert "user_id" in q;
      if userId == Some(d.order.userId) {
        forall key | key in q ensures FieldOf(d, key) == q[key] {
          assert key == "user_id";
        }
      }
    }
  }

  /** The documents matching a query, in collection order. */
  function Find(orders: seq<StoredOrder>, q: Query): (r: seq<StoredOrder>)
    ensures |r| <= |orders|
    ensures forall k :: 0 <= k < |r| ==> Matches(q, r[k])
    ensures forall d :: d in r <==> d in orders && Matches(q, d)
    ensures (forall k :: 0 <= k < |orders| ==> Matches(q, orders[k])) ==> r == orders
  {
    if orders == [] then []
    else (if Matches(q, orders[0]) then [orders[0]] else []) + Find(orders[1..], q)
  }

  /** Finding over two stretches of the collection finds over each, in order. */
  lemma {:induction false} FindAppend(a: seq<StoredOrder>, b: seq<StoredOrder>, q: Query)
    ensures Find(a + b, q) == Find(a, q) + Find(b, q)
  {
    if a == [] {
      assert a + b == b;
    } else {
      assert (a + b)[1..] == a[1..] + b;
      FindAppend(a[1..], b, q);
    }
  }

  /** `cursor.skip(skip).limit(limit)`: a limit of 0 means none, a negative one its absolute value. */
  function Page(found: seq<StoredOrder>, skip: nat, limit: int): (r: seq<StoredOrder>)
    ensures limit > 0 ==> |r| <= limit
    ensures limit < 0 ==> |r| <= -limit
    ensures skip >= |found| ==> r == []
    ensures limit == 0 && skip <= |found| ==> r == found[skip..]
    ensures skip <= |found| ==> skip + |r| <= |found| && r == found[skip..skip + |r|]
    ensures limit != 0 && skip <= |found| ==>
      var n := if limit < 0 then -limit else limit;
      |r| == if |found| - skip < n then |found| - skip else n
  {
    var rest := if skip <= |found| then found[skip..] else [];
    var n := if limit < 0 then -limit else limit;
    if n == 0 || n >= |rest| then rest else rest[..n]
  }

  /** An admin's query with no paging returns the whole collection, in order. */
  lemma AdminSeesAll(orders: seq<StoredOrder>, userId: Option<string>)
    ensures Page(Find(orders, OrdersQuery(true, userId)), 0, 0) == orders
  {
    forall k | 0 <= k < |orders|
      ensures Matches(OrdersQuery(true, userId), orders[k])
    {
      OrdersQueryMatches(true, userId, orders[k]);
    }
  }

  /** `get_orders`: query by role, page through the cursor, rename `_id` in each document. */
  method GetOrders(orders: seq<StoredOrder>, userId: Option<string>, skip: int, limit: int, isAdmin: bool, dbFailure: Option<string>)
    returns (r: Result<seq<OrderView>, Failure>)
    ensures skip < 0 ==> r == Err(Failure.Http(HttpError(500, "skip must be >= 0")))
    ensures skip >= 0 && dbFailure.Some? ==> r == Err(Failure.Http(HttpError(500, dbFailure.value)))
    ensures skip >= 0 && dbFailure.None? ==>
      r.Ok? && var page := Page(Find(orders, OrdersQuery(isAdmin, userId)), skip, limit);
      |r.value| == |page| && forall k :: 0 <= k < |page| ==> r.value[k] == View(page[k])
  {
    if skip < 0 {
      return Err(Failure.Http(HttpError(500, "skip must be >= 0")));
    }
    if dbFailure.Some? {
      return Err(Failure.Http(HttpError(500, dbFailure.value)));
    }
    var query := OrdersQuery(isAdmin, userId);
    var cursor := Page(Find(orders, query), skip, limit);
    var result: seq<OrderView> := [];
    var i := 0;
    while i < |cursor|
      invariant 0 <= i <= |cursor|
      invariant |result| == i && forall k :: 0 <= k < i ==> result[k] == View(cursor[k])
    {
      result := result + [View(cursor[i])];
      i := i + 1;
    }
    r := Ok(result);
  }

  predicate IsHexDigit(c: char) {
    '0' <= c <= '9' || 'a' <= c <= 'f' || 'A' <= c <= 'F'
  }

  /** What `ObjectId(text)` accepts: 24 hexadecimal digits. */
  predicate ValidObjectId(s: string) {
    |s| == 24 && forall k :: 0 <= k < |s| ==> IsHexDigit(s[k])
  }

  /** The hex text `str(ObjectId(text))` gives back: lower case. */
  function LowerHex(s: string): (r: string)
    ensures |r| == |s|
    ensures forall k :: 0 <= k < |s| ==> r[k] == if 'A' <= s[k] <= 'F' then (s[k] as int + 32) as char else s[k]
  {
    seq(|s|, k requires 0 <= k < |s| => if 'A' <= s[k] <= 'F' then (s[k] as int + 32) as char else s[k])
  }

  const HexDigits := "0123456789abcdef"

  /** One character inside Python's `repr` of a string quoted with `quote`. */
  function ReprChar(c: char, quote: char): (r: string)
    ensures |r| >= 1
  {
    if c == '\\' || c == quote then ['\\', c]
    else if c == '\n' then "\\n"
    else if c == '\r' then "\\r"
    else if c == '\t' then "\\t"
    else if c < ' ' || c == '\U{007F}' then "\\x" + [HexDigits[c as int / 16], HexDigits[c as int % 16]]
    else [c]
  }

  function ReprBody(s: string, quote: char): string {
    if s == [] then "" else ReprChar(s[0], quote) + ReprBody(s[1..], quote)
  }

  /**
   * Python's `repr` of a string: single quotes unless the text holds a single
   * quote and no double quote; backslashes, the chosen quote and control
   * characters escaped.
   */
  function PyRepr(s: string): string {
    var quote := if '\'' in s && '"' !in s then '"' else '\'';
    [quote] + ReprBody(s, quote) + [quote]
  }

  /** Text with nothing to escape is shown between single quotes as it is. */
  lemma {:induction false} ReprBodyPlain(s: string, quote: char)
    requires forall k :: 0 <= k < |s| ==> ' ' <= s[k] < '\U{007F}' && s[k] != '\\' && s[k] != quote
    ensures ReprBody(s, quote) == s
  {
    if s != [] {
      ReprBodyPlain(s[1..], quote);
      assert s == [s[0]] + s[1..];
    }
  }

  /** A single quote in the id switches the `repr` to double quotes. */
  lemma ReprOfQuote()
    ensures PyRepr("a'b") == "\"a'b\""
  {
    assert "a'b"[1] == '\'';
    ReprBodyPlain("a'b", '"');
  }

  const InvalidIdTail := " is not a valid ObjectId, " + "it must be a 12-byte input or a 24-character hex string"

  /** `InvalidId`'s text: `%r` of the rejected id. */
  function InvalidIdMessage(s: string): (m: string)
    ensures (forall k :: 0 <= k < |s| ==> ' ' <= s[k] < '\U{007F}' && s[k] != '\\' && s[k] != '\'') ==>
      m == "'" + s + "'" + InvalidIdTail
    ensures Strings.StartsWith(m, PyRepr(s))
  {
    ReprPlain(s);
    var m := PyRepr(s) + InvalidIdTail;
    assert m[..|PyRepr(s)|] == PyRepr(s);
    m
  }

  /** `repr` of text with nothing to escape and no single quote is that text in single quotes. */
  lemma ReprPlain(s: string)
    ensures (forall k :: 0 <= k < |s| ==> ' ' <= s[k] < '\U{007F}' && s[k] != '\\' && s[k] != '\'') ==>
      PyRepr(s) == "'" + s + "'"
  {
    if forall k :: 0 <= k < |s| ==> ' ' <= s[k] < '\U{007F}' && s[k] != '\\' && s[k] != '\'' {
      ReprBodyPlain(s, '\'');
    }
  }

  /** The filter of `get_order_by_id`: the id, plus the caller's `user_id` unless admin. */
  function OrderByIdQuery(oidHex: string, userId: string, isAdmin: bool): (q: Query)
    ensures "_id" in q && q["_id"] == OidValue(oidHex)
    ensures isAdmin ==> q.Keys == {"_id"}
    ensures !isAdmin ==> q.Keys == {"_id", "user_id"} && q["user_id"] == Text(userId)
  {
    var q := map["_id" := OidValue(oidHex)];
    if !isAdmin then q["user_id" := Text(userId)] else q
  }

  /**
   * `get_order_by_id`. A malformed id, a failing lookup and a missing order
   * are all raised inside the `try`, so each comes back as a 500 — the 404
   * is only the detail text.
   */
  function GetOrderById(orders: seq<StoredOrder>, orderId: string, userId: string, isAdmin: bool, dbFailure: Option<string>)
    : (r: Result<OrderView, Failure>)
    ensures r.Err? ==> r.error.Http? && r.error.e.statusCode == 500
    ensures !ValidObjectId(orderId) ==> r == Err(Rewrap(Unhandled(InvalidIdMessage(orderId))))
    ensures ValidObjectId(orderId) && dbFailure.None? ==>
      var found := Find(orders, OrderByIdQuery(LowerHex(orderId), userId, isAdmin));
      (found == [] ==> r == Err(Rewrap(Failure.Http(HttpError(404, NotFoundDetail)))))
      && (found != [] ==> r == Ok(View(found[0])))
    ensures ValidObjectId(orderId) && dbFailure.Some? ==> r == Err(Rewrap(Unhandled(dbFailure.value)))
  {
    if !ValidObjectId(orderId) then Err(Rewrap(Unhandled(InvalidIdMessage(orderId))))
    else
      var query := OrderByIdQuery(LowerHex(orderId), userId, isAdmin);
      if dbFailure.Some? then Err(Rewrap(Unhandled(dbFailure.value)))
      else
        var found := Find(orders, query);
        if found == [] then Err(Rewrap(Failure.Http(HttpError(404, NotFoundDetail))))
        else Ok(View(found[0]))
  }

  /** A document returned to a non-admin caller is one of their own orders. */
  lemma OrderByIdOwnOnly(orders: seq<StoredOrder>, orderId: string, userId: string, dbFailure: Option<string>)
    requires GetOrderById(orders, orderId, userId, false, dbFailure).Ok?
    ensures GetOrderById(orders, orderId, userId, false, dbFailure).value.order.userId == userId
    ensures GetOrderById(orders, orderId, userId, false, dbFailure).value.id == LowerHex(orderId)
  {
    var q := OrderByIdQuery(LowerHex(orderId), userId, false);
    var found := Find(orders, q);
    assert Matches(q, found[0]);
    assert FieldOf(found[0], "user_id") == q["user_id"];
    assert FieldOf(found[0], "_id") == q["_id"];
  }

  /** `update_data`: the supplied non-`None` fields of the update, plus `updated_at`. */
  function ApplyUpdate(d: StoredOrder, u: OrderUpdate, now: Time): (r: StoredOrder)
    ensures r.updatedAt == now
    ensures r.order.status == (if u.status.Some? then u.status.value else d.order.status)
    ensures r.shippingTrackingNumber == (if u.shippingTrackingNumber.Some? then u.shippingTrackingNumber else d.shippingTrackingNumber)
    ensures r.oid == d.oid && r.createdAt == d.createdAt && r.paymentStatus == d.paymentStatus
    ensures r.order == d.order.(status := r.order.status)
  {
    var d1 := if u.status.Some? then d.(order := d.order.(status := u.status.value)) else d;
    var d2 := if u.shippingTrackingNumber.Some? then d1.(shippingTrackingNumber := u.shippingTrackingNumber) else d1;
    d2.(updatedAt := now)
  }

  /** `$set` of the update leaves `_id` and `user_id` alone, so a matching document still matches. */
  lemma ApplyUpdateMatches(q: Query, d: StoredOrder, u: OrderUpdate, now: Time)
    requires Matches(q, d)
    ensures Matches(q, ApplyUpdate(d, u, now))
  {
    var e := ApplyUpdate(d, u, now);
    forall key | key in q ensures FieldOf(e, key) == q[key] {
      assert FieldOf(e, key) == FieldOf(d, key);
    }
  }

  /**
   * An order the caller may read has a document with its `_id`, and after
   * that document is updated the caller can still read it back.
   */
  lemma UpdatedStillVisible(orders: seq<StoredOrder>, orderId: string, userId: string, isAdmin: bool, u: OrderUpdate, now: Time)
    requires GetOrderById(orders, orderId, userId, isAdmin, None).Ok?
    ensures FirstWithId(orders, LowerHex(orderId)).Some?
    ensures var i := FirstWithId(orders, LowerHex(orderId)).value;
      GetOrderById(orders[i := ApplyUpdate(orders[i], u, now)], orderId, userId, isAdmin, None).Ok?
  {
    var hex := LowerHex(orderId);
    var q := OrderByIdQuery(hex, userId, isAdmin);
    var found := Find(orders, q);
    assert found[0] in orders && Matches(q, found[0]);
    var j :| 0 <= j < |orders| && orders[j] == found[0];
    assert FieldOf(orders[j], "_id") == q["_id"];
    var i := FirstWithId(orders, hex).value;
    var updated := orders[i := ApplyUpdate(orders[i], u, now)];
    if j == i {
      ApplyUpdateMatches(q, orders[i], u, now);
    }
    assert updated[j] in updated && Matches(q, updated[j]);
    assert Find(updated, q) != [];
  }

  /** The position of the first document with this `_id`, if any. */
  function FirstWithId(orders: seq<StoredOrder>, oidHex: string): (i: Option<nat>)
    ensures i.Some? ==> i.value < |orders| && orders[i.value].oid == oidHex
    ensures i.Some? ==> forall k :: 0 <= k < i.value ==> orders[k].oid != oidHex
    ensures i.None? ==> forall k :: 0 <= k < |orders| ==> orders[k].oid != oidHex
  {
    if orders == [] then None
    else if orders[0].oid == oidHex then Some(0)
    else
      var rest := FirstWithId(orders[1..], oidHex);
      assert forall k :: 1 <= k < |orders| ==> orders[k] == orders[1..][k - 1];
      if rest.Some? then Some(rest.value + 1) else None
  }

  /**
   * `update_order`: check access through `get_order_by_id`, `$set` the
   * filtered fields on the document with that `_id`, fail when nothing was
   * modified, and return the document as read back. Every failure, the 400
   * included, leaves as a 500.
   */
  method UpdateOrder(orders: seq<StoredOrder>, orderId: string, u: OrderUpdate, userId: string, isAdmin: bool, now: Time)
    returns (r: Result<(OrderView, seq<StoredOrder>), Failure>)
    ensures r.Err? ==> r.error.Http? && r.error.e.statusCode == 500
    ensures GetOrderById(orders, orderId, userId, isAdmin, None).Err? ==>
      r == Err(Rewrap(GetOrderById(orders, orderId, userId, isAdmin, None).error))
    ensures r.Ok? ==>
      GetOrderById(orders, orderId, userId, isAdmin, None).Ok?
      && var i := FirstWithId(orders, LowerHex(orderId));
      i.Some? && orders[i.value] != ApplyUpdate(orders[i.value], u, now)
      && r.value.1 == orders[i.value := ApplyUpdate(orders[i.value], u, now)]
      && Ok(r.value.0) == GetOrderById(r.value.1, orderId, userId, isAdmin, None)
    ensures GetOrderById(orders, orderId, userId, isAdmin, None).Ok? ==>
      var i := FirstWithId(orders, LowerHex(orderId));
      i.Some?
      && (r.Ok? <==> orders[i.value] != ApplyUpdate(orders[i.value], u, now))
      && (orders[i.value] == ApplyUpdate(orders[i.value], u, now) ==>
            r == Err(Rewrap(Failure.Http(HttpError(400, UpdateFailedDetail)))))
  {
    var existing := GetOrderById(orders, orderId, userId, isAdmin, None);
    if existing.Err? {
      return Err(Rewrap(existing.error));
    }
    UpdatedStillVisible(orders, orderId, userId, isAdmin, u, now);
    var target := FirstWithId(orders, LowerHex(orderId)).value;
    if orders[target] == ApplyUpdate(orders[target], u, now) {
      return Err(Rewrap(Failure.Http(HttpError(400, UpdateFailedDetail))));
    }
    var updated := orders[target := ApplyUpdate(orders[target], u, now)];
    var reread := GetOrderById(updated, orderId, userId, isAdmin, None);
    r := Ok((reread.value, updated));
  }
}

=== FILE: order_schemas.dfy ===
/**
 * The order schemas (back/schemas/order.py): the enums, the constraints
 * pydantic checks when an order or an order item is parsed, and the defaults
 * it fills in.
 *
 * Parsing is modelled as a function from the submitted values to either the
 * parsed record or the list of field errors, in field order. Prices are
 * exact reals.
 */
module OrderSchemas {
  import opened Wrappers

  /** A field of a submitted object: omitted, an explicit `null`, or a value. */
  datatype Supplied<+T> = Unset | Null | Given(value: T)

  /** One entry of pydantic's error list. */
  datatype FieldError = FieldError(field: string, message: string)

  const GreaterThanZero := "ensure this value is greater than 0"
  const NotAnEnumMember := "value is not a valid enumeration member"
  const NoneNotAllowed := "none is not an allowed value"
  const FieldRequired := "field required"

  datatype ProductSize = XS | S | M | L | XL | XXL {
    function Value(): string {
      match this
      case XS => "xs"
      case S => "s"
      case M => "m"
      case L => "l"
      case XL => "xl"
      case XXL => "xxl"
    }
  }

  datatype ProductColor = White | Black | Gray | Red | Blue | Green {
    function Value(): string {
      match this
      case White => "white"
      case Black => "black"
      case Gray => "gray"
      case Red => "red"
      case Blue => "blue"
      case Green => "green"
    }
  }

  datatype OrderStatus = Pending | Processing | Shipped | Delivered | Cancelled | Refunded {
    function Value(): string {
      match this
      case Pending => "pending"
      case Processing => "processing"
      case Shipped => "shipped"
      case Delivered => "delivered"
      case Cancelled => "cancelled"
      case Refunded => "refunded"
    }
  }

  datatype PaymentMethod = PayPal | Stripe | StoreCredit {
    function Value(): string {
      match this
      case PayPal => "paypal"
      case Stripe => "stripe"
      case StoreCredit => "store_credit"
    }
  }

  const AllOrderStatuses: seq<OrderStatus> := [Pending, Processing, Shipped, Delivered, Cancelled, Refunded]

  /** `OrderStatus` has exactly six members, with distinct values. */
  lemma OrderStatusesExactlySix()
    ensures |AllOrderStatuses| == 6
    ensures forall s: OrderStatus :: s in AllOrderStatuses
    ensures forall i, j :: 0 <= i < j < |AllOrderStatuses| ==> AllOrderStatuses[i].Value() != AllOrderStatuses[j].Value()
  {
    forall s: OrderStatus ensures s in AllOrderStatuses {
      match s
      case Pending => assert AllOrderStatuses[0] == s;
      case Processing => assert AllOrderStatuses[1] == s;
      case Shipped => assert AllOrderStatuses[2] == s;
      case Delivered => assert AllOrderStatuses[3] == s;
      case Cancelled => assert AllOrderStatuses[4] == s;
      case Refunded => assert AllOrderStatuses[5] == s;
    }
  }

  /** Enum lookup by value, as pydantic does for a `str` enum field. */
  function ParseStatus(s: string): (r: Option<OrderStatus>)
    ensures r.Some? ==> r.value.Value() == s
  {
    if s == "pending" then Some(Pending)
    else if s == "processing" then Some(Processing)
    else if s == "shipped" then Some(Shipped)
    else if s == "delivered" then Some(Delivered)
    else if s == "cancelled" then Some(Cancelled)
    else if s == "refunded" then Some(Refunded)
    else None
  }

  /** Every member is found again from its value. */
  lemma ParseStatusValue(st: OrderStatus)
    ensures ParseStatus(st.Value()) == Some(st)
  {
  }

  function ParseSize(s: string): (r: Option<ProductSize>)
    ensures r.Some? ==> r.value.Value() == s
  {
    if s == "xs" then Some(XS)
    else if s == "s" then Some(S)
    else if s == "m" then Some(M)
    else if s == "l" then Some(L)
    else if s == "xl" then Some(XL)
    else if s == "xxl" then Some(XXL)
    else None
  }

  lemma ParseSizeValue(z: ProductSize)
    ensures ParseSize(z.Value()) == Some(z)
  {
  }

  function ParseColor(s: string): (r: Option<ProductColor>)
    ensures r.Some? ==> r.value.Value() == s
  {
    if s == "white" then Some(White)
    else if s == "black" then Some(Black)
    else if s == "gray" then Some(Gray)
    else if s == "red" then Some(Red)
    else if s == "blue" then Some(Blue)
    else if s == "green" then Some(Green)
    else None
  }

  lemma ParseColorValue(c: ProductColor)
    ensures ParseColor(c.Value()) == Some(c)
  {
  }

  function ParsePayment(s: string): (r: Option<PaymentMethod>)
    ensures r.Some? ==> r.value.Value() == s
  {
    if s == "paypal" then Some(PayPal)
    else if s == "stripe" then Some(Stripe)
    else if s == "store_credit" then Some(StoreCredit)
    else None
  }

  lemma ParsePaymentValue(p: PaymentMethod)
    ensures ParsePayment(p.Value()) == Some(p)
  {
  }

  /** `validate_quantity`: the custom validator on `quantity`. */
  function ValidateQuantity(quantity: int): (r: Result<int, string>)
    ensures r.Ok? <==> quantity > 0
    ensures r.Ok? ==> r.value == quantity
    ensures r.Err? ==> r.error == "Quantity must be positive"
  {
    if quantity <= 0 then Err("Quantity must be positive") else Ok(quantity)
  }

  /** An order item as submitted: the enum fields still as text. */
  datatype RawItem = RawItem(productId: string, designId: string, quantity: int, size: string, color: string, unitPrice: real)

  /** `OrderItemBase` after parsing. */
  datatype OrderItem = OrderItem(productId: string, designId: string, quantity: int, size: ProductSize, color: ProductColor, unitPrice: real)

  /**
   * The errors of one item, in field order. A `quantity` that fails the
   * `gt=0` constraint is not passed on to `validate_quantity`, so the
   * validator's own message never appears.
   */
  function ItemErrors(raw: RawItem): seq<FieldError> {
    (if raw.quantity > 0 then
       (match ValidateQuantity(raw.quantity)
        case Ok(_) => []
        case Err(m) => [FieldError("quantity", m)])
     else [FieldError("quantity", GreaterThanZero)])
    + (if ParseSize(raw.size).None? then [FieldError("size", NotAnEnumMember)] else [])
    + (if ParseColor(raw.color).None? then [FieldError("color", NotAnEnumMember)] else [])
    + (if raw.unitPrice <= 0.0 then [FieldError("unit_price", GreaterThanZero)] else [])
  }

  /** Parsing an `OrderItemBase`. */
  function ParseItem(raw: RawItem): (r: Result<OrderItem, seq<FieldError>>)
    ensures r.Ok? <==> raw.quantity > 0 && raw.unitPrice > 0.0 && ParseSize(raw.size).Some? && ParseColor(raw.color).Some?
    ensures r.Ok? ==>
      r.value.quantity == raw.quantity && r.value.unitPrice == raw.unitPrice
      && r.value.size.Value() == raw.size && r.value.color.Value() == raw.color
      && r.value.productId == raw.productId && r.value.designId == raw.designId
    ensures r.Err? ==> r.error != []
  {
    var errors := ItemErrors(raw);
    if errors == [] then
      Ok(OrderItem(raw.productId, raw.designId, raw.quantity, ParseSize(raw.size).value, ParseColor(raw.color).value, raw.unitPrice))
    else Err(errors)
  }

  /** A non-positive quantity is reported by the field constraint alone. */
  lemma NonPositiveQuantityMessage(raw: RawItem)
    requires raw.quantity <= 0
    ensures FieldError("quantity", GreaterThanZero) in ItemErrors(raw)
    ensures FieldError("quantity", "Quantity must be positive") !in ItemErrors(raw)
  {
    var e := ItemErrors(raw);
    assert e[0] == FieldError("quantity", GreaterThanZero);
    assert forall k :: 1 <= k < |e| ==> e[k].field != "quantity";
  }

  /** `ShippingAddress`; only `phone_number` may be left out. */
  datatype ShippingAddress = ShippingAddress(
    fullName: string, streetAddress: string, city: string, state: string,
    postalCode: string, country: string, phoneNumber: Option<string>)

  /** An order as submitted. */
  datatype RawOrder = RawOrder(
    userId: string,
    totalAmount: real,
    status: Supplied<string>,
    paymentMethod: string,
    shippingAddress: ShippingAddress,
    items: seq<RawItem>,
    discountApplied: Supplied<real>,
    shippingCost: Supplied<real>)

  /** `OrderBase` after parsing; the two `Optional` amounts may be `None`. */
  datatype Order = Order(
    userId: string,
    totalAmount: real,
    status: OrderStatus,
    paymentMethod: PaymentMethod,
    shippingAddress: ShippingAddress,
    items: seq<OrderItem>,
    discountApplied: Option<real>,
    shippingCost: Option<real>)

  /** An `Optional[float] = 0` field: omitted means 0, `null` stays `None`. */
  function OptionalAmount(v: Supplied<real>): (r: Option<real>)
    ensures v.Unset? ==> r == Some(0.0)
    ensures v.Null? ==> r == None
    ensures v.Given? ==> r == Some(v.value)
  {
    match v
    case Unset => Some(0.0)
    case Null => None
    case Given(x) => Some(x)
  }

  /** `status: OrderStatus = PENDING`: omitted means pending; `null` is refused. */
  function StatusField(v: Supplied<string>): (r: Result<OrderStatus, string>)
    ensures v.Unset? ==> r == Ok(Pending)
    ensures v.Null? ==> r == Err(NoneNotAllowed)
    ensures v.Given? ==> (r.Ok? <==> ParseStatus(v.value).Some?)
    ensures v.Given? && r.Ok? ==> r.value.Value() == v.value
  {
    match v
    case Unset => Ok(Pending)
    case Null => Err(NoneNotAllowed)
    case Given(s) => if ParseStatus(s).Some? then Ok(ParseStatus(s).value) else Err(NotAnEnumMember)
  }

  function ParseItems(items: seq<RawItem>): (r: Result<seq<OrderItem>, seq<FieldError>>)
    ensures r.Ok? <==> forall k :: 0 <= k < |items| ==> ParseItem(items[k]).Ok?
    ensures r.Ok? ==> |r.value| == |items| && forall k :: 0 <= k < |items| ==> r.value[k] == ParseItem(items[k]).value
    ensures r.Err? ==> r.error != []
    decreases |items|
  {
    if items == [] then Ok([])
    else
      var rest := ParseItems(items[1..]);
      assert forall k :: 1 <= k < |items| ==> items[k] == items[1..][k - 1];
      match ParseItem(items[0])
      case Err(e) => Err(e + (if rest.Err? then rest.error else []))
      case Ok(item) =>
        match rest
        case Err(e) => Err(e)
        case Ok(tail) => Ok([item] + tail)
  }

  /**
   * Parsing an `OrderCreate`: `total_amount` must be positive, every item
   * must parse, the enums must name members; the defaults are filled in.
   */
  function ParseOrder(raw: RawOrder): (r: Result<Order, seq<FieldError>>)
    ensures r.Ok? <==>
      raw.totalAmount > 0.0 && StatusField(raw.status).Ok?
      && ParsePayment(raw.paymentMethod).Some? && ParseItems(raw.items).Ok?
    ensures r.Ok? ==>
      r.value.totalAmount == raw.totalAmount && r.value.userId == raw.userId
      && r.value.status == StatusField(raw.status).value
      && r.value.items == ParseItems(raw.items).value
      && r.value.discountApplied == OptionalAmount(raw.discountApplied)
      && r.value.shippingCost == OptionalAmount(raw.shippingCost)
    ensures r.Ok? ==> r.value.paymentMethod.Value() == raw.paymentMethod && r.value.shippingAddress == raw.shippingAddress
    ensures r.Ok? && raw.status.Unset? ==> r.value.status == Pending
  {
    var errors :=
      (if raw.totalAmount <= 0.0 then [FieldError("total_amount", GreaterThanZero)] else [])
      + (match StatusField(raw.status) case Ok(_) => [] case Err(m) => [FieldError("status", m)])
      + (if ParsePayment(raw.paymentMethod).None? then [FieldError("payment_method", NotAnEnumMember)] else [])
      + (match ParseItems(raw.items) case Ok(_) => [] case Err(e) => e);
    if errors == [] then
      Ok(Order(raw.userId, raw.totalAmount, StatusField(raw.status).value, ParsePayment(raw.paymentMethod).value,
               raw.shippingAddress, ParseItems(raw.items).value,
               OptionalAmount(raw.discountApplied), OptionalAmount(raw.shippingCost)))
    else Err(errors)
  }

  /** `OrderUpdate`: both fields optional and `None` unless supplied. */
  datatype OrderUpdate = OrderUpdate(status: Option<OrderStatus>, shippingTrackingNumber: Option<string>)

  /** Parsing an `OrderUpdate`: omitted and `null` both give `None`. */
  function ParseOrderUpdate(status: Supplied<string>, tracking: Supplied<string>): (r: Result<OrderUpdate, seq<FieldError>>)
    ensures status.Unset? && tracking.Unset? ==> r == Ok(OrderUpdate(None, None))
    ensures r.Ok? ==> (r.value.status.None? <==> !status.Given?) && (r.value.shippingTrackingNumber.None? <==> !tracking.Given?)
    ensures r.Ok? && r.value.status.Some? ==> r.value.status.value.Value() == status.value
    ensures r.Ok? && tracking.Given? ==> r.value.shippingTrackingNumber == Some(tracking.value)
    ensures r.Err? <==> status.Given? && ParseStatus(status.value).None?
  {
    var st := if status.Given? then ParseStatus(status.value) else None;
    if status.Given? && st.None? then Err([FieldError("status", NotAnEnumMember)])
    else Ok(OrderUpdate(st, if tracking.Given? then Some(tracking.value) else None))
  }
}

=== FILE: product_routes.dfy ===
/**
 * The product routes (back/routes/product.py): the filter `list_products`
 * builds from its query parameters, its pagination bounds, and the creator
 * check guarding updates and deletes.
 *
 * The product service behind the routes is outside the model: its answers
 * are inputs. The routes that need the caller come twice: as intended,
 * with the caller's id as an input, and as written, where the caller
 * lookup itself fails (`CallerIdAsWritten`).
 */
module ProductRoutes {
  import opened Wrappers
  import opened ProductSchemas

  /** An `HTTPException` leaving a route: status code and detail. */
  datatype HttpError = HttpError(statusCode: int, detail: string)

  /** A value in the Mongo filter: a string, a boolean, or a price range. */
  datatype FilterValue = Text(s: string) | Flag(b: bool) | PriceRange(bounds: map<string, real>)

  type Filter = map<string, FilterValue>

  /**
   * `list_products`' filter: `creator_id` and `design_id` only when
   * non-empty, `is_active` whenever given (false included), and a
   * `base_price` range holding `$gte`/`$lte` for the bounds given.
   */
  predicate FilterFor(f: Filter, creatorId: Option<string>, designId: Option<string>,
                      minPrice: Option<real>, maxPrice: Option<real>, isActive: Option<bool>)
  {
    && ("creator_id" in f <==> creatorId.Some? && creatorId.value != "")
    && ("creator_id" in f ==> f["creator_id"] == Text(creatorId.value))
    && ("design_id" in f <==> designId.Some? && designId.value != "")
    && ("design_id" in f ==> f["design_id"] == Text(designId.value))
    && ("is_active" in f <==> isActive.Some?)
    && ("is_active" in f ==> f["is_active"] == Flag(isActive.value))
    && ("base_price" in f <==> minPrice.Some? || maxPrice.Some?)
    && ("base_price" in f ==>
          f["base_price"].PriceRange?
          && ("$gte" in f["base_price"].bounds <==> minPrice.Some?)
          && ("$lte" in f["base_price"].bounds <==> maxPrice.Some?)
          && (minPrice.Some? ==> f["base_price"].bounds["$gte"] == minPrice.value)
          && (maxPrice.Some? ==> f["base_price"].bounds["$lte"] == maxPrice.value)
          && f["base_price"].bounds.Keys <= {"$gte", "$lte"})
    && f.Keys <= {"creator_id", "design_id", "is_active", "base_price"}
  }

  /** The filter is determined by the query parameters: two filters meeting `FilterFor` are equal. */
  lemma FilterForUnique(f: Filter, g: Filter, creatorId: Option<string>, designId: Option<string>,
                        minPrice: Option<real>, maxPrice: Option<real>, isActive: Option<bool>)
    requires FilterFor(f, creatorId, designId, minPrice, maxPrice, isActive)
    requires FilterFor(g, creatorId, designId, minPrice, maxPrice, isActive)
    ensures f == g
  {
    assert f.Keys == g.Keys;
    if "base_price" in f {
      assert f["base_price"].bounds == g["base_price"].bounds;
    }
  }

  /** `list_products` builds its filter one condition at a time. */
  method BuildFilter(creatorId: Option<string>, designId: Option<string>, minPrice: Option<real>, maxPrice: Option<real>, isActive: Option<bool>)
    returns (f: Filter)
    ensures FilterFor(f, creatorId, designId, minPrice, maxPrice, isActive)
    ensures creatorId.None? && designId.None? && minPrice.None? && maxPrice.None? && isActive.None? ==> f == map[]
  {
    f := map[];
    if creatorId.Some? && creatorId.value != "" {
      f := f["creator_id" := Text(creatorId.value)];
    }
    if designId.Some? && designId.value != "" {
      f := f["design_id" := Text(designId.value)];
    }
    if isActive.Some? {
      f := f["is_active" := Flag(isActive.value)];
    }
    if minPrice.Some? || maxPrice.Some? {
      var priceFilter: map<string, real> := map[];
      if minPrice.Some? {
        priceFilter := priceFilter["$gte" := minPrice.value];
      }
      if maxPrice.Some? {
        priceFilter := priceFilter["$lte" := maxPrice.value];
      }
      assert "$gte" in priceFilter || "$lte" in priceFilter;
      if priceFilter != map[] {
        f := f["base_price" := PriceRange(priceFilter)];
      }
    }
  }

  /** FastAPI's check of `page: Query(1, ge=1)` and `limit: Query(10, ge=1, le=100)`: 422 otherwise. */
  function CheckPagination(page: int, limit: int): (r: Option<HttpError>)
    ensures r.None? <==> page >= 1 && 1 <= limit <= 100
    ensures r.Some? ==> r.value.statusCode == 422
  {
    if page < 1 then Some(HttpError(422, "ensure this value is greater than or equal to 1"))
    else if limit < 1 then Some(HttpError(422, "ensure this value is greater than or equal to 1"))
    else if limit > 100 then Some(HttpError(422, "ensure this value is less than or equal to 100"))
    else None
  }

  /** `list_products`: validate the page, then hand the filter to the service. */
  method ListProducts(page: int, limit: int, creatorId: Option<string>, designId: Option<string>,
                      minPrice: Option<real>, maxPrice: Option<real>, isActive: Option<bool>)
    returns (r: Result<(Filter, int, int), HttpError>)
    ensures CheckPagination(page, limit).Some? ==> r == Err(CheckPagination(page, limit).value)
    ensures CheckPagination(page, limit).None? ==> r.Ok? && r.value.1 == page && r.value.2 == limit
    ensures r.Ok? ==> FilterFor(r.value.0, creatorId, designId, minPrice, maxPrice, isActive)
  {
    var bad := CheckPagination(page, limit);
    if bad.Some? {
      return Err(bad.value);
    }
    var f := BuildFilter(creatorId, designId, minPrice, maxPrice, isActive);
    r := Ok((f, page, limit));
  }

  /** `create_product`: the stored data is the payload with `creator_id` replaced by the caller's id. */
  function CreateProductData(p: Product, currentUserId: string): (d: Product)
    ensures d.creatorId == currentUserId
    ensures d.(creatorId := p.creatorId) == p
  {
    p.(creatorId := currentUserId)
  }

  const UpdateForbidden := "Not authorized to update this product"
  const DeleteForbidden := "Not authorized to delete this product"
  const Deleted := "Product deleted successfully"

  /**
   * `update_product`: the lookup comes first, so a missing product fails
   * with the lookup's error whoever asks; then anyone but the stored creator
   * gets 403; only then is the service asked to apply the supplied fields.
   */
  function UpdateProduct(lookup: Result<Product, HttpError>, currentUserId: string, u: ProductUpdate,
                         service: Result<Product, HttpError>): (r: Result<(set<string>, Product), HttpError>)
    ensures lookup.Err? ==> r == Err(lookup.error)
    ensures lookup.Ok? && lookup.value.creatorId != currentUserId ==> r == Err(HttpError(403, UpdateForbidden))
    ensures r.Ok? ==>
      lookup.Ok? && lookup.value.creatorId == currentUserId && service.Ok?
      && r.value == (SuppliedFields(u), service.value)
    ensures lookup.Ok? && lookup.value.creatorId == currentUserId ==>
      r == match service { case Ok(p) => Ok((SuppliedFields(u), p)) case Err(e) => Err(e) }
  {
    match lookup
    case Err(e) => Err(e)
    case Ok(current) =>
      if current.creatorId != currentUserId then Err(HttpError(403, UpdateForbidden))
      else match service
        case Err(e) => Err(e)
        case Ok(updated) => Ok((SuppliedFields(u), updated))
  }

  /** `delete_product`: the same order of checks; success is the fixed message. */
  function DeleteProduct(lookup: Result<Product, HttpError>, currentUserId: string, service: Result<(), HttpError>)
    : (r: Result<string, HttpError>)
    ensures lookup.Err? ==> r == Err(lookup.error)
    ensures lookup.Ok? && lookup.value.creatorId != currentUserId ==> r == Err(HttpError(403, DeleteForbidden))
    ensures r.Ok? <==> lookup.Ok? && lookup.value.creatorId == currentUserId && service.Ok?
    ensures r.Ok? ==> r.value == Deleted
  {
    match lookup
    case Err(e) => Err(e)
    case Ok(current) =>
      if current.creatorId != currentUserId then Err(HttpError(403, DeleteForbidden))
      else match service
        case Err(e) => Err(e)
        case Ok(_) => Ok(Deleted)
  }

  /** Only the creator recorded at creation time can later update or delete the product. */
  lemma CreatorAloneMayModify(p: Product, creator: string, other: string, u: ProductUpdate,
                              upd: Result<Product, HttpError>, del: Result<(), HttpError>)
    requires other != creator
    ensures UpdateProduct(Ok(CreateProductData(p, creator)), other, u, upd) == Err(HttpError(403, UpdateForbidden))
    ensures DeleteProduct(Ok(CreateProductData(p, creator)), other, del) == Err(HttpError(403, DeleteForbidden))
  {
  }

  /** Starlette's answer to an exception a route lets escape. */
  const InternalError := HttpError(500, "Internal Server Error")

  /**
   * The caller lookup as the routes write it, `get_user_details(token,
   * id=True)`. `get_user_details` takes `token` alone
   * (back/controller/auth.py:35), so binding the `id` keyword raises
   * `TypeError` before the token is read. Even without the keyword, its
   * projection `{"_id": 0, ...}` (back/controller/auth.py:40) drops the
   * `_id` that `current_user['_id']` reads next, a `KeyError`. Either way
   * the request ends in a 500, whatever the token.
   */
  function CallerIdAsWritten(token: string): Result<string, HttpError> {
    Err(InternalError)
  }

  /** `create_product` as written: the caller lookup comes before the data is built. */
  function CreateProductAsWritten(p: Product, token: string): Result<Product, HttpError> {
    match CallerIdAsWritten(token)
    case Err(e) => Err(e)
    case Ok(id) => Ok(CreateProductData(p, id))
  }

  /** `update_product` as written: the product lookup, then the caller lookup, then the intended checks. */
  function UpdateProductAsWritten(lookup: Result<Product, HttpError>, token: string, u: ProductUpdate,
                                  service: Result<Product, HttpError>): Result<(set<string>, Product), HttpError>
  {
    match lookup
    case Err(e) => Err(e)
    case Ok(_) =>
      match CallerIdAsWritten(token)
      case Err(e) => Err(e)
      case Ok(id) => UpdateProduct(lookup, id, u, service)
  }

  /** `delete_product` as written, in the same order as `update_product`. */
  function DeleteProductAsWritten(lookup: Result<Product, HttpError>, token: string, service: Result<(), HttpError>)
    : Result<string, HttpError>
  {
    match lookup
    case Err(e) => Err(e)
    case Ok(_) =>
      match CallerIdAsWritten(token)
      case Err(e) => Err(e)
      case Ok(id) => DeleteProduct(lookup, id, service)
  }

  /**
   * As written, every create is a 500, and so is every update or delete of
   * a product that exists: only the product lookup's own error gets through.
   */
  lemma RoutesFailAsWritten(p: Product, token: string, lookup: Result<Product, HttpError>, u: ProductUpdate,
                            upd: Result<Product, HttpError>, del: Result<(), HttpError>)
    ensures CreateProductAsWritten(p, token) == Err(InternalError)
    ensures UpdateProductAsWritten(lookup, token, u, upd) == if lookup.Err? then Err(lookup.error) else Err(InternalError)
    ensures DeleteProductAsWritten(lookup, token, del) == if lookup.Err? then Err(lookup.error) else Err(InternalError)
  {
  }

  /**
   * Another user's update or delete of a stored product: 403 as intended,
   * but 500 as written, so the creator check is never what answers.
   */
  lemma ForbiddenNeverReachedAsWritten(p: Product, creator: string, other: string, token: string, u: ProductUpdate,
                                       upd: Result<Product, HttpError>, del: Result<(), HttpError>)
    requires other != creator
    ensures UpdateProduct(Ok(CreateProductData(p, creator)), other, u, upd) == Err(HttpError(403, UpdateForbidden))
    ensures UpdateProductAsWritten(Ok(CreateProductData(p, creator)), token, u, upd) == Err(InternalError)
    ensures DeleteProduct(Ok(CreateProductData(p, creator)), other, del) == Err(HttpError(403, DeleteForbidden))
    ensures DeleteProductAsWritten(Ok(CreateProductData(p, creator)), token, del) == Err(InternalError)
  {
    CreatorAloneMayModify(p, creator, other, u, upd, del);
  }
}

=== FILE: product_schemas.dfy ===
/**
 * The product schemas (back/schemas/product.py): the field constraints of
 * `ProductBase`, its `validate_stock` validator and the all-optional
 * `ProductUpdate`.
 *
 * The size and colour enums are the same as those of the order schemas
 * and are shared with them.
 */
module ProductSchemas {
  import opened Wrappers
  import opened OrderSchemas

  /** A `Dict[str, int]` as its entries in insertion order. */
  type StockMap = seq<(string, int)>

  function NegativeStockMessage(key: string): string {
    "Stock for " + key + " cannot be negative"
  }

  /** The first entry, in iteration order, whose count is negative. */
  function FirstNegative(stock: StockMap): (i: Option<nat>)
    ensures i.Some? ==> i.value < |stock| && stock[i.value].1 < 0
    ensures i.Some? ==> forall k :: 0 <= k < i.value ==> stock[k].1 >= 0
    ensures i.None? <==> forall k :: 0 <= k < |stock| ==> stock[k].1 >= 0
  {
    if stock == [] then None
    else if stock[0].1 < 0 then Some(0)
    else
      var rest := FirstNegative(stock[1..]);
      assert forall k :: 1 <= k < |stock| ==> stock[k] == stock[1..][k - 1];
      if rest.Some? then Some(rest.value + 1) else None
  }

  /** What `validate_stock` returns or raises. */
  function StockCheck(stock: StockMap): (r: Result<StockMap, string>)
    ensures r.Ok? <==> forall k :: 0 <= k < |stock| ==> stock[k].1 >= 0
    ensures r.Ok? ==> r.value == stock
  {
    match FirstNegative(stock)
    case Some(i) => Err(NegativeStockMessage(stock[i].0))
    case None => Ok(stock)
  }

  /**
   * `validate_stock`: walk the entries and raise on the first negative
   * count, naming its key; otherwise hand the map back unchanged.
   */
  method ValidateStock(stock: StockMap) returns (r: Result<StockMap, string>)
    ensures r == StockCheck(stock)
    ensures r.Err? ==> exists k :: 0 <= k < |stock| && stock[k].1 < 0 && r.error == NegativeStockMessage(stock[k].0)
  {
    var i := 0;
    while i < |stock|
      invariant 0 <= i <= |stock|
      invariant forall k :: 0 <= k < i ==> stock[k].1 >= 0
    {
      var (key, value) := stock[i];
      if value < 0 {
        assert FirstNegative(stock) == Some(i);
        return Err(NegativeStockMessage(key));
      }
      i := i + 1;
    }
    return Ok(stock);
  }

  const MinNameLength: nat := 3
  const MaxNameLength: nat := 100
  const MaxDescriptionLength: nat := 500

  /** A product as submitted: enums still as text, defaulted fields possibly omitted. */
  datatype RawProduct = RawProduct(
    name: string,
    description: Supplied<string>,
    designId: string,
    creatorId: string,
    basePrice: real,
    sizesAvailable: seq<string>,
    colorsAvailable: seq<string>,
    stock: Supplied<StockMap>,
    isActive: Supplied<bool>)

  /** `ProductBase` after parsing. */
  datatype Product = Product(
    name: string,
    description: Option<string>,
    designId: string,
    creatorId: string,
    basePrice: real,
    sizesAvailable: seq<ProductSize>,
    colorsAvailable: seq<ProductColor>,
    stock: StockMap,
    isActive: bool)

  function ParseSizes(xs: seq<string>): (r: Option<seq<ProductSize>>)
    ensures r.Some? <==> forall k :: 0 <= k < |xs| ==> ParseSize(xs[k]).Some?
    ensures r.Some? ==> |r.value| == |xs| && forall k :: 0 <= k < |xs| ==> r.value[k].Value() == xs[k]
  {
    if xs == [] then Some([])
    else
      var rest := ParseSizes(xs[1..]);
      assert forall k :: 1 <= k < |xs| ==> xs[k] == xs[1..][k - 1];
      if ParseSize(xs[0]).Some? && rest.Some? then Some([ParseSize(xs[0]).value] + rest.value) else None
  }

  function ParseColors(xs: seq<string>): (r: Option<seq<ProductColor>>)
    ensures r.Some? <==> forall k :: 0 <= k < |xs| ==> ParseColor(xs[k]).Some?
    ensures r.Some? ==> |r.value| == |xs| && forall k :: 0 <= k < |xs| ==> r.value[k].Value() == xs[k]
  {
    if xs == [] then Some([])
    else
      var rest := ParseColors(xs[1..]);
      assert forall k :: 1 <= k < |xs| ==> xs[k] == xs[1..][k - 1];
      if ParseColor(xs[0]).Some? && rest.Some? then Some([ParseColor(xs[0]).value] + rest.value) else None
  }

  /** The `stock` field: omitted means `{}`; a given map goes through `validate_stock`. */
  function StockField(v: Supplied<StockMap>): (r: Result<StockMap, string>)
    ensures v.Unset? ==> r == Ok([])
    ensures v.Null? ==> r.Err?
    ensures v.Given? ==> r == StockCheck(v.value)
  {
    match v
    case Unset => Ok([])
    case Null => Err(NoneNotAllowed)
    case Given(s) => StockCheck(s)
  }

  /** The `is_active` field: omitted means true. */
  function ActiveField(v: Supplied<bool>): (r: Result<bool, string>)
    ensures v.Unset? ==> r == Ok(true)
    ensures v.Given? ==> r == Ok(v.value)
    ensures v.Null? ==> r.Err?
  {
    match v
    case Unset => Ok(true)
    case Null => Err(NoneNotAllowed)
    case Given(b) => Ok(b)
  }

  /** Whether every constraint of `ProductBase` holds. */
  predicate Acceptable(raw: RawProduct) {
    MinNameLength <= |raw.name| <= MaxNameLength
    && (raw.description.Given? ==> |raw.description.value| <= MaxDescriptionLength)
    && raw.basePrice > 0.0
    && ParseSizes(raw.sizesAvailable).Some? && ParseColors(raw.colorsAvailable).Some?
    && StockField(raw.stock).Ok? && ActiveField(raw.isActive).Ok?
  }

  /** Parsing a `ProductCreate`; the error list is in field order. */
  function ParseProduct(raw: RawProduct): (r: Result<Product, seq<FieldError>>)
    ensures r.Ok? <==> Acceptable(raw)
    ensures r.Ok? ==>
      r.value.name == raw.name && r.value.basePrice == raw.basePrice
      && r.value.creatorId == raw.creatorId && r.value.designId == raw.designId
      && (raw.stock.Unset? ==> r.value.stock == [])
      && (raw.stock.Given? ==> r.value.stock == raw.stock.value)
      && (raw.isActive.Unset? ==> r.value.isActive)
      && (raw.isActive.Given? ==> r.value.isActive == raw.isActive.value)
      && (raw.description.Given? <==> r.value.description.Some?)
      && (raw.description.Given? ==> r.value.description == Some(raw.description.value))
    ensures r.Ok? ==>
      |r.value.sizesAvailable| == |raw.sizesAvailable|
      && (forall k :: 0 <= k < |raw.sizesAvailable| ==> r.value.sizesAvailable[k].Value() == raw.sizesAvailable[k])
      && |r.value.colorsAvailable| == |raw.colorsAvailable|
      && (forall k :: 0 <= k < |raw.colorsAvailable| ==> r.value.colorsAvailable[k].Value() == raw.colorsAvailable[k])
  {
    var errors :=
      (if |raw.name| < MinNameLength then [FieldError("name", "ensure this value has at least 3 characters")]
       else if |raw.name| > MaxNameLength then [FieldError("name", "ensure this value has at most 100 characters")]
       else [])
      + (if raw.description.Given? && |raw.description.value| > MaxDescriptionLength
         then [FieldError("description", "ensure this value has at most 500 characters")] else [])
      + (if raw.basePrice <= 0.0 then [FieldError("base_price", GreaterThanZero)] else [])
      + (if ParseSizes(raw.sizesAvailable).None? then [FieldError("sizes_available", NotAnEnumMember)] else [])
      + (if ParseColors(raw.colorsAvailable).None? then [FieldError("colors_available", NotAnEnumMember)] else [])
      + (match StockField(raw.stock) case Ok(_) => [] case Err(m) => [FieldError("stock", m)])
      + (match ActiveField(raw.isActive) case Ok(_) => [] case Err(m) => [FieldError("is_active", m)]);
    if errors == [] then
      Ok(Product(raw.name, if raw.description.Given? then Some(raw.description.value) else None,
                 raw.designId, raw.creatorId, raw.basePrice,
                 ParseSizes(raw.sizesAvailable).value, ParseColors(raw.colorsAvailable).value,
                 StockField(raw.stock).value, ActiveField(raw.isActive).value))
    else Err(errors)
  }

  /** A negative count anywhere in the stock rejects the product. */
  lemma NegativeStockRejected(raw: RawProduct, k: nat)
    requires raw.stock.Given? && k < |raw.stock.value| && raw.stock.value[k].1 < 0
    ensures ParseProduct(raw).Err?
  {
  }

  /**
   * `ProductUpdate`: every field optional. A field is either left out or
   * supplied, and a supplied field may be `null`.
   */
  datatype ProductUpdate = ProductUpdate(
    name: Supplied<string>,
    description: Supplied<string>,
    basePrice: Supplied<real>,
    sizesAvailable: Supplied<seq<ProductSize>>,
    colorsAvailable: Supplied<seq<ProductColor>>,
    stock: Supplied<StockMap>,
    isActive: Supplied<bool>)

  /** The empty update: what `ProductUpdate()` holds when nothing is supplied. */
  const NoChange := ProductUpdate(Unset, Unset, Unset, Unset, Unset, Unset, Unset)

  /** The keys of `product_update.dict(exclude_unset=True)`: the supplied fields, `null`s included. */
  function SuppliedFields(u: ProductUpdate): (keys: set<string>)
    ensures u == NoChange ==> keys == {}
    ensures "name" in keys <==> !u.name.Unset?
    ensures "is_active" in keys <==> !u.isActive.Unset?
    ensures "stock" in keys <==> !u.stock.Unset?
    ensures "description" in keys <==> !u.description.Unset?
    ensures "base_price" in keys <==> !u.basePrice.Unset?
    ensures "sizes_available" in keys <==> !u.sizesAvailable.Unset?
    ensures "colors_available" in keys <==> !u.colorsAvailable.Unset?
    ensures keys <= {"name", "description", "base_price", "sizes_available", "colors_available", "stock", "is_active"}
  {
    (if u.name.Unset? then {} else {"name"})
    + (if u.description.Unset? then {} else {"description"})
    + (if u.basePrice.Unset? then {} else {"base_price"})
    + (if u.sizesAvailable.Unset? then {} else {"sizes_available"})
    + (if u.colorsAvailable.Unset? then {} else {"colors_available"})
    + (if u.stock.Unset? then {} else {"stock"})
    + (if u.isActive.Unset? then {} else {"is_active"})
  }
}

=== FILE: prompt_input.dfy ===
/**
 * The design prompt box: its text, the local validation error, the
 * character counter, and the prompts it has handed to the generator.
 */
module PromptInputs {
  import opened Wrappers
  import opened Strings

  const MaxChars: nat := 200
  const EmptyMessage: string := "Please enter a design description"
  const TooLongMessage: string := "Description must be 200 characters or less"

  /**
   * What `validatePrompt` objects to, checked in order: text that is blank
   * once trimmed, then text whose untrimmed length exceeds the limit.
   */
  function PromptProblem(text: string): (r: Option<string>)
    ensures r == Some(EmptyMessage) <==> Trim(text) == []
    ensures r == Some(TooLongMessage) <==> Trim(text) != [] && |text| > MaxChars
    ensures r.None? <==> Trim(text) != [] && |text| <= MaxChars
  {
    if Trim(text) == [] then Some(EmptyMessage)
    else if |text| > MaxChars then Some(TooLongMessage)
    else None
  }

  /** An accepted prompt, once trimmed, is non-empty and within the limit. */
  lemma AcceptedPromptBounds(text: string)
    requires PromptProblem(text).None?
    ensures 0 < |Trim(text)| <= MaxChars
  {
  }

  /** Blank text is refused whatever its length: the emptiness check comes first. */
  lemma BlankBeforeLength(n: nat)
    ensures PromptProblem(seq(n, _ => ' ')) == Some(EmptyMessage)
  {
    var s := seq(n, _ => ' ');
    TrimEmptyIff(s);
  }

  class PromptInput {
    var prompt: string
    var localError: Option<string>
    var charCount: nat
    /** The arguments of every `onGenerate` call, oldest first. */
    var generated: seq<string>

    /**
     * The counter shows the prompt's length, and no error is shown only
     * while the prompt is within the limit.
     */
    predicate Valid()
      reads this
    {
      charCount == |prompt| && (localError.None? ==> |prompt| <= MaxChars)
    }

    constructor ()
      ensures Valid()
      ensures prompt == "" && localError == None && charCount == 0 && generated == []
    {
      prompt := "";
      localError := None;
      charCount := 0;
      generated := [];
    }

    /** `validatePrompt(text)`: records the problem found (or clears it) and reports acceptance. */
    method ValidatePrompt(text: string) returns (ok: bool)
      requires Valid() && text == prompt
      modifies this
      ensures Valid()
      ensures ok <==> PromptProblem(text).None?
      ensures localError == PromptProblem(text)
      ensures prompt == old(prompt) && charCount == old(charCount) && generated == old(generated)
    {
      if Trim(text) == [] {
        localError := Some(EmptyMessage);
        return false;
      }
      if |text| > MaxChars {
        localError := Some(TooLongMessage);
        return false;
      }
      localError := None;
      return true;
    }

    /** `handleSubmit`: the trimmed prompt goes to the generator only when it validates. */
    method HandleSubmit()
      requires Valid()
      modifies this
      ensures Valid()
      ensures localError == PromptProblem(prompt)
      ensures generated == old(generated) + (if PromptProblem(prompt).None? then [Trim(prompt)] else [])
      ensures prompt == old(prompt)
    {
      var ok := ValidatePrompt(prompt);
      if ok {
        generated := generated + [Trim(prompt)];
      }
    }

    /**
     * `handlePromptChange` followed by the counter's effect: the new text
     * replaces the prompt, and the length error is set exactly when it is
     * too long.
     */
    method HandlePromptChange(text: string)
      modifies this
      ensures Valid()
      ensures prompt == text && charCount == |text|
      ensures localError == (if |text| > MaxChars then Some(TooLongMessage) else None)
      ensures generated == old(generated)
    {
      prompt := text;
      if |text| > MaxChars {
        localError := Some(TooLongMessage);
      } else {
        localError := None;
      }
      charCount := |prompt|;
    }

    /**
     * The submit button's `disabled`: exactly when the prompt is blank, a
     * generation is in progress, or a local error is shown.  An enabled
     * button always submits a prompt that validates.
     */
    function SubmitDisabled(isGenerating: bool): (disabled: bool)
      requires Valid()
      reads this
      ensures !disabled ==> PromptProblem(prompt).None? && !isGenerating
      ensures Trim(prompt) == [] ==> disabled
      ensures localError.Some? ==> disabled
      ensures isGenerating ==> disabled
      ensures Trim(prompt) != [] && !isGenerating && localError.None? ==> !disabled
    {
      Trim(prompt) == [] || isGenerating || localError.Some?
    }
  }
}

=== FILE: strings.dfy ===
/**
 * The JavaScript string operations the front end relies on, written out over
 * `seq<char>`: `indexOf`/`includes`, `split` with a non-empty separator,
 * `startsWith`, `replace` with a string pattern (first occurrence only) and
 * `trim`.
 */
module Strings {
  import opened Wrappers

  predicate StartsWith(s: string, prefix: string) {
    |prefix| <= |s| && s[..|prefix|] == prefix
  }

  /** A prefix of a prefix is a prefix, through a chain of four. */
  lemma StartsWithTransitive(s: string, t: string, u: string, v: string, w: string)
    requires StartsWith(s, t) && StartsWith(t, u) && StartsWith(u, v) && StartsWith(v, w)
    ensures StartsWith(s, w)
  {
    assert s[..|w|] == t[..|w|] == u[..|w|] == v[..|w|];
  }

  /** Text starts with whatever it was built from on the left. */
  lemma StartsWithConcat(a: string, b: string)
    ensures StartsWith(a + b, a)
  {
    assert (a + b)[..|a|] == a;
  }

  /** `sep` occurs in `s` at position `i`. */
  predicate OccursAt(s: string, sep: string, i: int) {
    0 <= i && i + |sep| <= |s| && s[i..i + |sep|] == sep
  }

  /** `s.indexOf(sep)`: the first position where `sep` occurs, if any. */
  function IndexOf(s: string, sep: string): (r: Option<nat>)
    ensures r.Some? ==> OccursAt(s, sep, r.value)
    ensures r.Some? ==> forall j :: 0 <= j < r.value ==> !OccursAt(s, sep, j)
    ensures r.None? ==> forall j :: 0 <= j ==> !OccursAt(s, sep, j)
    decreases |s|
  {
    if |s| < |sep| then None
    else if s[..|sep|] == sep then Some(0)
    else
      assert !OccursAt(s, sep, 0);
      ShiftOccurs(s, sep);
      match IndexOf(s[1..], sep)
      case None => None
      case Some(k) => Some(k + 1)
  }

  /** An occurrence in the tail of `s` is an occurrence in `s`, one position later. */
  lemma ShiftOccurs(s: string, sep: string)
    requires |s| >= 1
    ensures forall j :: 1 <= j ==> (OccursAt(s, sep, j) <==> OccursAt(s[1..], sep, j - 1))
  {
    forall j | 1 <= j
      ensures OccursAt(s, sep, j) <==> OccursAt(s[1..], sep, j - 1)
    {
      if j + |sep| <= |s| {
        assert s[1..][j - 1..j - 1 + |sep|] == s[j..j + |sep|];
      }
    }
  }

  /** An occurrence in a prefix of `s` is an occurrence in `s`. */
  lemma PrefixOccurs(s: string, sep: string, i: nat, j: int)
    requires i <= |s| && OccursAt(s[..i], sep, j)
    ensures OccursAt(s, sep, j)
  {
    assert s[..i][j..j + |sep|] == s[j..j + |sep|];
  }

  /** `s.includes(sep)`. */
  predicate Contains(s: string, sep: string) {
    IndexOf(s, sep).Some?
  }

  /** `s.split(sep)` for a non-empty separator. */
  function Split(s: string, sep: string): (r: seq<string>)
    requires |sep| > 0
    ensures |r| >= 1
    ensures forall k :: 0 <= k < |r| ==> !Contains(r[k], sep)
    decreases |s|
  {
    match IndexOf(s, sep)
    case None => [s]
    case Some(i) =>
      assert !Contains(s[..i], sep) by {
        var h := IndexOf(s[..i], sep);
        if h.Some? { PrefixOccurs(s, sep, i, h.value); }
      }
      [s[..i]] + Split(s[i + |sep|..], sep)
  }

  /** `parts.join(sep)`. */
  function Join(parts: seq<string>, sep: string): string
    requires |parts| >= 1
  {
    if |parts| == 1 then parts[0] else parts[0] + sep + Join(parts[1..], sep)
  }

  /** Joining the pieces of a split with the same separator gives the input back. */
  lemma {:induction false} JoinSplit(s: string, sep: string)
    requires |sep| > 0
    ensures Join(Split(s, sep), sep) == s
    decreases |s|
  {
    match IndexOf(s, sep)
    case None =>
    case Some(i) =>
      var rest := s[i + |sep|..];
      JoinSplit(rest, sep);
      SplitAt(s, sep, i);
      JoinCons(s[..i], Split(rest, sep), sep);
      assert s == s[..i] + sep + rest by {
        assert s[i..i + |sep|] == sep;
        assert s == s[..i] + s[i..i + |sep|] + rest;
      }
  }

  /** One step of `Split`: the piece before the first occurrence, then the pieces after it. */
  lemma SplitAt(s: string, sep: string, i: nat)
    requires |sep| > 0 && IndexOf(s, sep) == Some(i)
    ensures Split(s, sep) == [s[..i]] + Split(s[i + |sep|..], sep)
  {
  }

  /** One step of `Join`. */
  lemma JoinCons(a: string, parts: seq<string>, sep: string)
    requires |parts| >= 1
    ensures Join([a] + parts, sep) == a + sep + Join(parts, sep)
  {
    assert ([a] + parts)[1..] == parts;
  }

  /** Splitting a string that does not contain the separator yields it alone. */
  lemma SplitNoSeparator(s: string, sep: string)
    requires |sep| > 0 && !Contains(s, sep)
    ensures Split(s, sep) == [s]
  {
  }

  /**
   * `head + sep + tail` splits into `head` and the pieces of `tail` when the
   * separator's first character does not occur in `head` (so no occurrence can
   * start inside `head`, not even one overlapping the separator).
   */
  lemma SplitAfterFirst(head: string, sep: string, tail: string)
    requires |sep| > 0 && sep[0] !in head
    ensures Split(head + sep + tail, sep) == [head] + Split(tail, sep)
  {
    var s := head + sep + tail;
    assert OccursAt(s, sep, |head|) by { assert s[|head|..|head| + |sep|] == sep; }
    forall j | 0 <= j < |head|
      ensures !OccursAt(s, sep, j)
    {
      assert s[j] == head[j];
    }
    var i := IndexOf(s, sep);
    assert i.Some? && i.value == |head|;
    assert s[..|head|] == head;
    assert s[|head| + |sep|..] == tail;
  }

  /** The first occurrence of `pat` in `s` is at position `i`. */
  predicate FirstAt(s: string, pat: string, i: int) {
    OccursAt(s, pat, i) && forall j :: 0 <= j < i ==> !OccursAt(s, pat, j)
  }

  /** `indexOf` finds the first occurrence. */
  lemma IndexOfFirst(s: string, pat: string, i: int)
    requires FirstAt(s, pat, i)
    ensures IndexOf(s, pat) == Some(i)
  {
    assert OccursAt(s, pat, i);
  }

  /** `s.replace(pattern, "")` with a string pattern: removes the first occurrence only. */
  function RemoveFirst(s: string, pattern: string): (r: string)
    ensures !Contains(s, pattern) ==> r == s
    ensures forall i :: FirstAt(s, pattern, i) ==> r == s[..i] + s[i + |pattern|..]
    ensures Contains(s, pattern) ==> |r| == |s| - |pattern|
  {
    forall i | FirstAt(s, pattern, i)
      ensures IndexOf(s, pattern) == Some(i)
    {
      IndexOfFirst(s, pattern, i);
    }
    match IndexOf(s, pattern)
    case None => s
    case Some(i) => s[..i] + s[i + |pattern|..]
  }

  /** A string that contains the separator splits into at least two pieces. */
  lemma SplitHasTwo(s: string, sep: string)
    requires |sep| > 0 && Contains(s, sep)
    ensures |Split(s, sep)| >= 2
  {
  }

  /** A string that starts with `p + sep` contains `sep`. */
  lemma StartsWithContains(s: string, p: string, sep: string)
    requires StartsWith(s, p + sep)
    ensures Contains(s, sep)
  {
    assert s[|p|..|p| + |sep|] == (p + sep)[|p|..];
    assert OccursAt(s, sep, |p|);
  }

  /** A string without the separator's first character does not contain the separator. */
  lemma NoFirstCharNoContains(s: string, sep: string)
    requires |sep| > 0 && sep[0] !in s
    ensures !Contains(s, sep)
  {
  }

  /**
   * The characters `String.prototype.trim` strips: the ECMAScript WhiteSpace
   * code points (tab, vertical tab, form feed, space, no-break space, byte
   * order mark and the other space separators) and the line terminators.
   */
  predicate IsJsWhitespace(c: char) {
    c == '\U{0009}' || c == '\U{000B}' || c == '\U{000C}' || c == ' ' || c == '\U{00A0}' || c == '\U{FEFF}'
    || c == '\U{1680}' || ('\U{2000}' <= c <= '\U{200A}') || c == '\U{202F}' || c == '\U{205F}' || c == '\U{3000}'
    || c == '\n' || c == '\r' || c == '\U{2028}' || c == '\U{2029}'
  }

  function TrimStart(s: string): (r: string)
    ensures |r| <= |s| && r == s[|s| - |r|..]
    ensures forall k :: 0 <= k < |s| - |r| ==> IsJsWhitespace(s[k])
    ensures r != [] ==> !IsJsWhitespace(r[0])
  {
    if s != [] && IsJsWhitespace(s[0]) then
      var r := TrimStart(s[1..]);
      assert forall k :: 1 <= k < |s| ==> s[k] == s[1..][k - 1];
      r
    else s
  }

  function TrimEnd(s: string): (r: string)
    ensures |r| <= |s| && r == s[..|r|]
    ensures forall k :: |r| <= k < |s| ==> IsJsWhitespace(s[k])
    ensures r != [] ==> !IsJsWhitespace(r[|r| - 1])
  {
    if s != [] && IsJsWhitespace(s[|s| - 1]) then TrimEnd(s[..|s| - 1]) else s
  }

  /** `r` is `s[a..b]`, and only whitespace lies outside it. */
  predicate CutFrom(s: string, r: string, a: int, b: int) {
    0 <= a <= b <= |s| && r == s[a..b]
    && (forall k :: 0 <= k < a ==> IsJsWhitespace(s[k]))
    && (forall k :: b <= k < |s| ==> IsJsWhitespace(s[k]))
  }

  /** `s.trim()`: `s` without its leading and trailing whitespace. */
  function Trim(s: string): (r: string)
    ensures exists a, b :: CutFrom(s, r, a, b)
    ensures r != [] ==> !IsJsWhitespace(r[0]) && !IsJsWhitespace(r[|r| - 1])
  {
    var t := TrimStart(s);
    var r := TrimEnd(t);
    CutTwice(s, t, r, |s| - |t|);
    r
  }

  /**
   * Cutting whitespace off the front of `s` and then off the back of what is
   * left cuts a slice out of `s`, and leaves no whitespace at either end.
   */
  lemma CutTwice(s: string, t: string, r: string, a: int)
    requires 0 <= a <= |s| && t == s[a..]
    requires forall k :: 0 <= k < a ==> IsJsWhitespace(s[k])
    requires t != [] ==> !IsJsWhitespace(t[0])
    requires |r| <= |t| && r == t[..|r|]
    requires forall j :: |r| <= j < |t| ==> IsJsWhitespace(t[j])
    requires r != [] ==> !IsJsWhitespace(r[|r| - 1])
    ensures CutFrom(s, r, a, a + |r|)
    ensures r != [] ==> !IsJsWhitespace(r[0]) && !IsJsWhitespace(r[|r| - 1])
  {
    assert r == s[a..a + |r|];
    forall k | a + |r| <= k < |s|
      ensures IsJsWhitespace(s[k])
    {
      assert s[k] == t[k - a];
    }
    if r != [] {
      assert r[0] == t[0];
    }
  }

  /** Trimming leaves nothing exactly when the text is all whitespace. */
  lemma TrimEmptyIff(s: string)
    ensures Trim(s) == [] <==> forall k :: 0 <= k < |s| ==> IsJsWhitespace(s[k])
  {
  }

  /** Trimming twice is trimming once. */
  lemma TrimIdempotent(s: string)
    ensures Trim(Trim(s)) == Trim(s)
  {
    var r := Trim(s);
    if r != [] {
      assert TrimStart(r) == r;
      assert TrimEnd(r) == r;
    }
  }
}

=== FILE: system_monitor.dfy ===
/**
 * `SystemMonitor` (back/monitoring.py): bounded histories of system-wide and
 * per-worker samples, and the aggregates computed over recent windows.
 *
 * A `deque(maxlen=n)` is a sequence that drops its oldest element when an
 * append would exceed `n`. Each stored sample carries the time it was
 * recorded; the ISO text round trip of that time loses nothing and is not
 * modelled.
 */
module SystemMonitoring {
  import opened Wrappers
  import opened Models
  import LoadBalancing

  /** Capacity of `metrics_history`. */
  const HistoryCap: nat := 1000
  /** Capacity of each worker's history. */
  const WorkerHistoryCap: nat := 100
  /** The horizon of `_calculate_worker_metrics`: 5 minutes. */
  const WorkerWindow: int := 5 * 60 * Second

  /** The windows of `_calculate_system_metrics`: the result key and the span of each. */
  datatype Window = OneMinute | FiveMinutes | OneHour {
    function Key(): string {
      match this
      case OneMinute => "1m"
      case FiveMinutes => "5m"
      case OneHour => "1h"
    }

    function Span(): int {
      match this
      case OneMinute => 60 * Second
      case FiveMinutes => 5 * 60 * Second
      case OneHour => 60 * 60 * Second
    }
  }

  /** The windows in their dict order. */
  const Windows: seq<Window> := [OneMinute, FiveMinutes, OneHour]

  /** A sample together with the `timestamp` added when it was stored. */
  datatype Stamped<T> = Stamped(value: T, timestamp: Time)

  /** The fields of a system sample that the aggregates read. */
  datatype SystemSample = SystemSample(queueLength: int, activeWorkers: int)

  /** `append` on a deque with `maxlen = cap`. */
  function BoundedAppend<T>(s: seq<T>, x: T, cap: nat): (r: seq<T>)
    requires 0 < cap && |s| <= cap
    ensures |r| == if |s| < cap then |s| + 1 else cap
    ensures r[|r| - 1] == x
    ensures r == (s + [x])[|s| + 1 - |r|..]
  {
    if |s| < cap then s + [x] else s[1..] + [x]
  }

  /** At capacity the oldest element goes and the others keep their order. */
  lemma BoundedAppendAtCapacity<T>(s: seq<T>, x: T, cap: nat)
    requires 0 < cap && |s| == cap
    ensures BoundedAppend(s, x, cap)[..cap - 1] == s[1..]
  {
  }

  /** The samples stamped at or after `since`, in their stored order. */
  function Since<T>(xs: seq<Stamped<T>>, since: Time): (r: seq<Stamped<T>>)
    ensures |r| <= |xs|
    ensures forall k :: 0 <= k < |r| ==> r[k].timestamp >= since
    ensures r == [] <==> forall k :: 0 <= k < |xs| ==> xs[k].timestamp < since
  {
    if xs == [] then []
    else (if xs[0].timestamp >= since then [xs[0]] else []) + Since(xs[1..], since)
  }

  /** A later start keeps only samples that an earlier start keeps too. */
  lemma SinceNested<T>(xs: seq<Stamped<T>>, a: Time, b: Time)
    requires a <= b
    ensures Since(xs, b) != [] ==> Since(xs, a) != []
  {
  }

  /** The last sample kept by `Since` is the last sample of `xs` stamped at or after `since`. */
  lemma {:induction false} SinceLast<T>(xs: seq<Stamped<T>>, since: Time) returns (i: nat)
    requires Since(xs, since) != []
    ensures i < |xs| && xs[i] == Since(xs, since)[|Since(xs, since)| - 1]
    ensures xs[i].timestamp >= since
    ensures forall j :: i < j < |xs| ==> xs[j].timestamp < since
  {
    var rest := Since(xs[1..], since);
    if rest == [] {
      i := 0;
      forall j | 0 < j < |xs| ensures xs[j].timestamp < since {
        assert xs[1..][j - 1] == xs[j];
      }
    } else {
      var i' := SinceLast(xs[1..], since);
      i := i' + 1;
      assert xs[1..][i'] == xs[i];
      forall j | i < j < |xs| ensures xs[j].timestamp < since {
        assert xs[1..][j - 1] == xs[j];
      }
    }
  }

  function SumInt(xs: seq<int>): int {
    if xs == [] then 0 else xs[0] + SumInt(xs[1..])
  }

  function SumReal(xs: seq<real>): real {
    if xs == [] then 0.0 else xs[0] + SumReal(xs[1..])
  }

  /** Python's `max` on a non-empty list of numbers. */
  function MaxInt(xs: seq<int>): (m: int)
    requires xs != []
    ensures m in xs && forall k :: 0 <= k < |xs| ==> xs[k] <= m
  {
    if |xs| == 1 then xs[0]
    else
      var rest := MaxInt(xs[1..]);
      assert forall k :: 1 <= k < |xs| ==> xs[k] == xs[1..][k - 1];
      if xs[0] >= rest then xs[0] else rest
  }

  /** A sum of terms each at most `bound` is at most `|xs|·bound`. */
  lemma {:induction false} SumAtMost(xs: seq<int>, bound: int)
    requires forall k :: 0 <= k < |xs| ==> xs[k] <= bound
    ensures SumInt(xs) <= |xs| * bound
  {
    if xs != [] {
      assert forall k :: 0 <= k < |xs| - 1 ==> xs[1..][k] == xs[k + 1];
      SumAtMost(xs[1..], bound);
    }
  }

  /** The aggregates of one window. */
  datatype WindowStats = WindowStats(avgQueueLength: real, maxQueueLength: int, avgActiveWorkers: real)

  function QueueLengths(w: seq<Stamped<SystemSample>>): (r: seq<int>)
    ensures |r| == |w| && forall k :: 0 <= k < |w| ==> r[k] == w[k].value.queueLength
  {
    seq(|w|, k requires 0 <= k < |w| => w[k].value.queueLength)
  }

  function ActiveWorkers(w: seq<Stamped<SystemSample>>): (r: seq<int>)
    ensures |r| == |w| && forall k :: 0 <= k < |w| ==> r[k] == w[k].value.activeWorkers
  {
    seq(|w|, k requires 0 <= k < |w| => w[k].value.activeWorkers)
  }

  /** The three aggregates of a non-empty window: two means (true division) and a maximum. */
  function Stats(w: seq<Stamped<SystemSample>>): (st: WindowStats)
    requires w != []
    ensures st.avgQueueLength * (|w| as real) == SumInt(QueueLengths(w)) as real
    ensures st.avgActiveWorkers * (|w| as real) == SumInt(ActiveWorkers(w)) as real
    ensures st.maxQueueLength in QueueLengths(w)
  {
    WindowStats(
      SumInt(QueueLengths(w)) as real / |w| as real,
      MaxInt(QueueLengths(w)),
      SumInt(ActiveWorkers(w)) as real / |w| as real)
  }

  /** Within a window the maximum queue length is at least the mean. */
  lemma MaxAtLeastAverage(w: seq<Stamped<SystemSample>>)
    requires w != []
    ensures Stats(w).avgQueueLength <= Stats(w).maxQueueLength as real
  {
    var q := QueueLengths(w);
    var m := MaxInt(q);
    SumAtMost(q, m);
    QuotientAtMost(SumInt(q) as real, |w| as real, m as real);
  }

  lemma QuotientAtMost(s: real, n: real, m: real)
    requires n > 0.0 && s <= n * m
    ensures s / n <= m
  {
    var a := s / n;
    assert a * n == s;
    if a > m {
      assert a * n > m * n;
    }
  }

  /** What one window contributes: nothing when it holds no sample. */
  function WindowEntry(history: seq<Stamped<SystemSample>>, now: Time, delta: int): (e: Option<WindowStats>)
    ensures e.None? <==> (forall k :: 0 <= k < |history| ==> history[k].timestamp < now - delta)
  {
    var w := Since(history, now - delta);
    if w == [] then None else Some(Stats(w))
  }

  /** The result dict after the first `n` windows of the loop. */
  function WindowsUpTo(history: seq<Stamped<SystemSample>>, now: Time, n: nat): map<Window, WindowStats>
    requires n <= |Windows|
  {
    if n == 0 then map[]
    else
      var m := WindowsUpTo(history, now, n - 1);
      match WindowEntry(history, now, Windows[n - 1].Span())
      case Some(st) => m[Windows[n - 1] := st]
      case None => m
  }

  /** One turn of the loop: the next window's entry, if any, is added. */
  lemma WindowsUpToStep(history: seq<Stamped<SystemSample>>, now: Time, i: nat)
    requires i < |Windows|
    ensures WindowsUpTo(history, now, i + 1) == match WindowEntry(history, now, Windows[i].Span())
      case Some(st) => WindowsUpTo(history, now, i)[Windows[i] := st]
      case None => WindowsUpTo(history, now, i)
  {
  }

  /** `_calculate_system_metrics` as a value, keyed by window. */
  function SystemMetrics(history: seq<Stamped<SystemSample>>, now: Time): map<Window, WindowStats> {
    if history == [] then map[] else WindowsUpTo(history, now, |Windows|)
  }

  /**
   * The result is empty for an empty history; otherwise a window is present
   * exactly when it holds a sample, with that window's aggregates.
   */
  lemma SystemMetricsEntries(history: seq<Stamped<SystemSample>>, now: Time, w: Window)
    ensures history == [] ==> SystemMetrics(history, now) == map[]
    ensures w in SystemMetrics(history, now) <==> history != [] && WindowEntry(history, now, w.Span()).Some?
    ensures w in SystemMetrics(history, now) ==> SystemMetrics(history, now)[w] == WindowEntry(history, now, w.Span()).value
  {
    if history != [] {
      WindowsUpToStep(history, now, 0);
      WindowsUpToStep(history, now, 1);
      WindowsUpToStep(history, now, 2);
      WindowsUpToKeys(history, now, 1);
      WindowsUpToKeys(history, now, 2);
      match w
      case OneMinute =>
        assert Windows[0] == w;
      case FiveMinutes =>
        assert Windows[1] == w;
      case OneHour =>
        assert Windows[2] == w;
    }
  }

  /** After `n` turns only the first `n` windows can be present. */
  lemma WindowsUpToKeys(history: seq<Stamped<SystemSample>>, now: Time, n: nat)
    requires n <= |Windows|
    ensures forall w :: w in WindowsUpTo(history, now, n) ==> w in Windows[..n]
  {
  }

  /** A sample within the minute also lies within the 5-minute and the hour window. */
  lemma WindowsNested(history: seq<Stamped<SystemSample>>, now: Time)
    ensures WindowEntry(history, now, 60 * Second).Some? ==> WindowEntry(history, now, 5 * 60 * Second).Some?
    ensures WindowEntry(history, now, 5 * 60 * Second).Some? ==> WindowEntry(history, now, 60 * 60 * Second).Some?
  {
    SinceNested(history, now - 5 * 60 * Second, now - 60 * Second);
    SinceNested(history, now - 60 * 60 * Second, now - 5 * 60 * Second);
  }

  /** What `_calculate_worker_metrics` reports for a worker with recent samples. */
  datatype WorkerSummary = WorkerSummary(
    avgGpuUtilization: real,
    avgMemoryAvailable: real,
    tasksCompleted: int,
    errors: int,
    currentTask: Option<string>,
    lastHeartbeat: Time)

  function GpuUtilizations(w: seq<Stamped<LoadBalancing.WorkerStatus>>): (r: seq<real>)
    ensures |r| == |w| && forall k :: 0 <= k < |w| ==> r[k] == w[k].value.gpuUtilization
  {
    seq(|w|, k requires 0 <= k < |w| => w[k].value.gpuUtilization)
  }

  function MemoryAvailable(w: seq<Stamped<LoadBalancing.WorkerStatus>>): (r: seq<real>)
    ensures |r| == |w| && forall k :: 0 <= k < |w| ==> r[k] == w[k].value.memoryAvailable
  {
    seq(|w|, k requires 0 <= k < |w| => w[k].value.memoryAvailable)
  }

  /**
   * `_calculate_worker_metrics`: the empty dict (`None`) when no sample lies
   * in the last 5 minutes; otherwise the means over the recent samples and
   * the counters, task and time of the last recent one.
   */
  function WorkerMetrics(samples: seq<Stamped<LoadBalancing.WorkerStatus>>, now: Time): (r: Option<WorkerSummary>)
    ensures samples == [] ==> r.None?
    ensures r.None? <==> forall k :: 0 <= k < |samples| ==> samples[k].timestamp < now - WorkerWindow
  {
    var recent := Since(samples, now - WorkerWindow);
    if recent == [] then None
    else
      var n := |recent| as real;
      var last := recent[|recent| - 1];
      Some(WorkerSummary(
        SumReal(GpuUtilizations(recent)) / n,
        SumReal(MemoryAvailable(recent)) / n,
        last.value.tasksCompleted,
        last.value.errors,
        last.value.currentTask,
        last.timestamp))
  }

  /** The counters and task reported are those of the last sample stamped within 5 minutes. */
  lemma WorkerMetricsFromLastRecent(samples: seq<Stamped<LoadBalancing.WorkerStatus>>, now: Time)
    requires WorkerMetrics(samples, now).Some?
    ensures exists i :: (0 <= i < |samples| && samples[i].timestamp >= now - WorkerWindow
        && (forall j :: i < j < |samples| ==> samples[j].timestamp < now - WorkerWindow)
        && WorkerMetrics(samples, now).value.tasksCompleted == samples[i].value.tasksCompleted
        && WorkerMetrics(samples, now).value.errors == samples[i].value.errors
        && WorkerMetrics(samples, now).value.currentTask == samples[i].value.currentTask
        && WorkerMetrics(samples, now).value.lastHeartbeat == samples[i].timestamp)
  {
    var i := SinceLast(samples, now - WorkerWindow);
  }

  /** What `get_metrics` returns. */
  datatype MetricsReport = MetricsReport(
    system: map<Window, WindowStats>,
    workers: map<string, Option<WorkerSummary>>,
    timestamp: Time)

  class SystemMonitor {
    var metricsHistory: seq<Stamped<SystemSample>>
    var workerMetrics: map<string, seq<Stamped<LoadBalancing.WorkerStatus>>>

    /** Both kinds of history stay within their `maxlen`. */
    predicate Valid()
      reads this
    {
      |metricsHistory| <= HistoryCap
      && forall id :: id in workerMetrics ==> |workerMetrics[id]| <= WorkerHistoryCap
    }

    constructor ()
      ensures Valid() && metricsHistory == [] && workerMetrics == map[]
    {
      metricsHistory, workerMetrics := [], map[];
    }

    /** `update_system_metrics`: append the stamped sample, dropping the oldest at capacity. */
    method UpdateSystemMetrics(metrics: SystemSample, now: Time)
      requires Valid()
      modifies this
      ensures Valid()
      ensures metricsHistory == BoundedAppend(old(metricsHistory), Stamped(metrics, now), HistoryCap)
      ensures workerMetrics == old(workerMetrics)
    {
      metricsHistory := BoundedAppend(metricsHistory, Stamped(metrics, now), HistoryCap);
    }

    /**
     * `update_worker_metrics`: create the worker's history on first use, then
     * append; other workers' histories are untouched.
     */
    method UpdateWorkerMetrics(workerId: string, metrics: LoadBalancing.WorkerStatus, now: Time)
      requires Valid()
      modifies this
      ensures Valid()
      ensures workerMetrics.Keys == old(workerMetrics).Keys + {workerId}
      ensures workerMetrics[workerId] ==
        BoundedAppend(if workerId in old(workerMetrics) then old(workerMetrics)[workerId] else [],
                      Stamped(metrics, now), WorkerHistoryCap)
      ensures forall id :: id in old(workerMetrics) && id != workerId ==> workerMetrics[id] == old(workerMetrics)[id]
      ensures metricsHistory == old(metricsHistory)
    {
      if workerId !in workerMetrics {
        workerMetrics := workerMetrics[workerId := []];
      }
      workerMetrics := workerMetrics[workerId := BoundedAppend(workerMetrics[workerId], Stamped(metrics, now), WorkerHistoryCap)];
    }

    /** `_calculate_system_metrics`: the loop over the three windows. */
    method CalculateSystemMetrics(now: Time) returns (metrics: map<Window, WindowStats>)
      ensures metrics == SystemMetrics(metricsHistory, now)
    {
      metrics := map[];
      if metricsHistory == [] {
        return;
      }
      var i := 0;
      while i < |Windows|
        invariant 0 <= i <= |Windows|
        invariant metrics == WindowsUpTo(metricsHistory, now, i)
      {
        var entry := WindowEntry(metricsHistory, now, Windows[i].Span());
        WindowsUpToStep(metricsHistory, now, i);
        if entry.Some? {
          metrics := metrics[Windows[i] := entry.value];
        }
        i := i + 1;
      }
    }

    /** `get_metrics`: the system aggregates and one summary per known worker. */
    method GetMetrics(now: Time) returns (report: MetricsReport)
      ensures report.timestamp == now
      ensures report.system == SystemMetrics(metricsHistory, now)
      ensures report.workers.Keys == workerMetrics.Keys
      ensures forall id :: id in workerMetrics ==> report.workers[id] == WorkerMetrics(workerMetrics[id], now)
    {
      var system := CalculateSystemMetrics(now);
      var workers: map<string, Option<WorkerSummary>> := map[];
      var todo := workerMetrics.Keys;
      while todo != {}
        invariant todo <= workerMetrics.Keys
        invariant workers.Keys == workerMetrics.Keys - todo
        invariant forall id :: id in workers ==> workers[id] == WorkerMetrics(workerMetrics[id], now)
        decreases todo
      {
        var id :| id in todo;
        workers := workers[id := WorkerMetrics(workerMetrics[id], now)];
        todo := todo - {id};
      }
      report := MetricsReport(system, workers, now);
    }
  }
}

=== FILE: task_queue.dfy ===
/**
 * The back end's design-job bookkeeping, `TaskQueue` (back/utils/task_queue.py).
 *
 * The queue keeps an authoritative `tasks` map and four partitions of it: the
 * FIFO `pending_tasks` list, the `processing_tasks` map, the `completed_tasks`
 * result map and the `failed_tasks` set. In the source the list and the
 * processing map hold the very `Task` objects that `tasks` holds, so a status
 * change made through one of them is seen through all; the model stores task
 * ids in the partitions and resolves them through `tasks`, which is exactly
 * that sharing.
 *
 * Each operation is specified by a pure transition on `QueueState`; the class
 * `TaskQueue` holds the fields and its methods are proved to perform those
 * transitions. The properties are lemmas about the transitions.
 *
 * The model follows the code where it departs from an idealised dispatcher:
 * `add_task` never appends to `pending_tasks`, `update_task_status` has no
 * terminal-state guard and leaves `processing_tasks` alone, and so
 * `cleanup_timed_out_tasks` can turn a completed task into a failed one.
 */
module TaskQueues {
  import opened Wrappers
  import opened Models

  /** `task_timeout`: 300 seconds. */
  const TaskTimeout: int := 300 * Second

  /** The prefix `add_task` and `update_task_status` put before base64 image text. */
  const DataUrlPrefix: string := "data:image/png;base64,"

  const TimedOutError: ResultDict := map["error" := "Task timed out"]
  const UnknownError: ResultDict := map["error" := "Unknown error"]
  const ApiFailedError: ResultDict := map["error" := "API generation failed"]

  /** The url under which the image of a task is served: `/images/{task_id}.png`. */
  function ImageUrl(taskId: string): string {
    "/images/" + taskId + ".png"
  }

  /** The queue's five collections, as values. */
  datatype QueueState = QueueState(
    tasks: map<string, Task>,
    pending: seq<string>,
    processing: set<string>,
    completed: map<string, ResultDict>,
    failed: set<string>)

  predicate NoDup(s: seq<string>) {
    forall i, j :: 0 <= i < j < |s| ==> s[i] != s[j]
  }

  /**
   * What every reachable queue satisfies: every partition refers to registered
   * tasks under their own ids, the pending list has no repeats and is disjoint
   * from the processing map, and every processing task has a start time.
   */
  predicate Inv(q: QueueState) {
    && (forall id :: id in q.tasks ==> q.tasks[id].id == id)
    && (forall i :: 0 <= i < |q.pending| ==> q.pending[i] in q.tasks && q.pending[i] !in q.processing)
    && NoDup(q.pending)
    && q.processing <= q.tasks.Keys
    && (forall id :: id in q.processing ==> q.tasks[id].startedAt.Some?)
    && q.completed.Keys <= q.tasks.Keys
    && q.failed <= q.tasks.Keys
  }

  /** The empty queue `__init__` builds. */
  const Empty: QueueState := QueueState(map[], [], {}, map[], {})

  lemma EmptyInv()
    ensures Inv(Empty)
  {
  }

  /** `started_at` is set and lies strictly more than `task_timeout` before `now`. */
  predicate TimedOut(t: Task, now: Time) {
    t.startedAt.Some? && now - t.startedAt.value > TaskTimeout
  }

  // ---------------------------------------------------------------- add_task

  /** The reply of the remote inference call: raw bytes, or nothing (a non-200 status or an exception). */
  datatype ApiReply = NoReply | Bytes(data: seq<bv8>)

  /** What `save_image` did: raised with a message, or wrote the PNG and returned its base64 text. */
  datatype SaveReply = SaveRaised(message: string) | Saved(base64Data: string)

  /**
   * `try_api_generation`: no call at all for an empty prompt; otherwise the
   * reply's bytes, when there are any.
   */
  function TryApiGeneration(request: DesignRequest, reply: ApiReply): (r: Option<seq<bv8>>)
    ensures r.Some? <==> request.prompt != "" && reply.Bytes? && |reply.data| > 0
    ensures r.Some? ==> r.value == reply.data
  {
    if request.prompt == "" then None
    else match reply
      case NoReply => None
      case Bytes(data) => if |data| > 0 then Some(data) else None
  }

  /** The result `add_task` stores for a saved image. */
  function ApiResult(taskId: string, base64Data: string): ResultDict {
    map["image_url" := ImageUrl(taskId), "image_data" := DataUrlPrefix + base64Data, "source" := "api"]
  }

  /**
   * `add_task`: register the task, mark it processing, try the inference call
   * and the save, and finish COMPLETED or FAILED. `now` is the time of
   * registration and start, `later` the time after the save.
   */
  function Register(q: QueueState, taskId: string, request: DesignRequest, now: Time, later: Time,
                   reply: ApiReply, save: SaveReply): (r: QueueState)
    requires Inv(q)
    ensures Inv(r)
  {
    var started := NewTask(taskId, request, Pending, now).(status := Processing, startedAt := Some(now));
    match TryApiGeneration(request, reply)
    case None =>
      q.(tasks := q.tasks[taskId := started.(status := Failed, result := Some(ApiFailedError))],
         failed := q.failed + {taskId})
    case Some(_) =>
      match save
      case SaveRaised(message) =>
        q.(tasks := q.tasks[taskId := started.(status := Failed, result := Some(map["error" := message]))],
           failed := q.failed + {taskId})
      case Saved(b64) =>
        var res := ApiResult(taskId, b64);
        q.(tasks := q.tasks[taskId := started.(status := Completed, completedAt := Some(later), result := Some(res))],
           completed := q.completed[taskId := res])
  }

  /**
   * After `add_task` the new task is registered and terminal: COMPLETED with
   * the api result exactly when the prompt is non-empty, the call returned
   * bytes and the save succeeded, FAILED and in `failed_tasks` otherwise.
   * In neither case does it enter `pending_tasks` or `processing_tasks`.
   */
  lemma AddTaskOutcome(q: QueueState, taskId: string, request: DesignRequest, now: Time, later: Time,
                       reply: ApiReply, save: SaveReply)
    requires Inv(q) && taskId !in q.tasks
    ensures var r := Register(q, taskId, request, now, later, reply, save);
      var ok := TryApiGeneration(request, reply).Some? && save.Saved?;
      && taskId in r.tasks
      && r.tasks[taskId].createdAt == now && r.tasks[taskId].startedAt == Some(now)
      && r.tasks[taskId].request == request && r.tasks[taskId].attempts == 0
      && (r.tasks[taskId].status == Completed <==> ok)
      && (r.tasks[taskId].status == Failed <==> !ok)
      && (ok ==> r.completed == q.completed[taskId := ApiResult(taskId, save.base64Data)]
                 && r.tasks[taskId].result == Some(ApiResult(taskId, save.base64Data))
                 && r.tasks[taskId].result.value["source"] == "api"
                 && r.tasks[taskId].result.value["image_url"] == ImageUrl(taskId)
                 && r.failed == q.failed)
      && (!ok ==> r.failed == q.failed + {taskId} && r.completed == q.completed
                  && r.tasks[taskId].completedAt == None)
      && r.pending == q.pending && r.processing == q.processing
      && (forall id :: id in q.tasks ==> id in r.tasks && r.tasks[id] == q.tasks[id])
  {
  }

  // ----------------------------------------------------------- get_next_task

  /**
   * `get_next_task`: nothing on an empty pending list; otherwise pop the front
   * id, put it in `processing_tasks`, mark it PROCESSING and stamp `started_at`.
   */
  function Dequeue(q: QueueState, now: Time): (r: (QueueState, Option<string>))
    requires Inv(q)
    ensures Inv(r.0)
  {
    if q.pending == [] then (q, None)
    else
      var id := q.pending[0];
      assert forall i :: 0 <= i < |q.pending| - 1 ==> q.pending[1..][i] == q.pending[i + 1];
      (q.(tasks := q.tasks[id := q.tasks[id].(status := Processing, startedAt := Some(now))],
          pending := q.pending[1..],
          processing := q.processing + {id}),
       Some(id))
  }

  /** On an empty pending list `get_next_task` returns nothing and changes nothing. */
  lemma NextTaskEmpty(q: QueueState, now: Time)
    requires Inv(q) && q.pending == []
    ensures Dequeue(q, now) == (q, None)
  {
  }

  /**
   * Otherwise it takes exactly the oldest pending task: the front id leaves the
   * list (and is in it nowhere else), joins `processing_tasks` with status
   * PROCESSING and `started_at` = now; no other task changes.
   */
  lemma NextTaskTakesFront(q: QueueState, now: Time)
    requires Inv(q) && q.pending != []
    ensures var (r, got) := Dequeue(q, now);
      var id := q.pending[0];
      && got == Some(id)
      && r.pending == q.pending[1..] && id !in r.pending
      && r.processing == q.processing + {id}
      && r.tasks[id].status == Processing && r.tasks[id].startedAt == Some(now)
      && (forall other :: other in q.tasks && other != id ==> r.tasks[other] == q.tasks[other])
      && r.completed == q.completed && r.failed == q.failed
  {
    var id := q.pending[0];
    forall i | 0 <= i < |q.pending[1..]|
      ensures q.pending[1..][i] != id
    {
      assert q.pending[1..][i] == q.pending[i + 1];
    }
  }

  // --------------------------------------------------------- get_task_status

  /** The dictionary `get_task_status` returns. */
  datatype StatusReport = StatusReport(
    taskId: string,
    status: TaskStatus,
    createdAt: Time,
    startedAt: Option<Time>,
    completedAt: Option<Time>,
    result: Option<ResultDict>)

  function Report(t: Task): StatusReport {
    StatusReport(t.id, t.status, t.createdAt, t.startedAt, t.completedAt, t.result)
  }

  /**
   * `get_task_status`: nothing for an unknown id; a PROCESSING task past the
   * timeout is failed on the spot (without a `completed_at`) before the report.
   */
  function Inspect(q: QueueState, taskId: string, now: Time): (r: (QueueState, Option<StatusReport>))
    requires Inv(q)
    ensures Inv(r.0)
  {
    if taskId !in q.tasks then (q, None)
    else
      var t := q.tasks[taskId];
      if t.status == Processing && TimedOut(t, now) then
        var t' := t.(status := Failed, result := Some(TimedOutError));
        (q.(tasks := q.tasks[taskId := t'],
            processing := q.processing - {taskId},
            failed := q.failed + {taskId}),
         Some(Report(t')))
      else (q, Some(Report(t)))
  }

  /** An unknown id gets no report and the queue is unchanged. */
  lemma StatusOfUnknown(q: QueueState, taskId: string, now: Time)
    requires Inv(q) && taskId !in q.tasks
    ensures Inspect(q, taskId, now) == (q, None)
  {
  }

  /**
   * A PROCESSING task past the timeout is reported FAILED with "Task timed
   * out", leaves `processing_tasks`, joins `failed_tasks`, and keeps whatever
   * `completed_at` it had; any other task is reported as it is, unchanged.
   */
  lemma StatusLazyTimeout(q: QueueState, taskId: string, now: Time)
    requires Inv(q) && taskId in q.tasks
    ensures var (r, rep) := Inspect(q, taskId, now);
      var t := q.tasks[taskId];
      && rep.Some? && rep.value.taskId == taskId
      && (t.status == Processing && TimedOut(t, now) ==>
            && rep.value.status == Failed && rep.value.result == Some(TimedOutError)
            && r.tasks[taskId].completedAt == t.completedAt
            && taskId !in r.processing && taskId in r.failed)
      && (!(t.status == Processing && TimedOut(t, now)) ==> r == q && rep == Some(Report(t)))
  {
  }

  // ------------------------------------------------------ update_task_status

  /** A result entry that Python would call truthy: present and non-empty. */
  predicate Truthy(r: ResultDict, key: string) {
    key in r && r[key] != ""
  }

  /**
   * The completion fix-up: image data without a url gets `/images/{id}.png`;
   * a url without image data gets the data read from the file, when the read
   * succeeds (`readImage`, the file's base64 text).
   */
  function CompleteResult(taskId: string, r: ResultDict, readImage: Option<string>): ResultDict {
    if "image_data" in r && !Truthy(r, "image_url") then r["image_url" := ImageUrl(taskId)]
    else if "image_url" in r && !Truthy(r, "image_data") then
      match readImage
      case Some(b64) => r["image_data" := DataUrlPrefix + b64]
      case None => r
    else r
  }

  /**
   * `update_task_status`. An unknown id is ignored. Otherwise the status is
   * overwritten unconditionally; COMPLETED stamps `completed_at` and records a
   * non-empty result in the task and in `completed_tasks`; FAILED records the
   * result (or "Unknown error") and adds the id to `failed_tasks`.
   */
  function Transition(q: QueueState, taskId: string, status: TaskStatus, result: Option<ResultDict>,
                            readImage: Option<string>, now: Time): (r: QueueState)
    requires Inv(q)
    ensures Inv(r)
  {
    if taskId !in q.tasks then q
    else
      var t := q.tasks[taskId].(status := status);
      match status
      case Completed =>
        var t1 := t.(completedAt := Some(now));
        if result.Some? && |result.value| > 0 then
          var res := CompleteResult(taskId, result.value, readImage);
          q.(tasks := q.tasks[taskId := t1.(result := Some(res))], completed := q.completed[taskId := res])
        else q.(tasks := q.tasks[taskId := t1])
      case Failed =>
        var res := if result.Some? && |result.value| > 0 then result.value else UnknownError;
        q.(tasks := q.tasks[taskId := t.(result := Some(res))], failed := q.failed + {taskId})
      case _ => q.(tasks := q.tasks[taskId := t])
  }

  lemma UpdateUnknownIsNoOp(q: QueueState, taskId: string, status: TaskStatus, result: Option<ResultDict>,
                            readImage: Option<string>, now: Time)
    requires Inv(q) && taskId !in q.tasks
    ensures Transition(q, taskId, status, result, readImage, now) == q
  {
  }

  /**
   * There is no terminal-state guard: whatever the task's current status, even
   * COMPLETED or FAILED, it becomes the requested one. Nor does the update
   * take the task out of `processing_tasks` or `pending_tasks`.
   */
  lemma UpdateOverwritesStatus(q: QueueState, taskId: string, status: TaskStatus, result: Option<ResultDict>,
                               readImage: Option<string>, now: Time)
    requires Inv(q) && taskId in q.tasks
    ensures var r := Transition(q, taskId, status, result, readImage, now);
      && r.tasks[taskId].status == status
      && r.processing == q.processing && r.pending == q.pending
      && r.tasks[taskId].startedAt == q.tasks[taskId].startedAt
      && (forall other :: other in q.tasks && other != taskId ==> r.tasks[other] == q.tasks[other])
  {
  }

  /**
   * COMPLETED with a non-empty result: `completed_at` = now, and the result is
   * in the task and in `completed_tasks`; image data without a url gains
   * `/images/{id}.png`, every other entry is kept.
   */
  lemma UpdateCompleted(q: QueueState, taskId: string, result: ResultDict, readImage: Option<string>, now: Time)
    requires Inv(q) && taskId in q.tasks && |result| > 0
    ensures var r := Transition(q, taskId, Completed, Some(result), readImage, now);
      && r.tasks[taskId].completedAt == Some(now)
      && taskId in r.completed && r.tasks[taskId].result == Some(r.completed[taskId])
      && result.Keys <= r.completed[taskId].Keys
      && ("image_data" in result && !Truthy(result, "image_url") ==>
            r.completed[taskId] == result["image_url" := ImageUrl(taskId)])
      && (forall k :: k in result && k != "image_url" && k != "image_data" ==> r.completed[taskId][k] == result[k])
      && r.failed == q.failed
  {
  }

  /** FAILED without a result stores "Unknown error" and adds the id to `failed_tasks`. */
  lemma UpdateFailedUnknown(q: QueueState, taskId: string, readImage: Option<string>, now: Time)
    requires Inv(q) && taskId in q.tasks
    ensures var r := Transition(q, taskId, Failed, None, readImage, now);
      && r.tasks[taskId].result == Some(UnknownError)
      && r.failed == q.failed + {taskId} && r.completed == q.completed
  {
  }

  // ------------------------------------------------- cleanup_timed_out_tasks

  /** What the sweep writes into a timed-out task. */
  function Expire(t: Task, now: Time): (r: Task)
    ensures r.status == Failed && r.result == Some(TimedOutError) && r.completedAt == Some(now)
    ensures r.id == t.id && r.startedAt == t.startedAt && r.request == t.request
  {
    t.(status := Failed, result := Some(TimedOutError), completedAt := Some(now))
  }

  /** The processing ids the sweep finds timed out. */
  function Expired(q: QueueState, now: Time): set<string> {
    set id | id in q.processing && id in q.tasks && TimedOut(q.tasks[id], now)
  }

  /** The tasks map part-way through the sweep, with the ids in `todo` still to visit. */
  function PartialSweep(q: QueueState, now: Time, todo: set<string>): map<string, Task> {
    map id | id in q.tasks :: if id in Expired(q, now) && id !in todo then Expire(q.tasks[id], now) else q.tasks[id]
  }

  /** Visiting one more id of the sweep rewrites that task alone, and only if it timed out. */
  lemma PartialSweepStep(q: QueueState, now: Time, todo: set<string>, id: string)
    requires id in todo && id in q.tasks
    ensures PartialSweep(q, now, todo - {id}) ==
      if id in Expired(q, now) then PartialSweep(q, now, todo)[id := Expire(q.tasks[id], now)]
      else PartialSweep(q, now, todo)
  {
    var before := PartialSweep(q, now, todo);
    var after := PartialSweep(q, now, todo - {id});
    var wanted := if id in Expired(q, now) then before[id := Expire(q.tasks[id], now)] else before;
    assert after.Keys == wanted.Keys;
    forall k | k in after
      ensures after[k] == wanted[k]
    {
    }
  }

  /** `cleanup_timed_out_tasks`: fail every timed-out processing task, whatever its status. */
  function Sweep(q: QueueState, now: Time): (r: QueueState)
    requires Inv(q)
    ensures Inv(r)
  {
    var expired := Expired(q, now);
    q.(tasks := PartialSweep(q, now, {}),
       processing := q.processing - expired,
       failed := q.failed + expired)
  }

  /**
   * The sweep fails exactly the processing tasks whose `started_at` is more
   * than the timeout old: each becomes FAILED with "Task timed out" and
   * `completed_at` = now, leaves `processing_tasks` and joins `failed_tasks`.
   * Every other task, the pending list and the completed results are untouched.
   */
  lemma SweepFailsExactlyTimedOut(q: QueueState, now: Time, id: string)
    requires Inv(q) && id in q.tasks
    ensures var r := Sweep(q, now);
      && id in r.tasks
      && (id in q.processing && TimedOut(q.tasks[id], now) ==>
            r.tasks[id] == Expire(q.tasks[id], now) && id !in r.processing && id in r.failed)
      && (!(id in q.processing && TimedOut(q.tasks[id], now)) ==>
            r.tasks[id] == q.tasks[id] && (id in r.processing <==> id in q.processing)
            && (id in r.failed <==> id in q.failed))
      && r.pending == q.pending && r.completed == q.completed && r.tasks.Keys == q.tasks.Keys
  {
  }

  /**
   * The sweep does not look at the status: a COMPLETED task that is still in
   * `processing_tasks` (which `update_task_status` never leaves) is flipped to
   * FAILED once its start is older than the timeout, while its result stays
   * in `completed_tasks`.
   */
  lemma SweepFlipsCompleted(q: QueueState, taskId: string, result: ResultDict, readImage: Option<string>,
                            done: Time, now: Time)
    requires Inv(q) && taskId in q.processing && |result| > 0
    requires now - q.tasks[taskId].startedAt.value > TaskTimeout
    ensures var c := Transition(q, taskId, Completed, Some(result), readImage, done);
      var r := Sweep(c, now);
      && c.tasks[taskId].status == Completed
      && r.tasks[taskId].status == Failed && r.tasks[taskId].result == Some(TimedOutError)
      && taskId in r.failed && taskId in r.completed
  {
    var c := Transition(q, taskId, Completed, Some(result), readImage, done);
    UpdateOverwritesStatus(q, taskId, Completed, Some(result), readImage, done);
    SweepFailsExactlyTimedOut(c, now, taskId);
  }

  // -------------------------------------------------- size and the counters

  /** The queue's size never exceeds the number of registered tasks. */
  lemma {:induction false} SizeAtMostTasks(q: QueueState)
    requires Inv(q)
    ensures |q.pending| + |q.processing| <= |q.tasks|
  {
    var ps := PendingSet(q.pending);
    DistinctCard(q.pending);
    assert ps !! q.processing;
    assert ps + q.processing <= q.tasks.Keys;
    SubsetCard(ps + q.processing, q.tasks.Keys);
  }

  function PendingSet(s: seq<string>): set<string> {
    set i | 0 <= i < |s| :: s[i]
  }

  lemma {:induction false} DistinctCard(s: seq<string>)
    requires NoDup(s)
    ensures |PendingSet(s)| == |s|
  {
    if s != [] {
      var t := s[..|s| - 1];
      assert NoDup(t);
      DistinctCard(t);
      assert PendingSet(s) == PendingSet(t) + {s[|s| - 1]};
      assert s[|s| - 1] !in PendingSet(t);
    }
  }

  lemma SubsetCard(a: set<string>, b: set<string>)
    requires a <= b
    ensures |a| <= |b|
  {
    assert b == a + (b - a);
  }

  // ------------------------------------------------------ wait_for_result

  /** `wait_for_result` polls every 0.5 s; the model counts its clock in milliseconds. */
  const PollInterval: int := 500

  /**
   * The result a waiting caller gets back, given a positive timeout: the
   * stored result when the id is in `completed_tasks` (checked before
   * `failed_tasks`), otherwise none.
   */
  function Awaited(q: QueueState, taskId: string, timeout: int): Option<ResultDict> {
    if timeout > 0 && taskId in q.completed then Some(q.completed[taskId]) else None
  }

  /**
   * After `add_task`, a caller waiting with a positive timeout gets the api
   * result exactly when generation and save succeeded, and none otherwise.
   */
  lemma WaitAfterAddTask(q: QueueState, taskId: string, request: DesignRequest, now: Time, later: Time,
                         reply: ApiReply, save: SaveReply, timeout: int)
    requires Inv(q) && taskId !in q.tasks && timeout > 0
    ensures var r := Register(q, taskId, request, now, later, reply, save);
      Awaited(r, taskId, timeout) ==
        if TryApiGeneration(request, reply).Some? && save.Saved? then Some(ApiResult(taskId, save.base64Data))
        else None
  {
    AddTaskOutcome(q, taskId, request, now, later, reply, save);
  }

  /**
   * A task failed first and completed later is in both `failed_tasks` and
   * `completed_tasks`; the waiting caller gets the result, because
   * `completed_tasks` is consulted first.
   */
  lemma CompletedAfterFailedIsAwaited(q: QueueState, taskId: string, result: ResultDict,
                                      readImage: Option<string>, t1: Time, t2: Time)
    requires Inv(q) && taskId in q.tasks && |result| > 0
    ensures var f := Transition(q, taskId, Failed, None, readImage, t1);
      var c := Transition(f, taskId, Completed, Some(result), readImage, t2);
      && taskId in c.failed && taskId in c.completed
      && Awaited(c, taskId, 30) == Some(c.completed[taskId])
  {
  }

  // ------------------------------------------------- runs of operations

  /** One call on the queue, with the outcomes of its foreign steps. */
  datatype Op =
    | AddTaskOp(taskId: string, request: DesignRequest, now: Time, later: Time, reply: ApiReply, save: SaveReply)
    | NextTaskOp(now: Time)
    | StatusOp(taskId: string, now: Time)
    | UpdateOp(taskId: string, status: TaskStatus, result: Option<ResultDict>, readImage: Option<string>, now: Time)
    | CleanupOp(now: Time)

  function Step(q: QueueState, op: Op): (r: QueueState)
    requires Inv(q)
    ensures Inv(r)
  {
    match op
    case AddTaskOp(id, req, now, later, reply, save) => Register(q, id, req, now, later, reply, save)
    case NextTaskOp(now) => Dequeue(q, now).0
    case StatusOp(id, now) => Inspect(q, id, now).0
    case UpdateOp(id, st, res, img, now) => Transition(q, id, st, res, img, now)
    case CleanupOp(now) => Sweep(q, now)
  }

  function Run(q: QueueState, ops: seq<Op>): (r: QueueState)
    requires Inv(q)
    ensures Inv(r)
    decreases |ops|
  {
    if ops == [] then q else Run(Step(q, ops[0]), ops[1..])
  }

  /** No operation ever puts an id on the pending list that was not already there. */
  lemma StepAddsNoPending(q: QueueState, op: Op, id: string)
    requires Inv(q) && id !in q.pending
    ensures id !in Step(q, op).pending
  {
    if op.NextTaskOp? && q.pending != [] {
      assert forall i :: 0 <= i < |q.pending| - 1 ==> q.pending[1..][i] == q.pending[i + 1];
    }
  }

  /**
   * A task handed out by `get_next_task` is never handed out again, whatever
   * operations follow: it never returns to the pending list.
   */
  lemma {:induction false} PoppedNeverReturned(q: QueueState, now: Time, ops: seq<Op>, later: Time)
    requires Inv(q) && q.pending != []
    ensures var (q1, got) := Dequeue(q, now);
      got == Some(q.pending[0]) && Dequeue(Run(q1, ops), later).1 != got
  {
    NextTaskTakesFront(q, now);
    var q1 := Dequeue(q, now).0;
    NotPendingAfterRun(q1, ops, q.pending[0]);
  }

  lemma {:induction false} NotPendingAfterRun(q: QueueState, ops: seq<Op>, id: string)
    requires Inv(q) && id !in q.pending
    ensures id !in Run(q, ops).pending
    decreases |ops|
  {
    if ops != [] {
      StepAddsNoPending(q, ops[0], id);
      NotPendingAfterRun(Step(q, ops[0]), ops[1..], id);
    }
  }

  /**
   * Starting from the empty queue, the pending list stays empty forever:
   * nothing in the queue appends to it, so `get_next_task` never yields a task.
   */
  lemma {:induction false} PendingAlwaysEmpty(ops: seq<Op>, now: Time)
    ensures Run(Empty, ops).pending == []
    ensures Dequeue(Run(Empty, ops), now).1 == None
  {
    EmptyInv();
    var r := Run(Empty, ops);
    if r.pending != [] {
      NotPendingAfterRun(Empty, ops, r.pending[0]);
    }
  }

  // ------------------------------------------------------------ the class

  class TaskQueue {
    var tasks: map<string, Task>
    var pendingTasks: seq<string>
    var processingTasks: set<string>
    var completedTasks: map<string, ResultDict>
    var failedTasks: set<string>

    function State(): QueueState
      reads this
    {
      QueueState(tasks, pendingTasks, processingTasks, completedTasks, failedTasks)
    }

    predicate Valid()
      reads this
    {
      Inv(State())
    }

    constructor ()
      ensures Valid() && State() == Empty
    {
      tasks, pendingTasks, processingTasks, completedTasks, failedTasks := map[], [], {}, map[], {};
    }

    /** `add_task`; `taskId` is the fresh `uuid4` the source draws. */
    method AddTask(request: DesignRequest, taskId: string, now: Time, later: Time, reply: ApiReply, save: SaveReply)
      returns (id: string)
      requires Valid() && taskId !in tasks
      modifies this
      ensures Valid() && id == taskId
      ensures State() == Register(old(State()), taskId, request, now, later, reply, save)
    {
      // `tasks` holds this record from the start; the model writes it back once it is final
      var task := NewTask(taskId, request, Pending, now);
      task := task.(status := Processing, startedAt := Some(now));
      var apiResult := TryApiGeneration(request, reply);
      if apiResult.Some? {
        match save {
          case Saved(b64) =>
            var res := ApiResult(taskId, b64);
            task := task.(status := Completed, completedAt := Some(later), result := Some(res));
            completedTasks := completedTasks[taskId := res];
          case SaveRaised(message) =>
            task := task.(status := Failed, result := Some(map["error" := message]));
            failedTasks := failedTasks + {taskId};
        }
      } else {
        task := task.(status := Failed, result := Some(ApiFailedError));
        failedTasks := failedTasks + {taskId};
      }
      tasks := tasks[taskId := task];
      id := taskId;
    }

    /** `get_next_task`. */
    method GetNextTask(now: Time) returns (task: Option<Task>)
      requires Valid()
      modifies this
      ensures Valid()
      ensures State() == Dequeue(old(State()), now).0
      ensures task.None? <==> old(pendingTasks) == []
      ensures task.Some? ==> task.value.id == old(pendingTasks)[0] && task == Some(tasks[task.value.id])
    {
      if pendingTasks == [] {
        return None;
      }
      var id := pendingTasks[0];
      pendingTasks := pendingTasks[1..];
      processingTasks := processingTasks + {id};
      var t := tasks[id].(status := Processing, startedAt := Some(now));
      tasks := tasks[id := t];
      task := Some(t);
    }

    /** `get_task_status`. */
    method GetTaskStatus(taskId: string, now: Time) returns (report: Option<StatusReport>)
      requires Valid()
      modifies this
      ensures Valid()
      ensures (State(), report) == Inspect(old(State()), taskId, now)
    {
      if taskId !in tasks {
        return None;
      }
      var task := tasks[taskId];
      if task.status == Processing && task.startedAt.Some? && now - task.startedAt.value > TaskTimeout {
        task := task.(status := Failed, result := Some(TimedOutError));
        tasks := tasks[taskId := task];
        if taskId in processingTasks {
          processingTasks := processingTasks - {taskId};
        }
        assert processingTasks == old(processingTasks) - {taskId};
        failedTasks := failedTasks + {taskId};
      }
      report := Some(Report(task));
    }

    /** `update_task_status`; `readImage` is the outcome of reading the image file, when the code reads it. */
    method UpdateTaskStatus(taskId: string, status: TaskStatus, result: Option<ResultDict>,
                            readImage: Option<string>, now: Time)
      requires Valid()
      modifies this
      ensures Valid()
      ensures State() == Transition(old(State()), taskId, status, result, readImage, now)
    {
      if taskId !in tasks {
        return;
      }
      var task := tasks[taskId].(status := status);
      if status == Completed {
        task := task.(completedAt := Some(now));
        if result.Some? && |result.value| > 0 {
          var res := CompleteResult(taskId, result.value, readImage);
          task := task.(result := Some(res));
          completedTasks := completedTasks[taskId := res];
        }
      } else if status == Failed {
        task := task.(result := Some(if result.Some? && |result.value| > 0 then result.value else UnknownError));
        failedTasks := failedTasks + {taskId};
      }
      tasks := tasks[taskId := task];
    }

    /**
     * `cleanup_timed_out_tasks`: one pass over a snapshot of the processing
     * ids. Each step touches only its own id, so the order of the pass does
     * not matter.
     */
    method CleanupTimedOutTasks(now: Time)
      requires Valid()
      modifies this
      ensures Valid()
      ensures State() == Sweep(old(State()), now)
    {
      ghost var q0 := State();
      ghost var expired := Expired(q0, now);
      var todo := processingTasks;
      while todo != {}
        invariant todo <= q0.processing
        invariant tasks == PartialSweep(q0, now, todo)
        invariant processingTasks == q0.processing - (expired - todo)
        invariant failedTasks == q0.failed + (expired - todo)
        invariant pendingTasks == q0.pending && completedTasks == q0.completed
        decreases todo
      {
        var id :| id in todo;
        PartialSweepStep(q0, now, todo, id);
        var task := tasks[id];
        assert task == q0.tasks[id];
        if task.startedAt.Some? && now - task.startedAt.value > TaskTimeout {
          assert id in expired;
          tasks := tasks[id := Expire(task, now)];
          processingTasks := processingTasks - {id};
          failedTasks := failedTasks + {id};
        } else {
          assert id !in expired;
        }
        todo := todo - {id};
      }
    }

    /** `size()`: pending plus processing. */
    function Size(): (n: int)
      reads this
      requires Valid()
      ensures n == PendingCount() + ProcessingCount()
      ensures n <= |tasks|
    {
      SizeAtMostTasks(State());
      |pendingTasks| + |processingTasks|
    }

    function PendingCount(): int
      reads this
    {
      |pendingTasks|
    }

    function ProcessingCount(): int
      reads this
    {
      |processingTasks|
    }

    /**
     * `wait_for_result`: check `completed_tasks`, then `failed_tasks`, and
     * sleep 0.5 s until `timeout` seconds have passed. The model runs the
     * loop on its own clock, in milliseconds since the start; nothing else
     * changes the queue while it waits. `polls` counts the checks made.
     */
    method WaitForResult(taskId: string, timeout: int) returns (r: Option<ResultDict>, polls: nat)
      ensures r == Awaited(State(), taskId, timeout)
      ensures r.Some? ==> taskId in completedTasks && r.value == completedTasks[taskId]
      ensures polls == if timeout <= 0 then 0
                       else if taskId in completedTasks || taskId in failedTasks then 1
                       else 2 * timeout
    {
      var elapsed := 0;
      polls := 0;
      while elapsed < timeout * 1000
        invariant elapsed == PollInterval * polls
        invariant polls > 0 ==> taskId !in completedTasks && taskId !in failedTasks
        invariant timeout > 0 ==> elapsed <= timeout * 1000
        invariant timeout <= 0 ==> polls == 0
        decreases timeout * 1000 - elapsed
      {
        polls := polls + 1;
        if taskId in completedTasks {
          return Some(completedTasks[taskId]), polls;
        }
        if taskId in failedTasks {
          return None, polls;
        }
        elapsed := elapsed + PollInterval;
      }
      r := None;
    }
  }
}

=== FILE: worker_monitor.dfy ===
/**
 * `WorkerMonitor` (worker/monitoring.py): the worker process's own record of
 * its current task and of how many tasks it finished or failed.
 *
 * Whether a GPU is present and what the GPU reports are inputs; the psutil
 * readings of CPU and memory are not modelled.
 */
module WorkerMonitoring {
  import opened Wrappers
  import opened Models

  /** What the CUDA probe returned: it raised, or memory allocated and total in bytes. */
  datatype GpuReading = ProbeRaised | Memory(allocatedBytes: int, totalBytes: int)

  /** The three GPU figures of `_get_gpu_metrics`. */
  datatype GpuMetrics = GpuMetrics(utilization: real, memoryUsedGb: real, memoryTotalGb: real)

  const NoGpu := GpuMetrics(0.0, 0.0, 0.0)
  const Gib: real := (1024 * 1024 * 1024) as real

  /**
   * `_get_gpu_metrics`: all zeros without a GPU or when the probe fails (a
   * zero total raises ZeroDivisionError, caught by the same handler);
   * otherwise the allocated share in percent and both sizes in GiB.
   */
  function GetGpuMetrics(hasGpu: bool, reading: GpuReading): (g: GpuMetrics)
    ensures !hasGpu ==> g == NoGpu
    ensures reading.ProbeRaised? ==> g == NoGpu
    ensures hasGpu && reading.Memory? && reading.totalBytes != 0 ==>
      g.utilization * (reading.totalBytes as real) == (reading.allocatedBytes as real) * 100.0
      && g.memoryTotalGb * Gib == reading.totalBytes as real
      && g.memoryUsedGb * Gib == reading.allocatedBytes as real
  {
    if !hasGpu then NoGpu
    else match reading
      case ProbeRaised => NoGpu
      case Memory(used, total) =>
        if total == 0 then NoGpu
        else GpuMetrics(used as real / total as real * 100.0, used as real / Gib, total as real / Gib)
  }

  /** Utilization stays within 0..100 percent when the allocation is within the total. */
  lemma GpuUtilizationPercent(reading: GpuReading)
    requires reading.Memory? && 0 <= reading.allocatedBytes <= reading.totalBytes && reading.totalBytes > 0
    ensures 0.0 <= GetGpuMetrics(true, reading).utilization <= 100.0
  {
    var g := GetGpuMetrics(true, reading);
    var t := reading.totalBytes as real;
    assert g.utilization * t == (reading.allocatedBytes as real) * 100.0;
    assert (reading.allocatedBytes as real) * 100.0 <= t * 100.0;
  }

  /** The `status` field of `get_status`. */
  datatype WorkerState = Busy | Ready | Error {
    function Text(): string {
      match this
      case Busy => "busy"
      case Ready => "ready"
      case Error => "error"
    }
  }

  /** What `get_status` returns on its normal path, and on its error path. */
  datatype StatusReport =
    | Report(gpuAvailable: bool, gpu: GpuMetrics, currentTask: Option<string>, tasksCompleted: int, errors: int, uptime: real, state: WorkerState)
    | Failure(error: string, state: WorkerState)

  /** `'busy' if current_task else 'ready'`: an empty task id counts as no task. */
  function StateOf(currentTask: Option<string>): (s: WorkerState)
    ensures s == Busy <==> currentTask.Some? && currentTask.value != ""
    ensures s != Error
  {
    if currentTask.Some? && currentTask.value != "" then Busy else Ready
  }

  class WorkerMonitor {
    var currentTask: Option<string>
    var tasksCompleted: int
    var errors: int
    var startTime: Time
    const hasGpu: bool

    /** A fresh monitor: no task, both counters 0; `hasGpu` is the result of `_check_gpu_availability`. */
    constructor (hasGpu: bool, now: Time)
      ensures currentTask == None && tasksCompleted == 0 && errors == 0
      ensures this.hasGpu == hasGpu && startTime == now
    {
      this.hasGpu := hasGpu;
      currentTask, tasksCompleted, errors, startTime := None, 0, 0, now;
    }

    /** `start_task`: record the task; the counters stay. */
    method StartTask(taskId: string)
      modifies this
      ensures currentTask == Some(taskId)
      ensures tasksCompleted == old(tasksCompleted) && errors == old(errors) && startTime == old(startTime)
    {
      currentTask := Some(taskId);
    }

    /** `complete_task`: one more completed task, and no current task. */
    method CompleteTask(taskId: string)
      modifies this
      ensures tasksCompleted == old(tasksCompleted) + 1 && currentTask == None
      ensures errors == old(errors) && startTime == old(startTime)
    {
      tasksCompleted := tasksCompleted + 1;
      currentTask := None;
    }

    /** `fail_task`: one more error, and no current task. */
    method FailTask(taskId: string)
      modifies this
      ensures errors == old(errors) + 1 && currentTask == None
      ensures tasksCompleted == old(tasksCompleted) && startTime == old(startTime)
    {
      errors := errors + 1;
      currentTask := None;
    }

    /**
     * `get_status`: the current task and both counters echoed, the uptime in
   * seconds (`total_seconds()`), busy or ready,
     * or the error report when a system probe raised.
     */
    method GetStatus(probeError: Option<string>, reading: GpuReading, now: Time) returns (r: StatusReport)
      ensures probeError.Some? ==> r == Failure(probeError.value, Error)
      ensures probeError.None? ==>
        r.Report? && r.currentTask == currentTask && r.tasksCompleted == tasksCompleted && r.errors == errors
        && r.gpuAvailable == hasGpu && r.gpu == GetGpuMetrics(hasGpu, reading)
        && r.uptime * (Second as real) == (now - startTime) as real
        && (r.state == Busy <==> currentTask.Some? && currentTask.value != "")
        && (r.state == Ready <==> !(currentTask.Some? && currentTask.value != ""))
    {
      if probeError.Some? {
        return Failure(probeError.value, Error);
      }
      var gpu := GetGpuMetrics(hasGpu, reading);
      r := Report(hasGpu, gpu, currentTask, tasksCompleted, errors, (now - startTime) as real / Second as real, StateOf(currentTask));
    }
  }
}

=== FILE: wrappers.dfy ===
/** Option and Result values used by every module of the model. */
module Wrappers {

  /** A value that may be absent: Python's `None`, JavaScript's `null`/`undefined`. */
  datatype Option<+T> = None | Some(value: T) {
    function GetOr(default: T): T {
      match this
      case Some(v) => v
      case None => default
    }
  }

  /** The outcome of an operation that may raise or throw. */
  datatype Result<+R, +E> = Ok(value: R) | Err(error: E)
}
